=== FILE: README.md ===
# moola, modelled in Dafny

moola is a React Native expense tracker. This project models the pure, sequential logic at its core as immutable data and functions, and states what that logic promises as contracts and lemmas. The model covers three groups:

- **The ledger engine.** The model covers:
  - the expense record, and adding, editing and deleting records;
  - the recurring `nextDue` date, computed with JavaScript's `Date` rollover;
  - the today/week/month/year views and their totals;
  - the "days until" phrase and the backup-overdue check;
  - the main screen's grouping by date, its spending total and its time-progress bar.
- **The app lock.** The model covers:
  - the secure store, a map over the keys `moola_pin` and `moola_lock_method`;
  - start-up loading and self-healing;
  - enabling and disabling a lock method, and checking a PIN;
  - the app-state listener with its biometric auto-unlock;
  - the lock screen: its mount-time check, keypad, submit and emergency reset;
  - the PIN-setup modal's new → confirm → save machine;
  - the older single-file `App.js` versions, wherever they behave differently.
- **Formatters and small rules.** The model covers:
  - the three date formats;
  - `formatAmount` and `formatLargeAmount` with US and EU separators;
  - the CSV export;
  - the 12-hour reminder time;
  - the "last backup" label;
  - the name editor's trim rule;
  - the screen-precedence gate, the splash transition and onboarding;
  - clearing the stored data.

Modelling conventions:
- **Dates.** A date is a `(year, month, day)` triple. Records store dates as `YYYY-MM-DD` strings, as the app does, and the views compare those strings with JavaScript's string order. Lemmas connect that string order to calendar order, for four-digit years.
- **Money.** Amounts are integer cents.
- **Clock and ids.** The clock (`today`, the hour and the minute) and the id of a new record are parameters.
- **Store failures.** The secure store is threaded through the lock operations. A `Fault` value names the 0-based store call of an operation that throws. The calls before it have taken effect; the calls after it never run.
- **Biometrics.** The outcome of the biometric prompt is a boolean parameter.

Modules follow the program's structure:
- **Utilities:**
  - `Wrappers` holds `Option`.
  - `Text` holds digits, `String(n)`, `padStart`, JavaScript string order and `trim`.
  - `Seqs` holds `filter`.
  - `Calendar` holds the Gregorian calendar, day numbers and `Date` rollover.
- **`src/utils` formatters:**
  - `DateFormat` models `src/utils/date.js`.
  - `Money` models `src/utils/format.js`.
- **Ledger screens and export:**
  - `Ledger` models `AddExpenseModal`, the period views and `getDaysUntil`.
  - `Grouping` models `groupByDate`.
  - `Progress` models `getTimeProgress`.
  - `Csv` models `generateCSV`.
- **Settings:** `Settings` covers the backup, reminder and name settings.
- **App lock:**
  - `Lock` holds the security functions of the context.
  - `LockScreen` and `PinSetup` model the two PIN screens.
- **Shell:** `AppShell` models `src/App.js`.

Where the behaviour of the code is surprising, the model keeps it, and lemmas state it:
- **The lock screen's error line.** A digit pressed on a full six-digit input does nothing, so it does not clear the error line either. Every other key press clears it.
- **A half-finished disable.** If `disableAppLock` fails between its two deletes, the method stays in memory with the PIN gone. Leaving the app then locks it without a PIN (`Lock.DisableHalfway`). The lock screen's mount check repairs this under "pin" (`LockScreen.MountRepairsHalfwayDisable`) but not under "both" (`LockScreen.MountIgnoresBoth`).
- **Biometric locks without a PIN.** A "biometric" method in memory locks on leaving the app without any PIN (`Lock.BiometricLocksWithoutPin`). At the next start, loading resets "biometric" and "both" to no lock.
- **`enableLockMethod` can reject.** Its PIN read sits outside any `try`, so a failing store rejects the returned promise (`Reply.Threw`).
- **The older `enableLockMethod`.** The version in `App.js` stores a PIN method even when there is no PIN. The next start-up heals that state (`Lock.LegacyEnableWithoutPin`).
- **"Change PIN" from the main screen.** It opens the PIN modal in `new` mode, so it never asks for the current PIN (`PinSetup.FullFlow`).

## Model

| member | source | states |
|---|---|---|
| Calendar.DaysInMonth | src/screens/MainScreen.js:57 | a month has 28 to 31 days, and 29 exactly for February of a Gregorian leap year |
| Calendar.Normalize | src/modals/AddExpenseModal.js:59-62 | JavaScript's rollover of an out-of-range day gives a valid date on the same linear day count |
| Calendar.AddDays | src/modals/AddExpenseModal.js:60 | `setDate(getDate() + n)` lands exactly n days later and is a valid date |
| Calendar.AddMonthJsSpec | src/modals/AddExpenseModal.js:61 | the month step keeps the day when the next month has it, and otherwise overflows into the month after by the excess days, with no clamping |
| Calendar.AddYearJsSpec | src/modals/AddExpenseModal.js:62 | the year step keeps month and day, except that February 29 becomes March 1 when the next year is common |
| Calendar.DayNumberOrder | src/context/MoolaContext.js:468-470 | the day count orders valid dates chronologically and tells different dates apart |
| Calendar.DayOfWeek | src/utils/date.js:45 | `getDay()` is a weekday number in 0..6, Sunday being 0 |
| Calendar.WeekdayFromEpoch | src/utils/date.js:45 | 1 January 1970 is a Thursday (4), and every date's weekday is that one moved on by its distance in days from that date |
| Calendar.NextDayNextWeekday | src/screens/MainScreen.js:52 | the next day is the next weekday, Saturday (6) being followed by Sunday (0) |
| Calendar.AddWeekSameWeekday | src/screens/MainScreen.js:52 | a date seven days later falls on the same weekday |
| Calendar.LastDayOfMonthJsSpec | src/screens/MainScreen.js:57 | day 0 of the next month is the last day of this month |
| Calendar.YearLengthIsDistance | src/screens/MainScreen.js:60-62 | the Gregorian leap rule gives exactly the number of days from one January 1 to the next, and 366 exactly in leap years |
| DateFormat.FormatDateFixed | src/utils/date.js:15-20 | with a four-digit year the storage form is the year, then month and day padded to two digits, ten characters in all |
| DateFormat.DashedOrder | src/utils/date.js:15-20 | strings of equal-width dashed fields compare field by field |
| DateFormat.FormatDateOrder | src/utils/date.js:11-20 | for four-digit years, string order of the storage form is chronological order, and equal strings mean equal dates |
| DateFormat.FormatDateLessEq | src/context/MoolaContext.js:468-470 | JavaScript's `<=` on two storage strings holds exactly when the first date is not later than the second |
| DateFormat.DisplayDateReordersStorageDate | src/utils/date.js:27-32 | the display form is the storage form's month, day and year fields, reordered as MM-DD-YYYY |
| DateFormat.HeaderDateShape | src/utils/date.js:39-46 | the header is a weekday from the seven-entry table, a middle dot, a month name from the twelve-entry table, and the unpadded day |
| DateFormat.HeaderWeekdayRepeats | src/utils/date.js:40-45 | a date a week later gets the same weekday in its header |
| DateFormat.ParseDate | src/context/MoolaContext.js:485 | a string read as a date gives a valid date with a four-digit year |
| DateFormat.ParseFormatDate | src/utils/date.js:15-20 | every storage string of a four-digit-year date reads back as that same date |
| Ledger.NextDueDate | src/modals/AddExpenseModal.js:59-62 | weekly is exactly 7 days later; monthly is the length of the current month later; yearly is the length of this year later for January and February, and of the next year otherwise; the result is a valid date |
| Ledger.MonthlyFromJanuary31 | src/modals/AddExpenseModal.js:61 | January 31 steps to March 3 in a common year and to March 2 in a leap year |
| Ledger.YearlyFromLeapDay | src/modals/AddExpenseModal.js:62 | February 29 steps one year to March 1 |
| Ledger.FormNextDue | src/modals/AddExpenseModal.js:59-72 | a next-due date is written exactly when the expense is recurring, and it is then the storage form of the next due date of the form's date and frequency |
| Ledger.AddExpense | src/modals/AddExpenseModal.js:76-84 | adding prepends one record carrying the form's values and the new id, and leaves every earlier record unchanged and in order; `freq` is the selected frequency when recurring and null otherwise, and `nextDue` is the form's next-due string |
| Ledger.AddedNextDueReadsBack | src/modals/AddExpenseModal.js:59-83 | a recurring record added by the form stores the selected frequency, and its `nextDue` string reads back as the next due date, which lies after the record's date |
| Ledger.NextDueIsLater | src/modals/AddExpenseModal.js:59-62 | every frequency moves the due date strictly forward |
| Ledger.EditExpense | src/modals/AddExpenseModal.js:64-73 | editing keeps the length and every id, leaves records with other ids untouched, and gives matching records the form's amount, note, date and toggle, the selected `freq` even when not recurring, and the form's next-due string as `nextDue` |
| Ledger.SaveExpense | src/modals/AddExpenseModal.js:53-93 | an empty amount field changes nothing; a new expense adds exactly one record in front; an edit keeps the number of records |
| Ledger.DeleteExpense | src/modals/AddExpenseModal.js:95-100 | without an edited record nothing changes; otherwise exactly the records with the edited id go, and the rest keep their order |
| Ledger.DeleteKeepsMultiplicity | src/modals/AddExpenseModal.js:97 | a delete keeps each other record exactly as many times as it was stored |
| Ledger.DeleteIdempotent | src/modals/AddExpenseModal.js:95-100 | deleting twice is the same as deleting once |
| Ledger.DeleteUndoesAdd | src/modals/AddExpenseModal.js:76-100 | deleting a record just added under a fresh id restores the ledger |
| Ledger.DeleteAfterEdit | src/modals/AddExpenseModal.js:64-100 | an edit does not change which records a later delete removes or keeps |
| Ledger.EditIdempotent | src/modals/AddExpenseModal.js:64-73 | saving the same form over the same record twice is the same as saving it once |
| Ledger.TotalConcat | src/context/MoolaContext.js:473-476 | the total of two lists put together is the sum of their totals |
| Ledger.TotalSplits | src/screens/MainScreen.js:68 | the spending total (one-off items) plus the recurring total is the view's total |
| Ledger.PeriodStart | src/context/MoolaContext.js:461-465 | each period's window opens on a valid date |
| Ledger.GetData | src/context/MoolaContext.js:461-477 | a view's items are the records in the period's window, in ledger order, each as many times as the ledger holds it; the view's total is the sum of those items' amounts |
| Ledger.WeekStartYear | src/context/MoolaContext.js:462-463 | the week window opens in this year or the previous one |
| Ledger.StringWindow | src/context/MoolaContext.js:468-470 | a storage string lies between two others in string order exactly when its date lies between their dates |
| Ledger.PeriodWindow | src/context/MoolaContext.js:461-470 | for a record written by the app, each view's string test is the date window of that period, capped at today |
| Ledger.PeriodMembership | src/context/MoolaContext.js:461-470 | in calendar terms: today only; the last seven days including today; this month up to today; this year up to today |
| Ledger.FutureNeverShown | src/context/MoolaContext.js:467-470 | no view shows a record dated after today |
| Ledger.PeriodsNest | src/context/MoolaContext.js:467-470 | a record in today's view is in the week, month and year views, and a record in the month view is in the year view |
| Ledger.ViewsNest | src/context/MoolaContext.js:467-477 | today's view is the week view, and the month view, filtered to today; the month view is the year view filtered to this month |
| Ledger.AddTodayRaisesEveryView | src/context/MoolaContext.js:467-477 | adding an expense dated today puts it first in every view and raises every view's total by its amount |
| Ledger.DaysUntilText | src/context/MoolaContext.js:483-491 | a due date that does not read as a date gives "in NaNd" |
| Ledger.DaysUntilSpec | src/context/MoolaContext.js:483-491 | a due date n days away reads "due today" for 0, "tomorrow" for 1, "|n|d overdue" below 0 and "in nd" above 1 |
| Ledger.DistancePhraseInjective | src/context/MoolaContext.js:487-490 | different day distances give different phrases |
| Ledger.DaysUntilDistinguishes | src/context/MoolaContext.js:483-491 | due dates at different distances from today get different phrases |
| Grouping.AddItem | src/screens/MainScreen.js:72-76 | one `forEach` step appends the item to its own date's group, adds its amount to that group's total, and leaves the other groups alone |
| Grouping.Collect | src/screens/MainScreen.js:71-76 | before sorting there is one group per date of the list; each holds that date's items in list order, with their total; the totals sum to the list's total |
| Grouping.AppendByDate | src/screens/MainScreen.js:72-75 | appending an item extends exactly its own date's selection and total |
| Grouping.LookupFindsGroup | src/screens/MainScreen.js:73 | with distinct keys, looking a date up finds that date's own group |
| Grouping.InsertDesc | src/screens/MainScreen.js:77 | one sorting step keeps the keys strictly descending, and keeps the groups, the keys and the total |
| Grouping.SortDesc | src/screens/MainScreen.js:77 | sorting newest first is a strictly descending permutation of the groups with the same total |
| Grouping.GroupByDate | src/screens/MainScreen.js:70-78 | the groups have distinct keys in strictly descending order, one per date of the list; each holds exactly that date's items in list order with their sum as total; the group totals add up to the list's total |
| Grouping.SortedGroupsAreCollected | src/screens/MainScreen.js:77 | any reordering of the collected groups keeps each group's items and total |
| Money.WholePart | src/utils/format.js:29-30 | the part of `toFixed(2)` before the point is never empty |
| Money.FractionPart | src/utils/format.js:29-30 | the part of `toFixed(2)` after the point is exactly two digits |
| Money.ToFixed2 | src/utils/format.js:29 | `toFixed(2)` has a point followed by exactly two characters |
| Money.ToFixed2RoundTrip | src/utils/format.js:29 | `toFixed(2)` of a cent amount reads back as the same amount |
| Money.RoundHalfUp | src/utils/format.js:24 | `Math.round` gives the whole number nearest the amount, with halves rounded up |
| Money.Group3WellGrouped | src/utils/format.js:26 | grouping a digit string puts a separator before every full block of three digits counted from the right |
| Money.Group3Remove | src/utils/format.js:26 | deleting the separators from a grouped digit string restores the digits |
| Money.GroupUnique | src/utils/format.js:26 | a well-grouped string is the grouping of its own digits, so the grouping is the only one |
| Money.GroupNumeralRemove | src/utils/format.js:26 | grouping a signed numeral and deleting the separators gives the numeral back |
| Money.FormatAmount | src/utils/format.js:20-35 | with `showSymbol` the text starts with the currency symbol; without `hideDecimals` it ends with the locale's decimal separator and two fraction digits |
| Money.FormatLargeAmount | src/utils/format.js:46-58 | decimal and separator are absent exactly with `hideDecimals`; otherwise the decimal is the amount's two cent digits and the separator is the locale's decimal mark; the whole part with the locale's thousands separators removed is the plain (rounded, under `hideDecimals`) numeral |
| Money.LargeAmountAgrees | src/utils/format.js:23-31 | the large form's pieces, put back together, are `formatAmount` without the symbol |
| Money.FormatAmountReadsBack | src/utils/format.js:20-35 | `formatAmount` shows the amount exactly, or rounded to whole units under `hideDecimals` |
| Money.RoundedBodyReadsBack | src/utils/format.js:23-27 | the rounded text reads back as the rounded whole amount |
| Money.ExactBodyReadsBack | src/utils/format.js:28-32 | the two-decimal text reads back as the exact amount in either locale |
| Progress.DayFraction | src/screens/MainScreen.js:49 | the fraction of the day lies in [0, 1) |
| Progress.DaysInYearInline | src/screens/MainScreen.js:62 | the inline year length is 365 or 366 |
| Progress.TimeProgress | src/screens/MainScreen.js:46-64 | the progress of every period lies in [0, 1) |
| Progress.DayOfYearRange | src/screens/MainScreen.js:60-61 | the day of the year counts from 0 and stays below the year's length |
| Progress.InlineLeapRule | src/screens/MainScreen.js:62 | the inline leap rule gives the calendar's year length, the distance from one January 1 to the next |
| Progress.DayFractionMonotone | src/screens/MainScreen.js:49 | within a day the fraction grows with the time |
| Progress.ProgressMonotone | src/screens/MainScreen.js:46-64 | within one period, a later reading never shows less progress |
| Progress.ProgressStartsAtZero | src/screens/MainScreen.js:46-64 | each period's progress is 0 at its first minute |
| Csv.ReplaceFirstAfter | src/modals/ExportModal.js:27 | `replace('.', ',')` changes only the first point |
| Csv.AmountText | src/modals/ExportModal.js:27 | the EU amount is the whole part, a comma and the two fraction digits |
| Csv.Rows | src/modals/ExportModal.js:26-29 | one row per expense, in list order |
| Csv.InsertByDateSpec | src/modals/ExportModal.js:26 | one insertion step keeps the list newest first, adds exactly the record, and puts it before the records of its own date |
| Csv.SortByDateDescSpec | src/modals/ExportModal.js:26 | the sort orders newest first, keeps every record, and keeps the ledger order among equal dates |
| Csv.GenerateCsv | src/modals/ExportModal.js:24-31 | the text starts with the header line; an empty list gives the header alone |
| Csv.ExportReorders | src/modals/ExportModal.js:26 | the in-place sort leaves the app's list a newest-first permutation of the records |
| Csv.CsvLines | src/modals/ExportModal.js:25-30 | with no line feeds in dates, notes or currency code, the text splits into the header line and one line per record, newest first; an empty ledger leaves the header line followed by one empty line |
| Csv.RowFieldsUs | src/modals/ExportModal.js:25-28 | in US format, with no commas in date, note or code, a row splits into its six values, as many as the header's column names |
| Csv.HeaderSplits | src/modals/ExportModal.js:25 | the header line splits on commas into Date, Amount, Currency, Note, Recurring and Frequency |
| Csv.RowFieldsEu | src/modals/ExportModal.js:27-28 | in EU format the decimal comma splits the amount in two, so a row reads as seven fields |
| Csv.SplitJoin | src/modals/ExportModal.js:28-29 | splitting a join of separator-free parts gives the parts back |
| Csv.NoteFieldReadsBack | src/modals/ExportModal.js:28 | read as RFC 4180 (section 2), the quoted note gives the note back exactly when the note holds no double quote |
| Csv.LoneQuoteNote | src/modals/ExportModal.js:28 | a note with one quote in it makes its field malformed |
| Settings.ElapsedDays | src/settings/SettingsBackup.js:21-23 | the day count exists exactly when the stored export date reads as a date |
| Settings.ElapsedSinceFormatted | src/settings/SettingsBackup.js:21-23 | a date written by the app gives the number of calendar days from it to today |
| Settings.NumberText | src/settings/SettingsBackup.js:26 | a day count prints as "NaN" exactly when it is NaN |
| Settings.DaysLabelInjective | src/settings/SettingsBackup.js:24-26 | different day counts get different labels |
| Settings.LastBackupTextDistinguishes | src/settings/SettingsBackup.js:19-27 | two exports written by the app get the same label exactly when they fall on the same day |
| Settings.LabelOfFormatted | src/settings/SettingsBackup.js:19-27 | the label of an export written by the app is the label of its calendar distance from today |
| Settings.MessageAgreesWithLabel | src/context/MoolaContext.js:191-200 | past the first day the banner says what the settings label says; at one day both say "yesterday" |
| Settings.OverdueAfter | src/context/MoolaContext.js:184-188 | the reminder period is 7 days exactly for "weekly", and 30 days otherwise |
| Settings.OverdueExactlyAfterPeriod | src/context/MoolaContext.js:177-189 | with the reminder off or no export, it is never due; after an export on day d, it is due on day d + k exactly when k reaches the period |
| Settings.OverdueStaysOverdue | src/context/MoolaContext.js:177-189 | once due, the reminder stays due as days pass |
| Settings.WeeklyDueBeforeMonthly | src/context/MoolaContext.js:184-188 | whenever a monthly reminder is due, a weekly one would be too |
| Settings.DisplayHour | src/settings/SettingsReminders.js:26 | the displayed hour is in 1..12 and agrees with the hour on a 12-hour dial |
| Settings.FormatTime | src/settings/SettingsReminders.js:22-28 | the time ends in "AM" before noon and "PM" from noon on |
| Settings.FormatTimeReadsBack | src/settings/SettingsReminders.js:22-28 | the displayed time reads back as the hour (0-23) and the minute, so no two times of day look alike |
| Settings.TwelveOClock | src/settings/SettingsReminders.js:25-27 | hour 0 shows as 12 AM and hour 12 as 12 PM, with the minutes padded to two digits |
| Settings.SaveName | src/settings/SettingsName.js:13-18 | the screen goes back exactly when Save is enabled; otherwise the stored name is unchanged |
| Settings.SaveNameSpec | src/settings/SettingsName.js:13-38 | Save is disabled exactly for whitespace-only input; a saved name is the input with whitespace cut from its ends, starts and ends with a visible character, and saves again unchanged |
| Lock.MethodNameInjective | src/constants/config.js:18 | the four lock methods are stored as four different strings |
| Lock.LoadSecuritySettings | src/context/MoolaContext.js:235-268 | start-up ends locked only under "pin" with a PIN of at least four characters, and otherwise with no lock; it only ever deletes keys |
| Lock.LoadLocksIff | src/context/MoolaContext.js:235-268 | start-up locks exactly when both reads succeed, the method is "pin" and the PIN has at least four characters |
| Lock.LoadHeals | src/context/MoolaContext.js:246-262 | a "pin" method without a valid PIN loses both keys; any other method that is not "none" loses only the method key |
| Lock.LoadStable | src/context/MoolaContext.js:235-268 | after a start-up without failures, a second start-up finds the same state and changes nothing |
| Lock.SaveLockMethod | src/context/MoolaContext.js:270-277 | a successful write stores the method and adopts it in memory; a failed one changes nothing |
| Lock.SavePin | src/context/MoolaContext.js:279-287 | the PIN is stored exactly when the write reports success |
| Lock.VerifySavedPin | src/context/MoolaContext.js:289-297 | a saved PIN verifies with itself and with nothing else |
| Lock.NothingVerifiesWithoutPin | App.js:617-625 | without a stored PIN, or when the read fails, no input verifies |
| Lock.DisableAppLock | src/context/MoolaContext.js:322-331 | both keys go, and the app ends unlocked with no lock; a failure leaves the method and lock flag as they were, with the PIN already gone if the second delete failed |
| Lock.DisableThenLoad | src/context/MoolaContext.js:322-331 | after a disable, start-up finds no lock |
| Lock.EnableLockMethod | src/context/MoolaContext.js:333-352 | "none" disables; a failed PIN read rejects; a PIN setup is asked for exactly for "pin" or "both" with no PIN, and then nothing changes; every other key keeps its value; with a PIN (or biometrics for "biometric") and no fault, the method is stored and adopted |
| Lock.LegacyEnableLockMethod | App.js:726-746 | the older version writes a PIN method even when no PIN exists, and asks for a PIN setup in the same cases |
| Lock.LegacyEnableWithoutPin | App.js:735-740 | without a PIN, the current version writes nothing; the older one stores the method, and the next start-up heals it back to no lock |
| Lock.LegacyEnableAgreesWithPin | App.js:726-746 | with a PIN stored, both versions do the same thing |
| Lock.HandleUnlock | src/context/MoolaContext.js:313-320 | only a biometric method ("biometric" or "both") opens the app, and only on a successful prompt |
| Lock.OnAppStateChange | src/context/MoolaContext.js:540-557 | a change from "active" or "inactive" (the pattern `/active/` matches both) to "inactive" or "background" locks exactly when a method is set; the biometric prompt is shown exactly on a return to "active" under "biometric" or "both"; the store and the method are never touched |
| Lock.LegacyOnAppStateChange | App.js:752-768 | the older listener locks in the same cases, but shows the biometric prompt on a return to "active" only when the app is locked |
| Lock.AppStateLocking | src/context/MoolaContext.js:540-557 | leaving the foreground locks exactly when a method is set (or the app was locked already); coming back opens only a biometric method, on a successful prompt; "pin" never opens by itself |
| Lock.LegacyListenerAgrees | App.js:761-765 | both listeners leave the same lock state; the older one shows the prompt only where the newer one does, and not to an open app returning under a biometric method |
| Lock.CoherentIsSafe | src/context/MoolaContext.js:246-258 | in a coherent state the app is never locked without a valid PIN |
| Lock.LoadIsCoherent | src/context/MoolaContext.js:235-268 | every start-up, whatever fails, leaves the app coherent |
| Lock.EnableKeepsCoherent | src/context/MoolaContext.js:333-352 | enabling a method from the open settings keeps the app coherent, unless a disable fails halfway |
| Lock.DisableHalfway | src/context/MoolaContext.js:322-331 | a disable whose second delete fails leaves a "pin" method with no PIN, and leaving the app then locks it |
| Lock.AppStateKeepsCoherent | src/context/MoolaContext.js:540-557 | status changes keep a coherent app coherent when the method is not "biometric" |
| Lock.BiometricLocksWithoutPin | src/context/MoolaContext.js:541-545 | a "biometric" method in memory locks on leaving the app with no PIN stored |
| LockScreen.MountCheck | src/screens/LockScreen.js:25-42 | the check never locks; a "pin" method without a valid PIN opens the app; the method stays or becomes no lock; keys are only deleted |
| LockScreen.MountRepairsHalfwayDisable | src/screens/LockScreen.js:25-35 | an app locked under "pin" after a half-finished disable opens again, with both keys gone |
| LockScreen.MountIgnoresBoth | src/screens/LockScreen.js:29 | under "both", a missing PIN keeps the app locked |
| LockScreen.KeyPress | src/screens/LockScreen.js:44-52 | the input never grows past six characters; a press either clears the error or changes nothing; nothing changes exactly for a digit on a full input, or a delete on an empty input with no error |
| LockScreen.DeleteUndoesDigit | src/screens/LockScreen.js:44-52 | a delete takes back the digit just typed |
| LockScreen.TypingKeepsFirstSix | src/screens/LockScreen.js:48-49 | typing digits keeps only as many as fit in six places, in the order typed |
| LockScreen.TypeFull | src/screens/LockScreen.js:48 | a full input takes no more digits |
| LockScreen.Submit | src/screens/LockScreen.js:54-64 | the input is cleared either way; the app opens exactly when the PIN verifies; otherwise the error reads "Incorrect PIN" |
| LockScreen.SubmitOpensOnlyWithPin | src/screens/LockScreen.js:54-64 | a locked, coherent app opens from the keypad exactly with the stored PIN, which the enabled button allows |
| LockScreen.EmergencyReset | src/screens/LockScreen.js:66-76 | a reset only deletes keys; a failure stops it where it is |
| LockScreen.EmergencyResetOpens | src/screens/LockScreen.js:66-76 | a reset that goes through opens the app with no lock and no PIN check, and the next start-up finds no lock either |
| PinSetup.HandleClose | src/modals/PinSetupModal.js:23-30 | closing gives an empty `new` setup for "pin" |
| PinSetup.HandleKeyPress | src/modals/PinSetupModal.js:69-77 | the input stays at most six digits; the blank key changes nothing; the mode, the kept PIN and the target never change |
| PinSetup.HandlePinSubmit | src/modals/PinSetupModal.js:32-67 | fewer than four digits only sets the error; the modal closes exactly when a matching confirmation is saved; the session changes only then |
| PinSetup.OpenedWellFormed | src/modals/PinSetupModal.js:20-21 | a modal opened outside `confirm` for a PIN method is well formed |
| PinSetup.KeyPressKeepsWellFormed | src/modals/PinSetupModal.js:69-77 | key presses keep the modal well formed |
| PinSetup.SubmitKeepsInvariants | src/modals/PinSetupModal.js:32-67 | a submit keeps the modal well formed, the stored PINs valid and the lock coherent |
| PinSetup.MismatchStartsOver | src/modals/PinSetupModal.js:50-55 | a confirmation that does not match starts over in `new` mode with "PINs do not match" |
| PinSetup.ChangeNeedsCurrentPin | src/modals/PinSetupModal.js:56-66 | `change` mode moves on to `new` exactly when the current PIN verifies, and touches nothing stored |
| PinSetup.FullFlow | src/modals/PinSetupModal.js:32-67 | typing, submitting, retyping and submitting a four-to-six-digit PIN stores it and the target method and closes; from the main screen no current PIN is asked for |
| PinSetup.TypingFills | src/modals/PinSetupModal.js:73-75 | up to six digits typed come out in the input as typed |
| AppShell.Render | src/App.js:53-88 | loading shows only the loading view; the lock screen shows exactly when locked on the main screen; the main screen never shows while locked |
| AppShell.LockGatesOnlyMain | App.js:2205-2207 | the lock flag changes nothing off the main screen, and each screen is drawn as a view of its own |
| AppShell.SplashEffect | src/App.js:46-51 | a transition is scheduled exactly on the first run with the splash screen up and loading done, to the main screen after onboarding and to onboarding before it |
| AppShell.SplashFiresOnce | src/App.js:46-51 | once fired, the effect never schedules again, whatever else changes |
| AppShell.CompleteOnboarding | src/App.js:40-44 | onboarding is marked complete and the screen becomes the main screen |
| AppShell.OnboardingStartDate | src/App.js:40-44 | the stored start date reads back as the onboarding date, and an open app then shows the main screen |
| AppShell.ClearAllData | src/context/MoolaContext.js:448-455 | only the expenses and preferences keys go, and the list is emptied only when the removal works; a failure changes nothing |
| AppShell.ClearIdempotent | App.js:921-930 | clearing twice is the same as clearing once |

## Left out

- **Floating point.** Amounts are JavaScript doubles, and `parseFloat`, `toFixed` and `Math.round` have binary rounding quirks. The model uses integer cents, so the amount text of a form is already parsed into cents. `parseFloat` of text that is not a number (which makes NaN amounts) is not modelled.
- **Large numbers.** Amounts of 10^21 or more, where `toString` switches to exponent notation, are not modelled.
- **Time zones.** `new Date('YYYY-MM-DD')` parses as UTC midnight, while `new Date()` and `getToday` are local time. `Settings.ElapsedDays` takes the intended whole-day difference of calendar dates. The backup label (`src/settings/SettingsBackup.js:21-23`), the overdue check and its message (`src/context/MoolaContext.js:180-182` and `194-196`) all rest on it. The app's count can be off in both directions:
  - **Ahead of UTC by h hours:** before h:00 local time, an export made that day counts −1 days. The label then reads "-1 days ago", and the overdue reminder turns on one day late.
  - **Behind UTC by h hours:** from (24 − h):00 local time, the count is one day over. In UTC−4 after 20:00, an export made that day reads "Yesterday", and the overdue reminder turns on one day early.
  - **`getDaysUntil`:** it rounds up from local midnight to a UTC midnight, so behind UTC every distance is one day too large (`Ledger.DaysUntilSpec` states the intended distance).
- **Date strings in other formats.** `new Date(string)` accepts other formats as well. `DateFormat.ParseDate` reads only `YYYY-MM-DD` and treats anything else as NaN. Two cases differ from a JavaScript engine even in that shape:
  - a year below 1000, such as `"0999-05-01"`, which `new Date` accepts and the model reads as NaN;
  - a day past the end of its month, such as `"2023-02-30"`, which engines handle differently; the model reads it as NaN.
- **Sorting.** `Text.LexLess` compares Dafny characters, which are Unicode scalar values, so it is code-point order. JavaScript's `<` is UTF-16 code-unit order, and `localeCompare` is locale collation. All three agree on the strings compared here: stored dates are ASCII digits and dashes. Code-point and code-unit order also agree on any text without characters beyond U+FFFF.
- **Daylight saving time.** `Math.floor((now - startOfYear) / day)` (`src/screens/MainScreen.js:60-61`) counts real milliseconds. Across a daylight-saving change the count is one day off in some hours:
  - while summer time is in effect in a northern zone, it is one day short from 00:00 to 00:59;
  - where the offset at January 1 is ahead of the current one, it is one day over from 23:00.
- Progress.TimeProgress: like `Progress.DayOfYear`, it counts calendar days and does not model the daylight-saving error above. In those hours the app's year progress is one day behind or ahead of the model's.
- **Missing export date.** A `null` export date and an empty one are the same case (both "never exported").
- **Storage I/O.** The model leaves out AsyncStorage and the JSON round trip of `saveExpenses` and `loadData`. `AppShell.ClearAllData` treats `multiRemove` as all or nothing; a partial removal is not modelled.
- **Platform services.** Notification scheduling, the file-system, share and clipboard paths of the export, and the biometric hardware check are left out. Biometric availability and the prompt's outcome are parameters.
- **React and timing.** The model leaves out effect ordering, stale `useCallback` closures, debounced saves, `setTimeout` delays and animations. The splash timer's transition is returned instead of being fired later.
- **Legacy `deleteExpense`.** The older `deleteExpense` in `App.js` has no guard for a missing edited record and would throw. The model follows the modal's guarded version.
- **Rendering.** JSX, icons, themes, navigation-only settings pages, the splash and onboarding step UI, and `ClearDataModal` are presentation only.
- **Settings.FormatTime:** its contract pins only the length and the AM/PM suffix. The digits of the hour and minutes are stated by `Settings.FormatTimeReadsBack` and `Settings.TwelveOClock`.

=== FILE: app.dfy ===
/**
  The app shell: which screen is drawn, the one-time move off the splash
  screen, finishing onboarding, and clearing the stored data. The timer
  and the fade animation are left out. The splash effect returns the
  transition it schedules, for the caller to apply; finishing onboarding
  switches to the main screen at once, where the app does so after the
  fade.
*/
module AppShell {
  import opened Wrappers
  import opened Calendar
  import opened DateFormat
  import opened Ledger

  datatype ScreenName = SplashScreen | OnboardingScreen | MainScreen

  /** What `AppContent` draws. */
  datatype View = LoadingView | LockView | SplashView | OnboardingView | MainView

  /** The rendering gate: loading first, then the lock screen (only over the
      main screen), then the screen itself. */
  function Render(isLoading: bool, isLocked: bool, screen: ScreenName): (v: View)
    ensures isLoading <==> v == LoadingView
    ensures v == LockView <==> !isLoading && isLocked && screen == MainScreen
    ensures v == MainView ==> !isLocked
  {
    if isLoading then LoadingView
    else if isLocked && screen == MainScreen then LockView
    else match screen
      case SplashScreen => SplashView
      case OnboardingScreen => OnboardingView
      case MainScreen => MainView
  }

  /** Once loaded, the lock flag changes nothing but the main screen, and
      the unlocked app draws each screen as a view of its own. */
  lemma LockGatesOnlyMain(isLocked: bool, screen: ScreenName, other: ScreenName)
    ensures screen != MainScreen ==> Render(false, isLocked, screen) == Render(false, false, screen)
    ensures Render(false, false, screen) == Render(false, false, other) ==> screen == other
    ensures Render(false, false, screen) != LockView
  {
  }

  /** The state the shell reads. */
  datatype Shell = Shell(screen: ScreenName, isLoading: bool, onboardingComplete: bool,
                         splashFired: bool, startDate: string)

  /** The splash effect, run on every change of the screen, the loading flag
      or the onboarding flag: the first time the splash screen is up with
      loading done, it marks itself fired and schedules one transition, to
      the main screen after onboarding and to onboarding before it. */
  function SplashEffect(sh: Shell): (r: (Shell, Option<ScreenName>))
    ensures r.1.Some? <==> sh.screen == SplashScreen && !sh.isLoading && !sh.splashFired
    ensures r.1.Some? ==> r.1.value == (if sh.onboardingComplete then MainScreen else OnboardingScreen)
    ensures r.0 == sh.(splashFired := sh.splashFired || r.1.Some?)
  {
    if sh.screen == SplashScreen && !sh.isLoading && !sh.splashFired then
      (sh.(splashFired := true), Some(if sh.onboardingComplete then MainScreen else OnboardingScreen))
    else (sh, None)
  }

  /** The effect schedules at most one transition: once fired, never again,
      whatever else changes. */
  lemma SplashFiresOnce(sh: Shell, loading: bool, onboarded: bool, screen: ScreenName)
    ensures sh.splashFired ==> SplashEffect(sh).1 == None
    ensures var after := SplashEffect(sh).0;
      SplashEffect(sh).1.Some? ==>
        SplashEffect(after.(isLoading := loading, onboardingComplete := onboarded, screen := screen)).1 == None
  {
  }

  /** `completeOnboarding`: stores the start date in storage form, marks
      onboarding done and moves to the main screen. */
  function CompleteOnboarding(sh: Shell, onboardingDate: Date): (r: Shell)
    requires Valid(onboardingDate)
    ensures r.onboardingComplete && r.screen == MainScreen
    ensures r.isLoading == sh.isLoading && r.splashFired == sh.splashFired
  {
    sh.(startDate := FormatDate(onboardingDate), onboardingComplete := true, screen := MainScreen)
  }

  /** The stored start date reads back as the onboarding date, and an
      unlocked app then shows the main screen. */
  lemma OnboardingStartDate(sh: Shell, d: Date)
    requires Valid(d) && FourDigitYear(d) && !sh.isLoading
    ensures ParseDate(CompleteOnboarding(sh, d).startDate) == Some(d)
    ensures Render(false, false, CompleteOnboarding(sh, d).screen) == MainView
  {
    ParseFormatDate(d);
  }

  const ExpensesKey: string := "@moola/expenses"
  const PreferencesKey: string := "@moola/preferences"
  const LastExportKey: string := "@moola/last_export"

  /** `clearAllData`: removes the expenses and the preferences from storage
      and, only if that worked, empties the list in memory. The last export
      date and the secure store are not touched. */
  function ClearAllData(storage: map<string, string>, expenses: seq<Expense>, throws: bool)
    : (r: (map<string, string>, seq<Expense>))
    ensures throws ==> r == (storage, expenses)
    ensures !throws ==> r.1 == [] && ExpensesKey !in r.0 && PreferencesKey !in r.0
    ensures forall k :: k in storage && k != ExpensesKey && k != PreferencesKey ==> k in r.0 && r.0[k] == storage[k]
    ensures r.0.Keys <= storage.Keys
  {
    if throws then (storage, expenses) else (storage - {ExpensesKey, PreferencesKey}, [])
  }

  /** Clearing twice is the same as clearing once. */
  lemma ClearIdempotent(storage: map<string, string>, expenses: seq<Expense>)
    ensures var (st, xs) := ClearAllData(storage, expenses, false);
      ClearAllData(st, xs, false) == (st, xs)
  {
    var (st, xs) := ClearAllData(storage, expenses, false);
    assert st - {ExpensesKey, PreferencesKey} == st;
  }
}

=== FILE: calendar.dfy ===
/**
  The proleptic Gregorian calendar as JavaScript's `Date` uses it for
  local calendar dates: days per month and year, a linear day number, and
  the normalisation that `new Date(y, m, d)`, `setDate`, `setMonth` and
  `setFullYear` perform when a day of the month is out of range (Jan 31
  plus one month is Mar 3, or Mar 2 in a leap year).

  Months are 1-based here (JavaScript's `getMonth() + 1`).
*/
module Calendar {

  datatype Date = Date(year: int, month: int, day: int)

  /** The Gregorian rule: divisible by 4 and not by 100, or divisible by 400. */
  predicate IsLeapYear(y: int)
  {
    (y % 4 == 0 && y % 100 != 0) || y % 400 == 0
  }

  function DaysInMonth(y: int, m: int): (n: int)
    requires 1 <= m <= 12
    ensures 28 <= n <= 31
    ensures n == 29 <==> m == 2 && IsLeapYear(y)
  {
    if m == 2 then (if IsLeapYear(y) then 29 else 28)
    else if m == 4 || m == 6 || m == 9 || m == 11 then 30
    else 31
  }

  function YearLength(y: int): int
  {
    if IsLeapYear(y) then 366 else 365
  }

  predicate Valid(d: Date)
  {
    1 <= d.month <= 12 && 1 <= d.day <= DaysInMonth(d.year, d.month)
  }

  /** Days of year `y` before the first day of month `m`. */
  function DaysBeforeMonth(y: int, m: int): int
    requires 1 <= m <= 12
  {
    var common :=
      match m
      case 1 => 0   case 2 => 31  case 3 => 59   case 4 => 90
      case 5 => 120 case 6 => 151 case 7 => 181  case 8 => 212
      case 9 => 243 case 10 => 273 case 11 => 304 case _ => 334;
    common + (if m > 2 && IsLeapYear(y) then 1 else 0)
  }

  /** Days from 0001-01-01 to the first day of year `y` (negative before year 1). */
  function DaysBeforeYear(y: int): int
  {
    365 * (y - 1) + (y - 1) / 4 - (y - 1) / 100 + (y - 1) / 400
  }

  /** The day number of a (year, month, day) triple, read linearly: a day
      outside 1..DaysInMonth counts on into the neighbouring months, which
      is how the JavaScript `Date` constructor reads it. */
  function DayNumber(d: Date): int
    requires 1 <= d.month <= 12
  {
    DaysBeforeYear(d.year) + DaysBeforeMonth(d.year, d.month) + d.day - 1
  }

  function NextMonth(y: int, m: int): (r: (int, int))
    requires 1 <= m <= 12
    ensures 1 <= r.1 <= 12
  {
    if m == 12 then (y + 1, 1) else (y, m + 1)
  }

  function PrevMonth(y: int, m: int): (r: (int, int))
    requires 1 <= m <= 12
    ensures 1 <= r.1 <= 12
  {
    if m == 1 then (y - 1, 12) else (y, m - 1)
  }

  lemma DivStep4(y: int)
    ensures y / 4 - (y - 1) / 4 == if y % 4 == 0 then 1 else 0
  {
  }

  lemma DivStep100(y: int)
    ensures y / 100 - (y - 1) / 100 == if y % 100 == 0 then 1 else 0
  {
  }

  lemma DivStep400(y: int)
    ensures y / 400 - (y - 1) / 400 == if y % 400 == 0 then 1 else 0
  {
  }

  lemma DivisibilityChain(y: int)
    ensures y % 400 == 0 ==> y % 100 == 0
    ensures y % 100 == 0 ==> y % 4 == 0
  {
    if y % 400 == 0 {
      MultipleOf100(y / 400 * 4, y);
    }
    if y % 100 == 0 {
      MultipleOf4(y / 100 * 25, y);
    }
  }

  lemma MultipleOf100(k: int, y: int)
    requires y == 100 * k
    ensures y % 100 == 0
  {
  }

  lemma MultipleOf4(k: int, y: int)
    requires y == 4 * k
    ensures y % 4 == 0
  {
  }

  /** Consecutive year starts are one year length apart. */
  lemma YearStep(y: int)
    ensures DaysBeforeYear(y + 1) == DaysBeforeYear(y) + YearLength(y)
  {
    var d4, d100, d400 := y / 4 - (y - 1) / 4, y / 100 - (y - 1) / 100, y / 400 - (y - 1) / 400;
    assert DaysBeforeYear(y + 1) - DaysBeforeYear(y) == 365 + d4 - d100 + d400;
    DivStep4(y);
    DivStep100(y);
    DivStep400(y);
    DivisibilityChain(y);
  }

  /** Stepping past the last day of a month lands on the next month without
      changing the day number. */
  lemma MonthStep(y: int, m: int, d: int)
    requires 1 <= m <= 12
    ensures var (ny, nm) := NextMonth(y, m);
      DayNumber(Date(ny, nm, d - DaysInMonth(y, m))) == DayNumber(Date(y, m, d))
  {
    if m == 12 {
      YearStep(y);
    }
  }

  /** JavaScript's normalisation of an out-of-range day of the month: the
      valid date with the same linear day number. */
  function Normalize(y: int, m: int, d: int): (r: Date)
    requires 1 <= m <= 12
    ensures Valid(r)
    ensures DayNumber(r) == DayNumber(Date(y, m, d))
    decreases if d < 1 then 1 - d else 0, if d < 1 then 0 else d
  {
    if d < 1 then
      var (py, pm) := PrevMonth(y, m);
      MonthStep(py, pm, d + DaysInMonth(py, pm));
      Normalize(py, pm, d + DaysInMonth(py, pm))
    else if d > DaysInMonth(y, m) then
      var (ny, nm) := NextMonth(y, m);
      MonthStep(y, m, d);
      Normalize(ny, nm, d - DaysInMonth(y, m))
    else
      Date(y, m, d)
  }

  /** `date.setDate(date.getDate() + n)`. */
  function AddDays(date: Date, n: int): (r: Date)
    requires Valid(date)
    ensures Valid(r) && DayNumber(r) == DayNumber(date) + n
  {
    Normalize(date.year, date.month, date.day + n)
  }

  /** `date.setMonth(date.getMonth() + 1)`: the same day number in the next
      month, rolled over into the month after when that month is shorter. */
  function AddMonthJs(date: Date): (r: Date)
    requires Valid(date)
  {
    var (ny, nm) := NextMonth(date.year, date.month);
    Normalize(ny, nm, date.day)
  }

  /** `date.setFullYear(date.getFullYear() + 1)`. */
  function AddYearJs(date: Date): (r: Date)
    requires Valid(date)
  {
    Normalize(date.year + 1, date.month, date.day)
  }

  /** The month step keeps the day when it exists in the next month and
      otherwise carries the excess days into the month after; it never clamps. */
  lemma {:induction false} AddMonthJsSpec(date: Date)
    requires Valid(date)
    ensures var (ny, nm) := NextMonth(date.year, date.month);
      && Valid(AddMonthJs(date))
      && DayNumber(AddMonthJs(date)) == DayNumber(Date(ny, nm, 1)) + date.day - 1
      && (date.day <= DaysInMonth(ny, nm) ==> AddMonthJs(date) == Date(ny, nm, date.day))
      && (date.day > DaysInMonth(ny, nm) ==>
            var (ay, am) := NextMonth(ny, nm);
            AddMonthJs(date) == Date(ay, am, date.day - DaysInMonth(ny, nm)))
  {
    var (ny, nm) := NextMonth(date.year, date.month);
    if date.day > DaysInMonth(ny, nm) {
      var (ay, am) := NextMonth(ny, nm);
      assert date.day - DaysInMonth(ny, nm) <= 3;
      assert Normalize(ay, am, date.day - DaysInMonth(ny, nm)) == Date(ay, am, date.day - DaysInMonth(ny, nm));
    }
  }

  /** The year step keeps month and day except that Feb 29 becomes Mar 1 of
      a common year. */
  lemma {:induction false} AddYearJsSpec(date: Date)
    requires Valid(date)
    ensures Valid(AddYearJs(date))
    ensures DayNumber(AddYearJs(date)) == DayNumber(Date(date.year + 1, date.month, 1)) + date.day - 1
    ensures date.day <= DaysInMonth(date.year + 1, date.month) ==>
              AddYearJs(date) == Date(date.year + 1, date.month, date.day)
    ensures date.day > DaysInMonth(date.year + 1, date.month) <==>
              date.month == 2 && date.day == 29 && !IsLeapYear(date.year + 1)
    ensures date.day > DaysInMonth(date.year + 1, date.month) ==>
              AddYearJs(date) == Date(date.year + 1, 3, 1)
  {
    if date.day > DaysInMonth(date.year + 1, date.month) {
      assert Normalize(date.year + 1, 3, 1) == Date(date.year + 1, 3, 1);
    }
  }

  /** The month step moves on by the length of the month it starts in. */
  lemma AddMonthJsLength(date: Date)
    requires Valid(date)
    ensures Valid(AddMonthJs(date))
    ensures DayNumber(AddMonthJs(date)) == DayNumber(date) + DaysInMonth(date.year, date.month)
  {
    AddMonthJsSpec(date);
    MonthStep(date.year, date.month, 1 + DaysInMonth(date.year, date.month));
  }

  /** The year step moves on by the length of the year it crosses: this
      year's before March, next year's from March on. */
  lemma AddYearJsLength(date: Date)
    requires Valid(date)
    ensures Valid(AddYearJs(date))
    ensures DayNumber(AddYearJs(date)) ==
      DayNumber(date) + (if date.month <= 2 then YearLength(date.year) else YearLength(date.year + 1))
  {
    AddYearJsSpec(date);
    YearStep(date.year);
    YearStep(date.year + 1);
  }

  // ---------------------------------------------------------------------
  // Chronological order
  // ---------------------------------------------------------------------

  /** `a` is strictly earlier than `b`, comparing year, then month, then day. */
  predicate DateBefore(a: Date, b: Date)
  {
    a.year < b.year
    || (a.year == b.year && (a.month < b.month || (a.month == b.month && a.day < b.day)))
  }

  lemma DaysBeforeMonthMonotone(y: int, m1: int, m2: int)
    requires 1 <= m1 < m2 <= 12
    ensures DaysBeforeMonth(y, m1) + DaysInMonth(y, m1) <= DaysBeforeMonth(y, m2)
  {
  }

  lemma {:induction false} DaysBeforeYearMonotone(a: int, b: int)
    requires a <= b
    ensures DaysBeforeYear(a) <= DaysBeforeYear(b)
    decreases b - a
  {
    if a < b {
      YearStep(a);
      DaysBeforeYearMonotone(a + 1, b);
    }
  }

  /** A valid date's day number lies within its own year. */
  lemma DayNumberInYear(d: Date)
    requires Valid(d)
    ensures DaysBeforeYear(d.year) <= DayNumber(d) < DaysBeforeYear(d.year + 1)
  {
    YearStep(d.year);
    if d.month < 12 {
      DaysBeforeMonthMonotone(d.year, d.month, 12);
    }
  }

  /** On valid dates the day number orders dates chronologically. */
  lemma DayNumberOrder(a: Date, b: Date)
    requires Valid(a) && Valid(b)
    ensures DayNumber(a) < DayNumber(b) <==> DateBefore(a, b)
    ensures DayNumber(a) == DayNumber(b) <==> a == b
  {
    if a.year < b.year {
      EarlierYear(a, b);
    } else if b.year < a.year {
      EarlierYear(b, a);
    } else if a.month < b.month {
      EarlierMonth(a, b);
    } else if b.month < a.month {
      EarlierMonth(b, a);
    }
  }

  lemma EarlierYear(a: Date, b: Date)
    requires Valid(a) && Valid(b) && a.year < b.year
    ensures DayNumber(a) < DayNumber(b)
  {
    DayNumberInYear(a);
    DayNumberInYear(b);
    DaysBeforeYearMonotone(a.year + 1, b.year);
  }

  lemma EarlierMonth(a: Date, b: Date)
    requires Valid(a) && Valid(b) && a.year == b.year && a.month < b.month
    ensures DayNumber(a) < DayNumber(b)
  {
    DaysBeforeMonthMonotone(a.year, a.month, b.month);
  }

  // ---------------------------------------------------------------------
  // Weekday and day of the year
  // ---------------------------------------------------------------------

  /** `getDay()`: 0 is Sunday. 0001-01-01 of the proleptic calendar, day number 0, was a Monday. */
  function DayOfWeek(d: Date): (w: int)
    requires 1 <= d.month <= 12
    ensures 0 <= w < 7
  {
    (DayNumber(d) + 1) % 7
  }

  /** A week later is the same weekday. */
  lemma AddWeekSameWeekday(d: Date)
    requires Valid(d)
    ensures DayOfWeek(AddDays(d, 7)) == DayOfWeek(d)
  {
    var n := DayNumber(d) + 1;
    assert DayNumber(AddDays(d, 7)) + 1 == n + 7;
    assert (n + 7) % 7 == n % 7;
  }

  /** `getDay()` counts from Sunday = 0: 1 January 1970 was a Thursday, and
      every date is that weekday moved on by its distance from that day. */
  lemma WeekdayFromEpoch(d: Date)
    requires Valid(d)
    ensures DayOfWeek(Date(1970, 1, 1)) == 4
    ensures DayOfWeek(d) == (DayNumber(d) - DayNumber(Date(1970, 1, 1)) + 4) % 7
  {
    var n := DayNumber(d) + 1;
    assert DayNumber(Date(1970, 1, 1)) == 719162;
    assert DayNumber(d) - DayNumber(Date(1970, 1, 1)) + 4 == n - 7 * 102737;
    ModSubMultiple(n, 102737);
  }

  /** The next day is the next weekday, Saturday (6) wrapping to Sunday (0). */
  lemma NextDayNextWeekday(d: Date)
    requires Valid(d)
    ensures DayOfWeek(AddDays(d, 1)) == (DayOfWeek(d) + 1) % 7
    ensures DayOfWeek(d) == 6 <==> DayOfWeek(AddDays(d, 1)) == 0
  {
    var n := DayNumber(d) + 1;
    assert DayNumber(AddDays(d, 1)) + 1 == n + 1;
    ModStep(n);
  }

  lemma ModSubMultiple(n: int, k: int)
    ensures (n - 7 * k) % 7 == n % 7
  {
  }

  lemma ModStep(n: int)
    ensures (n + 1) % 7 == (n % 7 + 1) % 7
    ensures n % 7 == 6 <==> (n + 1) % 7 == 0
  {
  }

  /** The last day of the month, as `new Date(y, m + 1, 0).getDate()` finds
      it: day 0 of the next month. */
  function LastDayOfMonthJs(y: int, m: int): int
    requires 1 <= m <= 12
  {
    var (ny, nm) := NextMonth(y, m);
    Normalize(ny, nm, 0).day
  }

  /** Day 0 of the next month is the last day of this month. */
  lemma LastDayOfMonthJsSpec(y: int, m: int)
    requires 1 <= m <= 12
    ensures LastDayOfMonthJs(y, m) == DaysInMonth(y, m)
  {
    var (ny, nm) := NextMonth(y, m);
    var r := Normalize(ny, nm, 0);
    MonthStep(y, m, DaysInMonth(y, m));
    DayNumberOrder(r, Date(y, m, DaysInMonth(y, m)));
  }

  /** The Gregorian leap rule gives exactly the distance between two
      consecutive January firsts. */
  lemma YearLengthIsDistance(y: int)
    ensures DayNumber(Date(y + 1, 1, 1)) - DayNumber(Date(y, 1, 1)) == YearLength(y)
    ensures YearLength(y) == 366 <==> IsLeapYear(y)
  {
    YearStep(y);
  }
}

=== FILE: csv.dfy ===
/**
  `generateCSV` of the export modal: a fixed header line, then one row per
  expense, newest date first, joined by line feeds.

  The rows come from `expenses.sort(...)`, which reorders the app's own
  array in place; the export therefore also returns the reordered list.
  The note is put between double quotes as it is, without doubling the
  quotes inside it as section 2 of RFC 4180 asks.
*/
module Csv {
  import opened Wrappers
  import opened Text
  import opened Seqs
  import opened Ledger
  import opened Money

  /** The column names of the header line. */
  const HeaderFields: seq<string> := ["Date", "Amount", "Currency", "Note", "Recurring", "Frequency"]

  /** `Date,Amount,Currency,Note,Recurring,Frequency`. */
  const HeaderLine: string := JoinWith(HeaderFields, ',')

  const Header: string := HeaderLine + "\n"

  /** `e.freq || ''`. */
  function FreqText(f: Option<Freq>): string
  {
    match f
    case None => ""
    case Some(Weekly) => "weekly"
    case Some(Monthly) => "monthly"
    case Some(Yearly) => "yearly"
  }

  /** `s.replace(a, b)` with a one-character pattern: only the first occurrence. */
  function ReplaceFirst(s: string, a: char, b: char): string
  {
    if s == [] then [] else if s[0] == a then [b] + s[1..] else [s[0]] + ReplaceFirst(s[1..], a, b)
  }

  lemma {:induction false} ReplaceFirstAfter(s1: string, s2: string, a: char, b: char)
    requires forall i :: 0 <= i < |s1| ==> s1[i] != a
    ensures ReplaceFirst(s1 + [a] + s2, a, b) == s1 + [b] + s2
  {
    if s1 != [] {
      assert (s1 + [a] + s2)[1..] == s1[1..] + [a] + s2;
      ReplaceFirstAfter(s1[1..], s2, a, b);
    } else {
      assert s1 + [a] + s2 == [a] + s2;
    }
  }

  /** The amount column: `toFixed(2)`, with the point turned into a comma
      for the EU format. */
  function AmountText(amount: int, useEUFormat: bool): (t: string)
    ensures useEUFormat ==> t == WholePart(amount) + "," + FractionPart(amount)
  {
    var fixed := ToFixed2(amount);
    if useEUFormat then
      assert fixed == WholePart(amount) + ['.'] + FractionPart(amount);
      ReplaceFirstAfter(WholePart(amount), FractionPart(amount), '.', ',');
      ReplaceFirst(fixed, '.', ',')
    else fixed
  }

  /** `parts.join(c)`; the row template and `rows.join('\n')` are both of this form. */
  function JoinWith(parts: seq<string>, c: char): string
  {
    if parts == [] then "" else if |parts| == 1 then parts[0] else parts[0] + [c] + JoinWith(parts[1..], c)
  }

  /** The six values of a row: date, amount, currency code, the note in
      quotes, Yes or No, and the frequency or nothing. */
  function RowValues(e: Expense, code: string, useEUFormat: bool): seq<string>
  {
    [e.date, AmountText(e.amount, useEUFormat), code, "\"" + e.note + "\"",
     if e.recurring then "Yes" else "No", FreqText(e.freq)]
  }

  /** One row: the six values joined by commas. */
  function Row(e: Expense, code: string, useEUFormat: bool): string
  {
    JoinWith(RowValues(e, code, useEUFormat), ',')
  }

  function Rows(xs: seq<Expense>, code: string, useEUFormat: bool): (r: seq<string>)
    ensures |r| == |xs|
    ensures forall i :: 0 <= i < |xs| ==> r[i] == Row(xs[i], code, useEUFormat)
  {
    if xs == [] then [] else [Row(xs[0], code, useEUFormat)] + Rows(xs[1..], code, useEUFormat)
  }

  // ---------------------------------------------------------------------
  // The sort
  // ---------------------------------------------------------------------

  /** Places `x` after every record with a later date and before the rest,
      so that records of equal date keep their order. */
  function InsertByDate(x: Expense, sorted: seq<Expense>): seq<Expense>
  {
    if sorted == [] || !LexLess(x.date, sorted[0].date) then [x] + sorted
    else [sorted[0]] + InsertByDate(x, sorted[1..])
  }

  /** `sort((a, b) => b.date.localeCompare(a.date))`: a stable sort, newest first. */
  function SortByDateDesc(xs: seq<Expense>): seq<Expense>
  {
    if xs == [] then [] else InsertByDate(xs[0], SortByDateDesc(xs[1..]))
  }

  /** Dates never increase along the list. */
  predicate DatesDescending(xs: seq<Expense>)
  {
    forall i, j :: 0 <= i < j < |xs| ==> LexLessEq(xs[j].date, xs[i].date)
  }

  /** One insertion step keeps the list newest first, adds exactly `x`, and
      puts it in front of the records of its own date. */
  lemma InsertByDateSpec(x: Expense, sorted: seq<Expense>)
    requires DatesDescending(sorted)
    ensures DatesDescending(InsertByDate(x, sorted))
    ensures multiset(InsertByDate(x, sorted)) == multiset(sorted) + multiset{x}
    ensures forall k :: (Filter(InsertByDate(x, sorted), DateIs(k)) ==
                         (if x.date == k then [x] else []) + Filter(sorted, DateIs(k)))
  {
    InsertDescending(x, sorted);
    InsertMultiset(x, sorted);
    forall k
      ensures Filter(InsertByDate(x, sorted), DateIs(k)) == (if x.date == k then [x] else []) + Filter(sorted, DateIs(k))
    {
      InsertFilter(x, sorted, k);
    }
  }

  lemma {:induction false} InsertMultiset(x: Expense, sorted: seq<Expense>)
    ensures multiset(InsertByDate(x, sorted)) == multiset(sorted) + multiset{x}
  {
    if sorted != [] && LexLess(x.date, sorted[0].date) {
      InsertMultiset(x, sorted[1..]);
      assert sorted == [sorted[0]] + sorted[1..];
    }
  }

  lemma {:induction false} InsertFilter(x: Expense, sorted: seq<Expense>, k: string)
    ensures Filter(InsertByDate(x, sorted), DateIs(k)) == (if x.date == k then [x] else []) + Filter(sorted, DateIs(k))
  {
    if sorted == [] || !LexLess(x.date, sorted[0].date) {
      FilterConcat([x], sorted, DateIs(k));
    } else {
      var tail := sorted[1..];
      InsertFilter(x, tail, k);
      FilterCons(sorted[0], InsertByDate(x, tail), DateIs(k));
      FilterCons(sorted[0], tail, DateIs(k));
      assert sorted == [sorted[0]] + tail;
      if x.date == k {
        LexLessIrreflexive(k);
      }
    }
  }

  lemma {:induction false} InsertDescending(x: Expense, sorted: seq<Expense>)
    requires DatesDescending(sorted)
    ensures DatesDescending(InsertByDate(x, sorted))
  {
    if sorted == [] || !LexLess(x.date, sorted[0].date) {
      forall i | 0 <= i < |sorted|
        ensures LexLessEq(sorted[i].date, x.date)
      {
        if i > 0 {
          LexLessEqTransitive(sorted[i].date, sorted[0].date, x.date);
        }
      }
      ConsDescending(x, sorted);
    } else {
      var tail := sorted[1..];
      InsertDescending(x, tail);
      var rest := InsertByDate(x, tail);
      InsertMultiset(x, tail);
      forall i | 0 <= i < |rest|
        ensures LexLessEq(rest[i].date, sorted[0].date)
      {
        assert rest[i] in multiset(rest);
        if rest[i] == x {
          LexLessAsymmetric(x.date, sorted[0].date);
        } else {
          assert rest[i] in multiset(tail);
          var t :| 0 <= t < |tail| && tail[t] == rest[i];
          assert sorted[t + 1] == rest[i];
        }
      }
      ConsDescending(sorted[0], rest);
    }
  }

  /** A record no older than any record of a descending list can head it. */
  lemma ConsDescending(h: Expense, xs: seq<Expense>)
    requires DatesDescending(xs)
    requires forall i :: 0 <= i < |xs| ==> LexLessEq(xs[i].date, h.date)
    ensures DatesDescending([h] + xs)
  {
    var r := [h] + xs;
    forall i, j | 0 <= i < j < |r|
      ensures LexLessEq(r[j].date, r[i].date)
    {
      assert r[j] == xs[j - 1];
      if i > 0 {
        assert r[i] == xs[i - 1];
      }
    }
  }

  /** The sort orders newest first, keeps every record, and keeps the
      ledger order among records of the same date. */
  lemma {:induction false} SortByDateDescSpec(xs: seq<Expense>)
    ensures DatesDescending(SortByDateDesc(xs))
    ensures multiset(SortByDateDesc(xs)) == multiset(xs)
    ensures forall k :: Filter(SortByDateDesc(xs), DateIs(k)) == Filter(xs, DateIs(k))
  {
    if xs != [] {
      SortByDateDescSpec(xs[1..]);
      InsertByDateSpec(xs[0], SortByDateDesc(xs[1..]));
      assert xs == [xs[0]] + xs[1..];
      forall k
        ensures Filter(SortByDateDesc(xs), DateIs(k)) == Filter(xs, DateIs(k))
      {
        FilterConcat([xs[0]], xs[1..], DateIs(k));
      }
    }
  }

  // ---------------------------------------------------------------------
  // The export
  // ---------------------------------------------------------------------

  /** The CSV text, and the app's list as the in-place sort leaves it. */
  datatype Export = Export(csv: string, reordered: seq<Expense>)

  /** `generateCSV`. */
  function GenerateCsv(expenses: seq<Expense>, currency: Currency, useEUFormat: bool): (r: Export)
    ensures |r.csv| >= |Header| && r.csv[..|Header|] == Header
    ensures expenses == [] ==> r.csv == Header
  {
    var sorted := SortByDateDesc(expenses);
    Export(Header + JoinWith(Rows(sorted, currency.code, useEUFormat), '\n'), sorted)
  }

  /** The export keeps every record, newest first, equal dates in ledger order. */
  lemma ExportReorders(expenses: seq<Expense>, currency: Currency, useEUFormat: bool)
    ensures var r := GenerateCsv(expenses, currency, useEUFormat).reordered;
      && DatesDescending(r)
      && multiset(r) == multiset(expenses)
      && forall k :: Filter(r, DateIs(k)) == Filter(expenses, DateIs(k))
  {
    SortByDateDescSpec(expenses);
  }

  // ---------------------------------------------------------------------
  // Reading the text back: lines and fields
  // ---------------------------------------------------------------------

  /** `s.split(c)` for a one-character separator. */
  function SplitOn(s: string, c: char): (r: seq<string>)
    ensures |r| >= 1
  {
    if s == [] then [""]
    else
      var rest := SplitOn(s[1..], c);
      if s[0] == c then [""] + rest else [[s[0]] + rest[0]] + rest[1..]
  }

  predicate Free(s: string, c: char)
  {
    forall i :: 0 <= i < |s| ==> s[i] != c
  }

  lemma {:induction false} SplitFree(a: string, c: char)
    requires Free(a, c)
    ensures SplitOn(a, c) == [a]
  {
    if a != [] {
      SplitFree(a[1..], c);
      assert a == [a[0]] + a[1..];
    }
  }

  /** A separator splits off the piece before it. */
  lemma {:induction false} SplitAt(a: string, b: string, c: char)
    requires Free(a, c)
    ensures SplitOn(a + [c] + b, c) == [a] + SplitOn(b, c)
  {
    if a == [] {
      assert a + [c] + b == [c] + b;
      assert ([c] + b)[1..] == b;
    } else {
      assert (a + [c] + b)[1..] == a[1..] + [c] + b;
      SplitAt(a[1..], b, c);
      assert a == [a[0]] + a[1..];
    }
  }

  /** Splitting a join of separator-free parts gives the parts back. */
  lemma {:induction false} SplitJoin(parts: seq<string>, c: char)
    requires |parts| >= 1
    requires forall i :: 0 <= i < |parts| ==> Free(parts[i], c)
    ensures SplitOn(JoinWith(parts, c), c) == parts
  {
    if |parts| == 1 {
      SplitFree(parts[0], c);
    } else {
      SplitJoin(parts[1..], c);
      SplitAt(parts[0], JoinWith(parts[1..], c), c);
      assert parts == [parts[0]] + parts[1..];
    }
  }

  lemma NumeralFree(n: nat, c: char)
    requires !IsDigit(c)
    ensures Free(NatToString(n), c)
  {
  }

  lemma AmountFree(amount: int, useEUFormat: bool, c: char)
    requires !IsDigit(c) && c != '-' && c != ',' && c != '.'
    ensures Free(AmountText(amount, useEUFormat), c)
  {
    NumeralFree(Abs(amount) / 100, c);
  }

  /** A record whose text fields hold no line feed. */
  predicate OneLine(e: Expense)
  {
    Free(e.date, '\n') && Free(e.note, '\n')
  }

  lemma RowFree(e: Expense, code: string, useEUFormat: bool)
    requires OneLine(e) && Free(code, '\n')
    ensures Free(Row(e, code, useEUFormat), '\n')
  {
    AmountFree(e.amount, useEUFormat, '\n');
    var v := RowValues(e, code, useEUFormat);
    assert Free(v[0], '\n') && Free(v[1], '\n') && Free(v[2], '\n');
    assert Free(v[3], '\n') && Free(v[4], '\n') && Free(v[5], '\n');
    JoinFree(v, ',', '\n');
  }

  lemma {:induction false} JoinFree(parts: seq<string>, c: char, d: char)
    requires c != d && forall i :: 0 <= i < |parts| ==> Free(parts[i], d)
    ensures Free(JoinWith(parts, c), d)
  {
    if |parts| > 1 {
      JoinFree(parts[1..], c, d);
    }
  }

  /** With no line feeds in dates, notes or the currency code, the text
      splits into the header line and one line per record, newest first;
      an empty ledger leaves one empty line after the header. */
  lemma CsvLines(expenses: seq<Expense>, currency: Currency, useEUFormat: bool)
    requires forall i :: 0 <= i < |expenses| ==> OneLine(expenses[i])
    requires Free(currency.code, '\n')
    ensures var sorted := GenerateCsv(expenses, currency, useEUFormat).reordered;
      SplitOn(GenerateCsv(expenses, currency, useEUFormat).csv, '\n') ==
        [HeaderLine] + if expenses == [] then [""] else Rows(sorted, currency.code, useEUFormat)
  {
    var sorted := SortByDateDesc(expenses);
    SortByDateDescSpec(expenses);
    var rows := Rows(sorted, currency.code, useEUFormat);
    assert Header + JoinWith(rows, '\n') == HeaderLine + ['\n'] + JoinWith(rows, '\n');
    HeaderFree('\n');
    SplitAt(HeaderLine, JoinWith(rows, '\n'), '\n');
    if expenses != [] {
      assert |sorted| == |multiset(sorted)| == |multiset(expenses)| == |expenses|;
      forall i | 0 <= i < |rows|
        ensures Free(rows[i], '\n')
      {
        assert sorted[i] in multiset(expenses);
        RowFree(sorted[i], currency.code, useEUFormat);
      }
      SplitJoin(rows, '\n');
    } else {
      assert sorted == [];
    }
  }

  /** In the US format, a record whose date, note and currency code hold no
      comma splits into its six values, one per header field. */
  lemma RowFieldsUs(e: Expense, code: string)
    requires Free(e.date, ',') && Free(e.note, ',') && Free(code, ',')
    ensures SplitOn(Row(e, code, false), ',') == RowValues(e, code, false)
    ensures |RowValues(e, code, false)| == |SplitOn(HeaderLine, ',')|
  {
    NumeralFree(Abs(e.amount) / 100, ',');
    var v := RowValues(e, code, false);
    assert Free(v[1], ',') && Free(v[3], ',') && Free(v[4], ',') && Free(v[5], ',');
    SplitJoin(v, ',');
    HeaderSplits();
  }

  /** The column names hold neither a comma nor a line feed, nor any other
      character outside the letters. */
  lemma HeaderFree(c: char)
    requires !('A' <= c <= 'Z' || 'a' <= c <= 'z')
    ensures forall i :: 0 <= i < |HeaderFields| ==> Free(HeaderFields[i], c)
    ensures Free(HeaderLine, c) <==> c != ','
  {
    var h := HeaderFields;
    assert Free(h[0], c) && Free(h[1], c) && Free(h[2], c);
    assert Free(h[3], c) && Free(h[4], c) && Free(h[5], c);
    if c != ',' {
      JoinFree(h, ',', c);
    } else {
      assert HeaderLine[4] == ',';
    }
  }

  /** The header line splits on commas into its six column names. */
  lemma HeaderSplits()
    ensures SplitOn(HeaderLine, ',') == HeaderFields
  {
    HeaderFree(',');
    SplitJoin(HeaderFields, ',');
  }

  /** In the EU format the decimal comma splits the amount in two, so the
      same record gives seven fields. */
  lemma RowFieldsEu(e: Expense, code: string)
    requires Free(e.date, ',') && Free(e.note, ',') && Free(code, ',')
    ensures SplitOn(Row(e, code, true), ',') ==
      [e.date, WholePart(e.amount), FractionPart(e.amount), code, "\"" + e.note + "\"",
       if e.recurring then "Yes" else "No", FreqText(e.freq)]
  {
    var v := RowValues(e, code, true);
    var rest := v[2..];
    assert v == [e.date, WholePart(e.amount) + [','] + FractionPart(e.amount)] + rest;
    JoinSplice(e.date, WholePart(e.amount), FractionPart(e.amount), rest, ',');
    EuFieldsFree(e, code);
    SplitJoin([e.date, WholePart(e.amount), FractionPart(e.amount)] + rest, ',');
  }

  /** None of the seven EU fields holds a comma. */
  lemma EuFieldsFree(e: Expense, code: string)
    requires Free(e.date, ',') && Free(e.note, ',') && Free(code, ',')
    ensures var w := [e.date, WholePart(e.amount), FractionPart(e.amount)] + RowValues(e, code, true)[2..];
      forall i :: 0 <= i < |w| ==> Free(w[i], ',')
  {
    NumeralFree(Abs(e.amount) / 100, ',');
    var w := [e.date, WholePart(e.amount), FractionPart(e.amount)] + RowValues(e, code, true)[2..];
    assert Free(w[0], ',') && Free(w[1], ',') && Free(w[2], ',') && Free(w[3], ',');
    assert Free(w[4], ',') && Free(w[5], ',') && Free(w[6], ',');
  }

  /** A separator inside the second part reads as one more part. */
  lemma JoinSplice(a: string, x: string, y: string, rest: seq<string>, c: char)
    requires |rest| >= 1
    ensures JoinWith([a, x + [c] + y] + rest, c) == JoinWith([a, x, y] + rest, c)
  {
    var v := [a, x + [c] + y] + rest;
    var w := [a, x, y] + rest;
    assert v[1..][1..] == rest && w[1..][1..][1..] == rest;
    var t := JoinWith(rest, c);
    calc {
      JoinWith(v, c);
      a + [c] + JoinWith(v[1..], c);
      a + [c] + ((x + [c] + y) + [c] + t);
      a + [c] + (x + [c] + (y + [c] + t));
      a + [c] + JoinWith(w[1..], c);
      JoinWith(w, c);
    }
  }

  // ---------------------------------------------------------------------
  // The quoted note under RFC 4180
  // ---------------------------------------------------------------------

  /** The content of a quoted field's inside under section 2 of RFC 4180:
      a quote must be doubled; a lone quote makes the field malformed. */
  function UnescapeQuotes(t: string): (r: Option<string>)
    ensures r.Some? ==> |r.value| <= |t|
    ensures r.Some? && |r.value| == |t| ==> Free(t, '"')
  {
    if t == [] then Some([])
    else if t[0] == '"' then
      if |t| >= 2 && t[1] == '"' then
        match UnescapeQuotes(t[2..])
        case Some(u) => Some(['"'] + u)
        case None => None
      else None
    else
      match UnescapeQuotes(t[1..])
      case Some(u) => Some([t[0]] + u)
      case None => None
  }

  /** The note as an RFC 4180 reader sees the quoted field. */
  function ReadQuotedField(field: string): Option<string>
  {
    if |field| >= 2 && field[0] == '"' && field[|field| - 1] == '"' then UnescapeQuotes(field[1..|field| - 1])
    else None
  }

  /** The note field reads back as the note exactly when the note holds no
      double quote. */
  lemma NoteFieldReadsBack(note: string)
    ensures ReadQuotedField("\"" + note + "\"") == Some(note) <==> Free(note, '"')
  {
    var field := "\"" + note + "\"";
    assert field[1..|field| - 1] == note;
    if Free(note, '"') {
      UnescapeFree(note);
    }
  }

  lemma {:induction false} UnescapeFree(t: string)
    requires Free(t, '"')
    ensures UnescapeQuotes(t) == Some(t)
  {
    if t != [] {
      UnescapeFree(t[1..]);
      assert t == [t[0]] + t[1..];
    }
  }

  /** A note with one quote in it: its field is malformed. */
  lemma LoneQuoteNote()
    ensures ReadQuotedField("\"" + "a\"b" + "\"") == None
  {
    var field := "\"" + "a\"b" + "\"";
    assert field[1..|field| - 1] == "a\"b";
    assert "a\"b"[1..] == "\"b";
  }
}

=== FILE: dates.dfy ===
/**
  The date formatters of `src/utils/date.js`: the storage form
  `YYYY-MM-DD` (the calendar-date extended format of ISO 8601:2004,
  section 4.1.2.2), the display form `MM-DD-YYYY`, and the header form
  `Dow · Month D`; plus the reading of a stored `YYYY-MM-DD` string back
  into a date, which `new Date(dateStr)` performs.
*/
module DateFormat {
  import opened Wrappers
  import opened Text
  import opened Calendar

  /** `formatDate`: year, then month and day padded to two digits, joined by '-'. */
  function FormatDate(d: Date): string
    requires Valid(d)
  {
    IntToString(d.year) + "-" + Pad2(d.month) + "-" + Pad2(d.day)
  }

  /** `formatDisplayDate`: the same padded parts, ordered month, day, year. */
  function FormatDisplayDate(d: Date): string
    requires Valid(d)
  {
    Pad2(d.month) + "-" + Pad2(d.day) + "-" + IntToString(d.year)
  }

  const WeekdayNames: seq<string> := ["Sun", "Mon", "Tue", "Wed", "Thu", "Fri", "Sat"]

  const MonthNames: seq<string> :=
    ["January", "February", "March", "April", "May", "June",
     "July", "August", "September", "October", "November", "December"]

  /** `formatHeaderDate`: weekday abbreviation, a middle dot, the month name and the unpadded day. */
  function FormatHeaderDate(d: Date): string
    requires Valid(d)
  {
    WeekdayNames[DayOfWeek(d)] + " · " + MonthNames[d.month - 1] + " " + NatToString(d.day)
  }

  predicate FourDigitYear(d: Date)
  {
    1000 <= d.year <= 9999
  }

  /** With a four-digit year the storage form is ten characters of fixed-width fields. */
  lemma FormatDateFixed(d: Date)
    requires Valid(d) && FourDigitYear(d)
    ensures FormatDate(d) == FixedDigits(d.year, 4) + "-" + FixedDigits(d.month, 2) + "-" + FixedDigits(d.day, 2)
    ensures |FormatDate(d)| == 10
  {
    assert Pow10(3) == 1000 && Pow10(4) == 10000;
    NatToStringFixed(d.year, 4);
    Pad2Fixed(d.month);
    Pad2Fixed(d.day);
  }

  /** Strings of the shape `Y-M-D` with equal-width fields compare field by field. */
  lemma DashedOrder(ya: string, ma: string, da: string, yb: string, mb: string, db: string)
    requires |ya| == |yb| && |ma| == |mb|
    ensures LexLess(ya + "-" + ma + "-" + da, yb + "-" + mb + "-" + db) <==>
      LexLess(ya, yb) || (ya == yb && (LexLess(ma, mb) || (ma == mb && LexLess(da, db))))
    ensures ya + "-" + ma + "-" + da == yb + "-" + mb + "-" + db <==> ya == yb && ma == mb && da == db
  {
    var ta, tb := ma + "-" + da, mb + "-" + db;
    assert ya + "-" + ma + "-" + da == ya + ("-" + ta);
    assert yb + "-" + mb + "-" + db == yb + ("-" + tb);
    LexLessConcat(ya, "-" + ta, yb, "-" + tb);
    LexLessConcat("-", ta, "-", tb);
    assert ta == ma + ("-" + da) && tb == mb + ("-" + db);
    LexLessConcat(ma, "-" + da, mb, "-" + db);
    LexLessConcat("-", da, "-", db);
    LexLessIrreflexive("-");
    var sa, sb := ya + "-" + ma + "-" + da, yb + "-" + mb + "-" + db;
    if sa == sb {
      var n, k := |ya|, |ma|;
      assert sa[..n] == ya && sb[..n] == yb;
      assert sa[n + 1..n + 1 + k] == ma && sb[n + 1..n + 1 + k] == mb;
      assert sa[n + k + 2..] == da && sb[n + k + 2..] == db;
    }
  }

  /** For four-digit years, string order of the storage form is chronological order. */
  lemma FormatDateOrder(a: Date, b: Date)
    requires Valid(a) && FourDigitYear(a) && Valid(b) && FourDigitYear(b)
    ensures LexLess(FormatDate(a), FormatDate(b)) <==> DateBefore(a, b)
    ensures LexLess(FormatDate(a), FormatDate(b)) <==> DayNumber(a) < DayNumber(b)
    ensures FormatDate(a) == FormatDate(b) <==> a == b
  {
    FormatDateFixed(a);
    FormatDateFixed(b);
    DayNumberOrder(a, b);
    assert Pow10(2) == 100 && Pow10(4) == 10000;
    FixedDigitsOrder(a.year, b.year, 4);
    FixedDigitsInjective(a.year, b.year, 4);
    FixedDigitsOrder(a.month, b.month, 2);
    FixedDigitsInjective(a.month, b.month, 2);
    FixedDigitsOrder(a.day, b.day, 2);
    FixedDigitsInjective(a.day, b.day, 2);
    DashedOrder(FixedDigits(a.year, 4), FixedDigits(a.month, 2), FixedDigits(a.day, 2),
                FixedDigits(b.year, 4), FixedDigits(b.month, 2), FixedDigits(b.day, 2));
  }

  /** JavaScript's `a <= b` on storage strings is `a` not later than `b`. */
  lemma FormatDateLessEq(a: Date, b: Date)
    requires Valid(a) && FourDigitYear(a) && Valid(b) && FourDigitYear(b)
    ensures LexLessEq(FormatDate(a), FormatDate(b)) <==> DayNumber(a) <= DayNumber(b)
  {
    FormatDateOrder(b, a);
  }

  /** The display form reuses the storage form's month, day and year fields. */
  lemma DisplayDateReordersStorageDate(d: Date)
    requires Valid(d)
    ensures var s := FormatDate(d);
      var n := |s|;
      n >= 6 && FormatDisplayDate(d) == s[n - 5..n - 3] + "-" + s[n - 2..] + "-" + s[..n - 6]
  {
    Pad2Fixed(d.month);
    Pad2Fixed(d.day);
    var y, m, dd := IntToString(d.year), Pad2(d.month), Pad2(d.day);
    FieldLayout(y, '-', m, '-', dd);
    var s := FormatDate(d);
    assert s == y + ['-'] + m + ['-'] + dd;
    var n := |s|;
    assert s[n - 5..n - 3] == m && s[n - 2..] == dd && s[..n - 6] == y;
  }

  /** The header ends in the day of the month without padding, after the month's name. */
  lemma HeaderDateShape(d: Date)
    requires Valid(d)
    ensures var h := FormatHeaderDate(d);
      var tail := MonthNames[d.month - 1] + " " + NatToString(d.day);
      && h == WeekdayNames[DayOfWeek(d)] + " · " + tail
      && h[|h| - |NatToString(d.day)|..] == NatToString(d.day)
      && (d.day < 10 ==> h[|h| - 2..] == " " + [DigitChar(d.day)])
  {
    var h := FormatHeaderDate(d);
    var k := |NatToString(d.day)|;
    assert h[|h| - k..] == NatToString(d.day);
  }

  /** A date a week later gets the same weekday in its header. */
  lemma HeaderWeekdayRepeats(d: Date)
    requires Valid(d)
    ensures FormatHeaderDate(AddDays(d, 7))[..3] == FormatHeaderDate(d)[..3]
  {
    AddWeekSameWeekday(d);
  }

  // ---------------------------------------------------------------------
  // Reading a storage string back
  // ---------------------------------------------------------------------

  /** The date named by a `YYYY-MM-DD` string, if it is one and the date exists. */
  function ParseDate(s: string): (r: Option<Date>)
    ensures r.Some? ==> Valid(r.value) && FourDigitYear(r.value)
  {
    if |s| == 10 && s[4] == '-' && s[7] == '-'
       && AllDigits(s[..4]) && AllDigits(s[5..7]) && AllDigits(s[8..]) then
      var d := Date(DigitsValue(s[..4]), DigitsValue(s[5..7]), DigitsValue(s[8..]));
      if Valid(d) && FourDigitYear(d) then Some(d) else None
    else None
  }

  /** Every storage string of a four-digit-year date reads back as that date. */
  lemma ParseFormatDate(d: Date)
    requires Valid(d) && FourDigitYear(d)
    ensures ParseDate(FormatDate(d)) == Some(d)
  {
    FormatDateFixed(d);
    assert Pow10(2) == 100 && Pow10(4) == 10000;
    var y, m, dd := FixedDigits(d.year, 4), FixedDigits(d.month, 2), FixedDigits(d.day, 2);
    FixedDigitsValue(d.year, 4);
    FixedDigitsValue(d.month, 2);
    FixedDigitsValue(d.day, 2);
    ParseDashedFields(y, m, dd);
  }

  /** A string of digit fields of widths 4, 2 and 2 joined by '-' is read field by field. */
  lemma ParseDashedFields(y: string, m: string, dd: string)
    requires |y| == 4 && |m| == 2 && |dd| == 2 && AllDigits(y) && AllDigits(m) && AllDigits(dd)
    ensures var d := Date(DigitsValue(y), DigitsValue(m), DigitsValue(dd));
      ParseDate(y + "-" + m + "-" + dd) == if Valid(d) && FourDigitYear(d) then Some(d) else None
  {
    FieldLayout(y, '-', m, '-', dd);
    assert y + "-" + m + "-" + dd == y + ['-'] + m + ['-'] + dd;
  }
}

=== FILE: grouping.dfy ===
/**
  `groupByDate` of the main screen: a view's expenses collected into one
  group per stored date string, each with its items in ledger order and
  their total, the groups ordered newest date first.

  The groups are collected into an object keyed by date; date strings are
  never array-index-like, so `Object.entries` yields them in insertion
  order, and `sort` then orders them by `localeCompare`, reversed.
*/
module Grouping {
  import opened Text
  import opened Seqs
  import opened Ledger

  datatype Group = Group(date: string, items: seq<Expense>, total: int)

  /** The dates heading the groups. */
  function Keys(groups: seq<Group>): set<string>
  {
    if groups == [] then {} else {groups[0].date} + Keys(groups[1..])
  }

  /** The dates occurring in a list. */
  function Dates(list: seq<Expense>): set<string>
  {
    if list == [] then {} else Dates(list[..|list| - 1]) + {list[|list| - 1].date}
  }

  /** No date heads two groups. */
  predicate Distinct(groups: seq<Group>)
  {
    groups == [] || (groups[0].date !in Keys(groups[1..]) && Distinct(groups[1..]))
  }

  /** Newest first: the dates strictly decrease in string order. */
  predicate Descending(groups: seq<Group>)
  {
    forall i, j :: 0 <= i < j < |groups| ==> LexLess(groups[j].date, groups[i].date)
  }

  /** The items of the first group keyed `k`, or none. */
  function ItemsFor(groups: seq<Group>, k: string): seq<Expense>
  {
    if groups == [] then [] else if groups[0].date == k then groups[0].items else ItemsFor(groups[1..], k)
  }

  /** The total of the first group keyed `k`, or zero. */
  function TotalFor(groups: seq<Group>, k: string): int
  {
    if groups == [] then 0 else if groups[0].date == k then groups[0].total else TotalFor(groups[1..], k)
  }

  function SumTotals(groups: seq<Group>): int
  {
    if groups == [] then 0 else groups[0].total + SumTotals(groups[1..])
  }

  /** One `forEach` step: the item joins the group of its date, which is
      opened at the end when the date is new. */
  function AddItem(groups: seq<Group>, x: Expense): (r: seq<Group>)
    ensures Keys(r) == Keys(groups) + {x.date}
    ensures Distinct(groups) ==> Distinct(r)
    ensures forall k :: ItemsFor(r, k) == if k == x.date then ItemsFor(groups, k) + [x] else ItemsFor(groups, k)
    ensures forall k :: TotalFor(r, k) == if k == x.date then TotalFor(groups, k) + x.amount else TotalFor(groups, k)
    ensures SumTotals(r) == SumTotals(groups) + x.amount
  {
    if groups == [] then
      [Group(x.date, [x], x.amount)]
    else if groups[0].date == x.date then
      var g := groups[0];
      var r := [g.(items := g.items + [x], total := g.total + x.amount)] + groups[1..];
      assert r[1..] == groups[1..];
      r
    else
      var rest := AddItem(groups[1..], x);
      var r := [groups[0]] + rest;
      assert r[1..] == rest;
      r
  }

  /** The groups in insertion order, before sorting. */
  function Collect(list: seq<Expense>): (r: seq<Group>)
    ensures Keys(r) == Dates(list)
    ensures Distinct(r)
    ensures forall k :: ItemsFor(r, k) == Filter(list, DateIs(k))
    ensures forall k :: TotalFor(r, k) == Total(Filter(list, DateIs(k)))
    ensures SumTotals(r) == Total(list)
  {
    if list == [] then []
    else
      var init, x := list[..|list| - 1], list[|list| - 1];
      var r := AddItem(Collect(init), x);
      assert list == init + [x];
      TotalConcat(init, [x]);
      AppendByDate(init, x);
      r
  }

  /** Appending an item extends exactly its own date's selection. */
  lemma AppendByDate(init: seq<Expense>, x: Expense)
    ensures forall k :: (Filter(init + [x], DateIs(k)) ==
      if k == x.date then Filter(init, DateIs(k)) + [x] else Filter(init, DateIs(k)))
    ensures forall k :: (Total(Filter(init + [x], DateIs(k))) ==
      if k == x.date then Total(Filter(init, DateIs(k))) + x.amount else Total(Filter(init, DateIs(k))))
  {
    forall k
      ensures Filter(init + [x], DateIs(k)) ==
        if k == x.date then Filter(init, DateIs(k)) + [x] else Filter(init, DateIs(k))
      ensures Total(Filter(init + [x], DateIs(k))) ==
        if k == x.date then Total(Filter(init, DateIs(k))) + x.amount else Total(Filter(init, DateIs(k)))
    {
      FilterConcat(init, [x], DateIs(k));
      TotalConcat(Filter(init, DateIs(k)), Filter([x], DateIs(k)));
      assert Filter([x], DateIs(k)) == if k == x.date then [x] else [];
    }
  }

  /** In a list with distinct keys, the lookup finds each group itself. */
  lemma {:induction false} LookupFindsGroup(groups: seq<Group>, i: int)
    requires Distinct(groups) && 0 <= i < |groups|
    ensures ItemsFor(groups, groups[i].date) == groups[i].items
    ensures TotalFor(groups, groups[i].date) == groups[i].total
  {
    if i > 0 {
      assert groups[1..][i - 1] == groups[i];
      KeyOf(groups[1..], i - 1);
      LookupFindsGroup(groups[1..], i - 1);
    }
  }

  lemma {:induction false} KeyOf(groups: seq<Group>, i: int)
    requires 0 <= i < |groups|
    ensures groups[i].date in Keys(groups)
  {
    if i > 0 {
      assert groups[1..][i - 1] == groups[i];
      KeyOf(groups[1..], i - 1);
    }
  }

  /** One insertion-sort step: `g` goes before the first group with an
      earlier date. */
  function InsertDesc(g: Group, sorted: seq<Group>): (r: seq<Group>)
    requires Descending(sorted) && g.date !in Keys(sorted)
    ensures Descending(r)
    ensures multiset(r) == multiset(sorted) + multiset{g}
    ensures SumTotals(r) == SumTotals(sorted) + g.total
    ensures Keys(r) == Keys(sorted) + {g.date}
  {
    if sorted == [] || LexLess(sorted[0].date, g.date) then
      var r := [g] + sorted;
      assert r[1..] == sorted;
      BelowHead(g, sorted);
      r
    else
      LexLessTotal(sorted[0].date, g.date);
      var tail := sorted[1..];
      DescendingTail(sorted);
      var rest := InsertDesc(g, tail);
      var r := [sorted[0]] + rest;
      assert r[1..] == rest;
      assert sorted == [sorted[0]] + tail;
      BelowOldHead(g, sorted, rest);
      r
  }

  lemma DescendingTail(sorted: seq<Group>)
    requires Descending(sorted) && |sorted| > 0
    ensures Descending(sorted[1..])
  {
    var tail := sorted[1..];
    forall i, j | 0 <= i < j < |tail|
      ensures LexLess(tail[j].date, tail[i].date)
    {
      assert tail[i] == sorted[i + 1] && tail[j] == sorted[j + 1];
    }
  }

  /** Everything in a descending list is below a key above its head. */
  lemma BelowHead(g: Group, sorted: seq<Group>)
    requires Descending(sorted) && (sorted == [] || LexLess(sorted[0].date, g.date))
    ensures Descending([g] + sorted)
  {
    var r := [g] + sorted;
    forall j | 0 < j < |r|
      ensures LexLess(r[j].date, g.date)
    {
      if j > 1 {
        assert r[j] == sorted[j - 1];
        LexLessTransitive(r[j].date, sorted[0].date, g.date);
      }
    }
  }

  /** Inserting below the head keeps everything after the head below it. */
  lemma BelowOldHead(g: Group, sorted: seq<Group>, rest: seq<Group>)
    requires Descending(sorted) && |sorted| > 0 && LexLess(g.date, sorted[0].date)
    requires Descending(rest) && multiset(rest) == multiset(sorted[1..]) + multiset{g}
    ensures Descending([sorted[0]] + rest)
  {
    var r := [sorted[0]] + rest;
    var tail := sorted[1..];
    forall j | 0 < j < |r|
      ensures LexLess(r[j].date, sorted[0].date)
    {
      assert r[j] == rest[j - 1];
      assert r[j] in multiset(rest);
      if r[j] != g {
        assert r[j] in multiset(tail);
        var t :| 0 <= t < |tail| && tail[t] == r[j];
        assert sorted[t + 1] == r[j];
      }
    }
  }

  lemma HeadAndTail(groups: seq<Group>)
    requires groups != []
    ensures multiset(groups) == multiset(groups[1..]) + multiset{groups[0]}
  {
    assert groups == [groups[0]] + groups[1..];
  }

  /** Sorting with `b.date.localeCompare(a.date)`: newest date first. */
  function SortDesc(groups: seq<Group>): (r: seq<Group>)
    requires Distinct(groups)
    ensures Descending(r)
    ensures multiset(r) == multiset(groups)
    ensures SumTotals(r) == SumTotals(groups)
    ensures Keys(r) == Keys(groups)
  {
    if groups == [] then []
    else
      HeadAndTail(groups);
      InsertDesc(groups[0], SortDesc(groups[1..]))
  }

  /** `groupByDate`: one group per date of the list, newest first, each
      holding exactly the list's expenses of that date in ledger order and
      their sum; the group totals add up to the list's total. */
  function GroupByDate(list: seq<Expense>): (r: seq<Group>)
    ensures Descending(r)
    ensures Keys(r) == Dates(list)
    ensures forall i :: 0 <= i < |r| ==> r[i].items == Filter(list, DateIs(r[i].date))
    ensures forall i :: 0 <= i < |r| ==> r[i].total == Total(r[i].items)
    ensures SumTotals(r) == Total(list)
  {
    var c := Collect(list);
    var r := SortDesc(c);
    SortedGroupsAreCollected(list, c, r);
    r
  }

  /** Each group after sorting is one of the collected groups, so it holds
      its date's selection and that selection's sum. */
  lemma SortedGroupsAreCollected(list: seq<Expense>, c: seq<Group>, r: seq<Group>)
    requires c == Collect(list) && multiset(r) == multiset(c)
    ensures forall i :: 0 <= i < |r| ==> r[i].items == Filter(list, DateIs(r[i].date))
    ensures forall i :: 0 <= i < |r| ==> r[i].total == Total(r[i].items)
  {
    forall i | 0 <= i < |r|
      ensures r[i].items == Filter(list, DateIs(r[i].date))
      ensures r[i].total == Total(r[i].items)
    {
      assert r[i] in multiset(c);
      var j :| 0 <= j < |c| && c[j] == r[i];
      LookupFindsGroup(c, j);
    }
  }
}

=== FILE: ledger.dfy ===
/**
  The expense ledger: saving an expense from the add/edit form, deleting
  one, the next-due date of a recurring expense, and the four period views
  (today, the last seven days, this month, this year) with their totals.

  A stored expense keeps its date as the `YYYY-MM-DD` string written by
  `FormatDate`; the period views compare those strings with JavaScript's
  string order, exactly as the app does. Amounts are integer cents.
*/
module Ledger {
  import opened Wrappers
  import opened Text
  import opened Calendar
  import opened DateFormat
  import opened Seqs

  datatype Freq = Weekly | Monthly | Yearly

  /** One stored expense. `freq` and `nextDue` are `null` in the store for a
      one-off expense created by the add form. */
  datatype Expense = Expense(id: int, amount: int, note: string, date: string,
                             recurring: bool, freq: Option<Freq>, nextDue: Option<string>)

  /** The add/edit form when Save is pressed: the raw amount text, the
      amount it parses to, the note, the picked date, the recurring toggle
      and the selected frequency (always one of the three; it starts as
      monthly). */
  datatype ExpenseForm = ExpenseForm(amountText: string, amount: int, note: string,
                                     date: Date, recurring: bool, freq: Freq)

  // ---------------------------------------------------------------------
  // Next due date
  // ---------------------------------------------------------------------

  /** The next due date: a week later, the JavaScript month step, or the
      JavaScript year step. Each step adds the length of the period it
      crosses. */
  function NextDueDate(date: Date, freq: Freq): (r: Date)
    requires Valid(date)
    ensures Valid(r)
    ensures freq == Weekly ==> DayNumber(r) == DayNumber(date) + 7
    ensures freq == Monthly ==> DayNumber(r) == DayNumber(date) + DaysInMonth(date.year, date.month)
    ensures freq == Yearly ==>
      DayNumber(r) == DayNumber(date) + (if date.month <= 2 then YearLength(date.year) else YearLength(date.year + 1))
  {
    match freq
    case Weekly => AddDays(date, 7)
    case Monthly =>
      AddMonthJsLength(date);
      AddMonthJs(date)
    case Yearly =>
      AddYearJsLength(date);
      AddYearJs(date)
  }

  /** January 31 steps to March 3 in a common year and to March 2 in a leap
      year: the month step rolls over instead of clamping. */
  lemma MonthlyFromJanuary31()
    ensures NextDueDate(Date(2025, 1, 31), Monthly) == Date(2025, 3, 3)
    ensures NextDueDate(Date(2024, 1, 31), Monthly) == Date(2024, 3, 2)
  {
    AddMonthJsSpec(Date(2025, 1, 31));
    AddMonthJsSpec(Date(2024, 1, 31));
  }

  /** February 29 steps one year to March 1. */
  lemma YearlyFromLeapDay()
    ensures NextDueDate(Date(2024, 2, 29), Yearly) == Date(2025, 3, 1)
  {
    AddYearJsSpec(Date(2024, 2, 29));
  }

  // ---------------------------------------------------------------------
  // Saving and deleting
  // ---------------------------------------------------------------------

  /** The next-due string the form writes: present exactly when recurring,
      and then the storage form of the next due date. */
  function FormNextDue(form: ExpenseForm): (r: Option<string>)
    requires Valid(form.date)
    ensures r.Some? <==> form.recurring
    ensures form.recurring ==> r == Some(FormatDate(NextDueDate(form.date, form.freq)))
  {
    if form.recurring then Some(FormatDate(NextDueDate(form.date, form.freq))) else None
  }

  /** The record the form adds: the frequency is kept only when recurring. */
  function NewRecord(form: ExpenseForm, id: int): Expense
    requires Valid(form.date)
  {
    Expense(id, form.amount, form.note, FormatDate(form.date), form.recurring,
            if form.recurring then Some(form.freq) else None, FormNextDue(form))
  }

  /** An existing record overwritten by the form: the id stays, and the
      selected frequency is written even when the toggle is off. */
  function Overwrite(e: Expense, form: ExpenseForm): (r: Expense)
    requires Valid(form.date)
    ensures r.id == e.id && r.amount == form.amount && r.note == form.note
    ensures r.date == FormatDate(form.date) && r.recurring == form.recurring
    ensures r.freq == Some(form.freq) && r.nextDue == FormNextDue(form)
  {
    e.(amount := form.amount, note := form.note, date := FormatDate(form.date),
       recurring := form.recurring, freq := Some(form.freq), nextDue := FormNextDue(form))
  }

  /** Adding prepends one record and keeps the rest. */
  function AddExpense(expenses: seq<Expense>, form: ExpenseForm, newId: int): (r: seq<Expense>)
    requires Valid(form.date)
    ensures |r| == |expenses| + 1 && r[1..] == expenses
    ensures r[0].id == newId && r[0].amount == form.amount && r[0].note == form.note
    ensures r[0].date == FormatDate(form.date) && r[0].recurring == form.recurring
    ensures r[0].freq == (if form.recurring then Some(form.freq) else None)
    ensures r[0].nextDue == FormNextDue(form)
  {
    [NewRecord(form, newId)] + expenses
  }

  /** A recurring record added by the form reads back, through its stored
      next-due string, as the next due date: a whole period after the
      record's own date, on the day count. */
  lemma AddedNextDueReadsBack(expenses: seq<Expense>, form: ExpenseForm, newId: int)
    requires Valid(form.date) && form.recurring && FourDigitYear(NextDueDate(form.date, form.freq))
    ensures var r := AddExpense(expenses, form, newId);
      && r[0].freq == Some(form.freq)
      && r[0].nextDue.Some?
      && ParseDate(r[0].nextDue.value) == Some(NextDueDate(form.date, form.freq))
      && DayNumber(form.date) < DayNumber(ParseDate(r[0].nextDue.value).value)
  {
    ParseFormatDate(NextDueDate(form.date, form.freq));
    NextDueIsLater(form.date, form.freq);
  }

  /** Every step moves the due date forward. */
  lemma NextDueIsLater(date: Date, freq: Freq)
    requires Valid(date)
    ensures DayNumber(date) < DayNumber(NextDueDate(date, freq))
  {
  }

  /** Editing overwrites every record carrying the edited id and nothing else. */
  function EditExpense(expenses: seq<Expense>, id: int, form: ExpenseForm): (r: seq<Expense>)
    requires Valid(form.date)
    ensures |r| == |expenses|
    ensures forall i :: 0 <= i < |r| ==> r[i].id == expenses[i].id
    ensures forall i :: 0 <= i < |r| && expenses[i].id != id ==> r[i] == expenses[i]
    ensures forall i :: 0 <= i < |r| && expenses[i].id == id ==> r[i] == Overwrite(expenses[i], form)
  {
    if expenses == [] then []
    else
      var head := if expenses[0].id == id then Overwrite(expenses[0], form) else expenses[0];
      [head] + EditExpense(expenses[1..], id, form)
  }

  /** `saveExpense`: nothing happens when the amount field is empty; an
      edit overwrites the edited record, otherwise a new record is added. */
  function SaveExpense(expenses: seq<Expense>, form: ExpenseForm, editing: Option<int>, newId: int): (r: seq<Expense>)
    requires Valid(form.date)
    ensures form.amountText == "" ==> r == expenses
    ensures form.amountText != "" && editing.None? ==> |r| == |expenses| + 1 && r[1..] == expenses && r[0].id == newId
    ensures form.amountText != "" && editing.Some? ==> |r| == |expenses|
  {
    if form.amountText == "" then expenses
    else match editing
      case Some(id) => EditExpense(expenses, id, form)
      case None => AddExpense(expenses, form, newId)
  }

  /** `deleteExpense`: every record with the edited id goes, the rest stay
      in order; with nothing being edited nothing changes. */
  function DeleteExpense(expenses: seq<Expense>, editing: Option<int>): (r: seq<Expense>)
    ensures editing.None? ==> r == expenses
    ensures editing.Some? ==> forall i :: 0 <= i < |r| ==> r[i].id != editing.value && r[i] in expenses
    ensures editing.Some? ==> forall i :: 0 <= i < |expenses| && expenses[i].id != editing.value ==> expenses[i] in r
    ensures IsSubseq(r, expenses)
  {
    match editing
    case None =>
      FilterIsSubseq(expenses, (e: Expense) => true);
      FilterAll(expenses, (e: Expense) => true);
      expenses
    case Some(id) =>
      FilterIsSubseq(expenses, (e: Expense) => e.id != id);
      Filter(expenses, (e: Expense) => e.id != id)
  }

  /** Deleting keeps each other record exactly as often as it was stored. */
  lemma DeleteKeepsMultiplicity(expenses: seq<Expense>, id: int)
    ensures forall e :: (multiset(DeleteExpense(expenses, Some(id)))[e] ==
                         if e.id == id then 0 else multiset(expenses)[e])
  {
    FilterMultiset(expenses, (e: Expense) => e.id != id);
  }

  /** Deleting twice is deleting once. */
  lemma DeleteIdempotent(expenses: seq<Expense>, editing: Option<int>)
    ensures DeleteExpense(DeleteExpense(expenses, editing), editing) == DeleteExpense(expenses, editing)
  {
    if editing.Some? {
      FilterIdempotent(expenses, (e: Expense) => e.id != editing.value);
    }
  }

  /** Deleting a freshly added record restores the ledger. */
  lemma DeleteUndoesAdd(expenses: seq<Expense>, form: ExpenseForm, newId: int)
    requires Valid(form.date)
    requires forall i :: 0 <= i < |expenses| ==> expenses[i].id != newId
    ensures DeleteExpense(AddExpense(expenses, form, newId), Some(newId)) == expenses
  {
    var p := (e: Expense) => e.id != newId;
    FilterConcat([NewRecord(form, newId)], expenses, p);
    FilterAll(expenses, p);
  }

  /** Editing does not change which records a delete removes or keeps. */
  lemma {:induction false} DeleteAfterEdit(expenses: seq<Expense>, id: int, form: ExpenseForm)
    requires Valid(form.date)
    ensures DeleteExpense(EditExpense(expenses, id, form), Some(id)) == DeleteExpense(expenses, Some(id))
  {
    if expenses != [] {
      DeleteAfterEdit(expenses[1..], id, form);
      var r := EditExpense(expenses, id, form);
      assert r[1..] == EditExpense(expenses[1..], id, form);
    }
  }

  /** Saving the same form over the same record twice is saving it once. */
  lemma {:induction false} EditIdempotent(expenses: seq<Expense>, id: int, form: ExpenseForm)
    requires Valid(form.date)
    ensures EditExpense(EditExpense(expenses, id, form), id, form) == EditExpense(expenses, id, form)
  {
    if expenses != [] {
      EditIdempotent(expenses[1..], id, form);
      var r := EditExpense(expenses, id, form);
      assert r[1..] == EditExpense(expenses[1..], id, form);
    }
  }

  /** The test "stored under date string `k`". */
  function DateIs(k: string): Expense -> bool
  {
    (e: Expense) => e.date == k
  }

  // ---------------------------------------------------------------------
  // Totals
  // ---------------------------------------------------------------------

  /** `list.reduce((s, e) => s + e.amount, 0)`. */
  function Total(xs: seq<Expense>): int
  {
    if xs == [] then 0 else xs[0].amount + Total(xs[1..])
  }

  lemma {:induction false} TotalConcat(a: seq<Expense>, b: seq<Expense>)
    ensures Total(a + b) == Total(a) + Total(b)
  {
    if a != [] {
      assert (a + b)[1..] == a[1..] + b;
      TotalConcat(a[1..], b);
    } else {
      assert a + b == b;
    }
  }

  function IsRecurring(e: Expense): bool { e.recurring }

  function IsOneOff(e: Expense): bool { !e.recurring }

  /** The total of the one-off expenses in a list: the "spending" figure. */
  function SpendingTotal(items: seq<Expense>): int
  {
    Total(Filter(items, IsOneOff))
  }

  /** The total of the recurring expenses in a list. */
  function RecurringTotal(items: seq<Expense>): int
  {
    Total(Filter(items, IsRecurring))
  }

  /** Spending and recurring split the total. */
  lemma {:induction false} TotalSplits(items: seq<Expense>)
    ensures SpendingTotal(items) + RecurringTotal(items) == Total(items)
  {
    if items != [] {
      TotalSplits(items[1..]);
      var s, r := Filter(items, IsOneOff), Filter(items, IsRecurring);
      if items[0].recurring {
        assert s == Filter(items[1..], IsOneOff);
        assert r == [items[0]] + Filter(items[1..], IsRecurring);
        assert r[1..] == Filter(items[1..], IsRecurring);
      } else {
        assert r == Filter(items[1..], IsRecurring);
        assert s == [items[0]] + Filter(items[1..], IsOneOff);
        assert s[1..] == Filter(items[1..], IsOneOff);
      }
    }
  }

  // ---------------------------------------------------------------------
  // Period views
  // ---------------------------------------------------------------------

  datatype Period = Today | Week | Month | Year

  /** What `getData` returns. */
  datatype View = View(items: seq<Expense>, total: int)

  /** The first day of a period's window: today, six days back (the window
      is seven days including today), the first of the month, or January 1. */
  function PeriodStart(period: Period, today: Date): (r: Date)
    requires Valid(today)
    ensures Valid(r)
  {
    match period
    case Today => today
    case Week => AddDays(today, -6)
    case Month => Date(today.year, today.month, 1)
    case Year => Date(today.year, 1, 1)
  }

  /** The filter of each view, on the stored date string: equality for
      today, otherwise string comparison against the window's ends. */
  predicate InPeriod(e: Expense, period: Period, today: Date)
    requires Valid(today)
  {
    if period == Today then e.date == FormatDate(today)
    else LexLessEq(FormatDate(PeriodStart(period, today)), e.date) && LexLessEq(e.date, FormatDate(today))
  }

  function PeriodTest(period: Period, today: Date): Expense -> bool
    requires Valid(today)
  {
    e => InPeriod(e, period, today)
  }

  /** `getData`: the period's expenses, in ledger order, and their total. */
  function GetData(expenses: seq<Expense>, period: Period, today: Date): (v: View)
    requires Valid(today)
    ensures IsSubseq(v.items, expenses)
    ensures forall i :: 0 <= i < |v.items| ==> InPeriod(v.items[i], period, today)
    ensures forall i :: 0 <= i < |expenses| && InPeriod(expenses[i], period, today) ==> expenses[i] in v.items
    ensures forall e :: multiset(v.items)[e] == if InPeriod(e, period, today) then multiset(expenses)[e] else 0
    ensures v.total == Total(v.items)
  {
    var items := Filter(expenses, PeriodTest(period, today));
    FilterIsSubseq(expenses, PeriodTest(period, today));
    FilterMultiset(expenses, PeriodTest(period, today));
    View(items, Total(items))
  }

  /** Today's window opens at most a year before today. */
  lemma WeekStartYear(today: Date)
    requires Valid(today)
    ensures today.year - 1 <= PeriodStart(Week, today).year <= today.year
  {
    var s := PeriodStart(Week, today);
    DayNumberOrder(s, today);
    DayNumberInYear(s);
    DayNumberInYear(today);
    if s.year < today.year - 1 {
      DaysBeforeYearMonotone(s.year + 1, today.year - 1);
      YearStep(today.year - 1);
      assert false;
    }
  }

  /** Between two storage strings in string order is between the dates. */
  lemma StringWindow(s: Date, d: Date, t: Date)
    requires Valid(s) && FourDigitYear(s) && Valid(d) && FourDigitYear(d) && Valid(t) && FourDigitYear(t)
    ensures LexLessEq(FormatDate(s), FormatDate(d)) && LexLessEq(FormatDate(d), FormatDate(t)) <==>
      DayNumber(s) <= DayNumber(d) <= DayNumber(t)
  {
    FormatDateLessEq(s, d);
    FormatDateLessEq(d, t);
  }

  /** For dates with four-digit years, a stored date is in a period's view
      exactly when it lies between the window's first day and today. */
  lemma PeriodWindow(e: Expense, d: Date, period: Period, today: Date)
    requires Valid(today) && 1001 <= today.year <= 9999
    requires Valid(d) && FourDigitYear(d) && e.date == FormatDate(d)
    ensures InPeriod(e, period, today) <==>
      DayNumber(PeriodStart(period, today)) <= DayNumber(d) <= DayNumber(today)
  {
    if period == Today {
      FormatDateOrder(d, today);
      DayNumberOrder(d, today);
    } else {
      var s := PeriodStart(period, today);
      if period == Week {
        WeekStartYear(today);
      }
      assert FourDigitYear(s);
      StringWindow(s, d, today);
    }
  }

  /** The windows in calendar terms: today only; the last seven days; this
      month up to today; this year up to today. */
  lemma PeriodMembership(e: Expense, d: Date, today: Date)
    requires Valid(today) && 1001 <= today.year <= 9999
    requires Valid(d) && FourDigitYear(d) && e.date == FormatDate(d)
    ensures InPeriod(e, Today, today) <==> d == today
    ensures InPeriod(e, Week, today) <==> DayNumber(today) - 6 <= DayNumber(d) <= DayNumber(today)
    ensures InPeriod(e, Month, today) <==>
      d.year == today.year && d.month == today.month && d.day <= today.day
    ensures InPeriod(e, Year, today) <==>
      d.year == today.year && !DateBefore(today, d)
  {
    PeriodWindow(e, d, Today, today);
    PeriodWindow(e, d, Week, today);
    PeriodWindow(e, d, Month, today);
    PeriodWindow(e, d, Year, today);
    DayNumberOrder(d, today);
    DayNumberOrder(today, d);
    DayNumberOrder(PeriodStart(Month, today), d);
    DayNumberOrder(d, PeriodStart(Month, today));
    DayNumberOrder(PeriodStart(Year, today), d);
    DayNumberOrder(d, PeriodStart(Year, today));
  }

  /** No view shows an expense dated after today. */
  lemma FutureNeverShown(e: Expense, d: Date, period: Period, today: Date)
    requires Valid(today) && 1001 <= today.year <= 9999
    requires Valid(d) && FourDigitYear(d) && e.date == FormatDate(d)
    requires DayNumber(today) < DayNumber(d)
    ensures !InPeriod(e, period, today)
  {
    PeriodWindow(e, d, period, today);
  }

  /** Whatever the stored strings hold, a record in a shorter window is also
      in the longer ones containing it: today's in the week's, the month's
      and the year's, and the month's in the year's. */
  lemma PeriodsNest(e: Expense, today: Date)
    requires Valid(today) && 1001 <= today.year <= 9999
    ensures InPeriod(e, Today, today) ==> InPeriod(e, Week, today)
    ensures InPeriod(e, Today, today) ==> InPeriod(e, Month, today)
    ensures InPeriod(e, Month, today) ==> InPeriod(e, Year, today)
    ensures InPeriod(e, Today, today) ==> InPeriod(e, Year, today)
  {
    StartNotAfterToday(Week, today);
    StartNotAfterToday(Month, today);
    StartNotAfterToday(Year, today);
    LexLessIrreflexive(FormatDate(today));
    YearStartsFirst(today);
    if InPeriod(e, Month, today) {
      LexLessEqTransitive(FormatDate(PeriodStart(Year, today)), FormatDate(PeriodStart(Month, today)), e.date);
    }
  }

  /** Every window opens no later than today, in string order too. */
  lemma StartNotAfterToday(period: Period, today: Date)
    requires Valid(today) && 1001 <= today.year <= 9999
    ensures FourDigitYear(PeriodStart(period, today))
    ensures LexLessEq(FormatDate(PeriodStart(period, today)), FormatDate(today))
  {
    var s := PeriodStart(period, today);
    if period == Week {
      WeekStartYear(today);
    } else {
      DayNumberOrder(today, s);
    }
    FormatDateLessEq(s, today);
  }

  /** The year's window opens no later than the month's. */
  lemma YearStartsFirst(today: Date)
    requires Valid(today) && 1001 <= today.year <= 9999
    ensures LexLessEq(FormatDate(PeriodStart(Year, today)), FormatDate(PeriodStart(Month, today)))
  {
    DayNumberOrder(PeriodStart(Month, today), PeriodStart(Year, today));
    FormatDateLessEq(PeriodStart(Year, today), PeriodStart(Month, today));
  }

  /** The nesting on whole views: filtering the longer view by the shorter
      period's test gives the shorter view. */
  lemma ViewsNest(expenses: seq<Expense>, today: Date)
    requires Valid(today) && 1001 <= today.year <= 9999
    ensures GetData(expenses, Today, today).items == Filter(GetData(expenses, Week, today).items, PeriodTest(Today, today))
    ensures GetData(expenses, Today, today).items == Filter(GetData(expenses, Month, today).items, PeriodTest(Today, today))
    ensures GetData(expenses, Month, today).items == Filter(GetData(expenses, Year, today).items, PeriodTest(Month, today))
  {
    forall e | true
      ensures InPeriod(e, Today, today) ==> InPeriod(e, Week, today)
      ensures InPeriod(e, Today, today) ==> InPeriod(e, Month, today)
      ensures InPeriod(e, Month, today) ==> InPeriod(e, Year, today)
    {
      PeriodsNest(e, today);
    }
    FilterNested(expenses, PeriodTest(Today, today), PeriodTest(Week, today));
    FilterNested(expenses, PeriodTest(Today, today), PeriodTest(Month, today));
    FilterNested(expenses, PeriodTest(Month, today), PeriodTest(Year, today));
  }

  /** Adding an expense dated today puts it first in every view and raises
      every view's total by exactly its amount. */
  lemma AddTodayRaisesEveryView(expenses: seq<Expense>, form: ExpenseForm, newId: int, period: Period, today: Date)
    requires Valid(today) && 1001 <= today.year <= 9999
    requires form.date == today && form.amountText != ""
    ensures var before := GetData(expenses, period, today);
      var after := GetData(SaveExpense(expenses, form, None, newId), period, today);
      && after.items == [NewRecord(form, newId)] + before.items
      && after.total == before.total + form.amount
  {
    var rec := NewRecord(form, newId);
    StartNotAfterToday(period, today);
    LexLessIrreflexive(FormatDate(today));
    assert InPeriod(rec, period, today);
    FilterConcat([rec], expenses, PeriodTest(period, today));
    var items := Filter(expenses, PeriodTest(period, today));
    assert Filter([rec], PeriodTest(period, today)) == [rec];
    assert ([rec] + items)[1..] == items;
  }

  // ---------------------------------------------------------------------
  // Days until a due date
  // ---------------------------------------------------------------------

  /** The phrase for a distance of `diff` whole days. */
  function DistancePhrase(diff: int): string
  {
    if diff == 0 then "due today"
    else if diff == 1 then "tomorrow"
    else if diff < 0 then NatToString(-diff) + "d overdue"
    else "in " + NatToString(diff) + "d"
  }

  /** `getDaysUntil`: whole days from today to the due date, as a phrase. A
      string that does not read as a date makes the difference NaN, which
      fails every comparison and prints as "NaN". */
  function DaysUntilText(dueStr: string, today: Date): (r: string)
    requires Valid(today)
    ensures ParseDate(dueStr).None? ==> r == "in NaNd"
  {
    match ParseDate(dueStr)
    case None => "in NaNd"
    case Some(due) => DistancePhrase(DayNumber(due) - DayNumber(today))
  }

  /** The phrase for a due date `n` days from today. */
  lemma DaysUntilSpec(today: Date, n: int)
    requires Valid(today) && FourDigitYear(AddDays(today, n))
    ensures var r := DaysUntilText(FormatDate(AddDays(today, n)), today);
      && (n == 0 ==> r == "due today")
      && (n == 1 ==> r == "tomorrow")
      && (n < 0 ==> r == NatToString(-n) + "d overdue")
      && (n > 1 ==> r == "in " + NatToString(n) + "d")
  {
    ParseFormatDate(AddDays(today, n));
  }

  /** The last character tells the four kinds of phrase apart. */
  lemma DistancePhraseLast(n: int)
    ensures var p := DistancePhrase(n);
      |p| > 0 && p[|p| - 1] == (if n == 0 then 'y' else if n == 1 then 'w' else if n < 0 then 'e' else 'd')
  {
  }

  /** Different distances give different phrases. */
  lemma DistancePhraseInjective(m: int, n: int)
    requires m != n
    ensures DistancePhrase(m) != DistancePhrase(n)
  {
    var a, b := DistancePhrase(m), DistancePhrase(n);
    DistancePhraseLast(m);
    DistancePhraseLast(n);
    if m < 0 && n < 0 {
      NatToStringInjective(-m, -n);
      assert a[..|a| - 9] == NatToString(-m) && b[..|b| - 9] == NatToString(-n);
    } else if m > 1 && n > 1 {
      NatToStringInjective(m, n);
      assert a[3..|a| - 1] == NatToString(m) && b[3..|b| - 1] == NatToString(n);
    }
  }

  /** Due dates at different distances from today get different phrases. */
  lemma DaysUntilDistinguishes(today: Date, m: int, n: int)
    requires Valid(today) && FourDigitYear(AddDays(today, m)) && FourDigitYear(AddDays(today, n))
    requires m != n
    ensures DaysUntilText(FormatDate(AddDays(today, m)), today) != DaysUntilText(FormatDate(AddDays(today, n)), today)
  {
    DaysUntilDistance(today, m);
    DaysUntilDistance(today, n);
    DistancePhraseInjective(m, n);
  }

  /** A due date `n` days away reads as the phrase for `n`. */
  lemma DaysUntilDistance(today: Date, n: int)
    requires Valid(today) && FourDigitYear(AddDays(today, n))
    ensures DaysUntilText(FormatDate(AddDays(today, n)), today) == DistancePhrase(n)
  {
    var due := AddDays(today, n);
    ParseFormatDate(due);
    DaysUntilParsed(FormatDate(due), today, due);
  }

  lemma DaysUntilParsed(dueStr: string, today: Date, due: Date)
    requires Valid(today) && ParseDate(dueStr) == Some(due)
    ensures DaysUntilText(dueStr, today) == DistancePhrase(DayNumber(due) - DayNumber(today))
  {
  }
}

=== FILE: lock.dfy ===
/**
  The app lock: the lock method and the PIN live in the device's secure
  store under `moola_lock_method` and `moola_pin`; the app keeps the
  method and a locked flag in memory. Every operation here takes the
  store and the in-memory state and gives back both.

  A store call can throw. Which one does is a parameter: `Fault` names the
  call, counting from 0 within one operation, whose promise rejects; the
  calls before it have taken effect, the ones after it never run. The
  biometric prompt's answer is a parameter too.
*/
module Lock {
  import opened Wrappers

  const PinKey: string := "moola_pin"
  const MethodKey: string := "moola_lock_method"

  /** The secure store: keys to stored strings; an absent key reads as null. */
  type Store = map<string, string>

  datatype Method = NoLock | PinOnly | Biometric | Both

  /** The string a method is stored and compared as. */
  function MethodName(m: Method): string
  {
    match m
    case NoLock => "none"
    case PinOnly => "pin"
    case Biometric => "biometric"
    case Both => "both"
  }

  lemma MethodNameInjective(a: Method, b: Method)
    ensures MethodName(a) == MethodName(b) <==> a == b
  {
  }

  /** What the app holds: the store, the method in memory and the lock flag. */
  datatype Session = Session(store: Store, lockMethod: Method, locked: bool)

  /** The store call of an operation that throws, if any. */
  type Fault = Option<nat>

  predicate Throws(fault: Fault, k: nat)
  {
    fault == Some(k)
  }

  /** A PIN the lock can be opened with: stored, and at least 4 characters. */
  predicate ValidPin(store: Store)
  {
    PinKey in store && |store[PinKey]| >= 4
  }

  /** The store keeps what it had, less some keys. */
  predicate OnlyDeletes(before: Store, after: Store)
  {
    after.Keys <= before.Keys && forall k :: k in after ==> after[k] == before[k]
  }

  // ---------------------------------------------------------------------
  // Start-up
  // ---------------------------------------------------------------------

  /** `loadSecuritySettings`: reads the method (call 0) and the PIN (call
      1). No method or "none" leaves the app open. "pin" locks the app when
      the PIN is valid; otherwise the method key (call 2) and the PIN key
      (call 3) are deleted. Any other stored method, "biometric" and
      "both" included, is deleted (call 2). Every path, the failing ones
      too, ends with the method "none" and the app open unless it locked. */
  function LoadSecuritySettings(store: Store, fault: Fault): (r: Session)
    ensures r.locked ==> r.lockMethod == PinOnly && ValidPin(r.store)
    ensures !r.locked ==> r.lockMethod == NoLock
    ensures OnlyDeletes(store, r.store)
  {
    if Throws(fault, 0) || Throws(fault, 1) then Session(store, NoLock, false)
    else if MethodKey !in store || store[MethodKey] == "" || store[MethodKey] == "none" then
      Session(store, NoLock, false)
    else if store[MethodKey] == "pin" then
      if ValidPin(store) then Session(store, PinOnly, true)
      else if Throws(fault, 2) then Session(store, NoLock, false)
      else if Throws(fault, 3) then Session(store - {MethodKey}, NoLock, false)
      else Session(store - {MethodKey} - {PinKey}, NoLock, false)
    else if Throws(fault, 2) then Session(store, NoLock, false)
    else Session(store - {MethodKey}, NoLock, false)
  }

  /** The app starts locked exactly when both reads succeed, the stored
      method is "pin" and the stored PIN is valid. */
  lemma LoadLocksIff(store: Store, fault: Fault)
    ensures LoadSecuritySettings(store, fault).locked <==>
      !Throws(fault, 0) && !Throws(fault, 1) && MethodKey in store && store[MethodKey] == "pin" && ValidPin(store)
  {
  }

  /** The clean-ups at start-up: a "pin" method without a valid PIN loses
      both keys; any other unknown method loses only the method key. */
  lemma LoadHeals(store: Store)
    requires MethodKey in store && store[MethodKey] !in {"", "none"}
    ensures var r := LoadSecuritySettings(store, None);
      && (store[MethodKey] == "pin" && !ValidPin(store) ==> r.store == store - {MethodKey, PinKey})
      && (store[MethodKey] != "pin" ==> r.store == store - {MethodKey})
  {
    if store[MethodKey] == "pin" && !ValidPin(store) {
      assert store - {MethodKey} - {PinKey} == store - {MethodKey, PinKey};
    }
  }

  /** After a load without faults, loading again finds the same state: the
      clean-up leaves nothing to clean. */
  lemma LoadStable(store: Store)
    ensures var r := LoadSecuritySettings(store, None);
      LoadSecuritySettings(r.store, None) == r
  {
  }

  // ---------------------------------------------------------------------
  // Single store writes and reads
  // ---------------------------------------------------------------------

  /** `saveLockMethod`: writes the method, then adopts it; a failed write
      changes nothing. */
  function SaveLockMethod(s: Session, m: Method, throws: bool): (r: Session)
    ensures throws ==> r == s
    ensures !throws ==> r.store == s.store[MethodKey := MethodName(m)] && r.lockMethod == m
    ensures r.locked == s.locked
  {
    if throws then s else s.(store := s.store[MethodKey := MethodName(m)], lockMethod := m)
  }

  /** `savePin`: writes the PIN and reports whether the write went through. */
  function SavePin(store: Store, pin: string, throws: bool): (r: (Store, bool))
    ensures r.1 <==> !throws
    ensures r.1 ==> r.0 == store[PinKey := pin]
    ensures !r.1 ==> r.0 == store
  {
    if throws then (store, false) else (store[PinKey := pin], true)
  }

  /** `verifyPin`: the stored PIN strictly equals the input; a missing PIN
      or a failed read gives false. */
  function VerifyPin(store: Store, input: string, throws: bool): bool
  {
    !throws && PinKey in store && store[PinKey] == input
  }

  /** A saved PIN verifies with itself and with nothing else. */
  lemma VerifySavedPin(store: Store, pin: string, input: string)
    ensures var (st, ok) := SavePin(store, pin, false);
      ok && (VerifyPin(st, input, false) <==> input == pin)
  {
  }

  /** Without a stored PIN no input verifies, and neither does anything
      when the read fails. */
  lemma NothingVerifiesWithoutPin(store: Store, input: string)
    ensures PinKey !in store ==> !VerifyPin(store, input, false)
    ensures !VerifyPin(store, input, true)
  {
  }

  // ---------------------------------------------------------------------
  // Turning the lock off and on
  // ---------------------------------------------------------------------

  /** `disableAppLock`: deletes the PIN (call 0), then the method (call 1),
      then opens the app with the method "none". It is not atomic: when the
      second delete fails the PIN is gone and nothing else has changed. */
  function DisableAppLock(s: Session, fault: Fault): (r: Session)
    ensures !Throws(fault, 0) && !Throws(fault, 1) ==>
      r.lockMethod == NoLock && !r.locked && PinKey !in r.store && MethodKey !in r.store
    ensures Throws(fault, 0) ==> r == s
    ensures Throws(fault, 1) ==> r.lockMethod == s.lockMethod && r.locked == s.locked && PinKey !in r.store
    ensures OnlyDeletes(s.store, r.store)
  {
    if Throws(fault, 0) then s
    else if Throws(fault, 1) then s.(store := s.store - {PinKey})
    else Session(s.store - {PinKey} - {MethodKey}, NoLock, false)
  }

  /** Disabling and restarting leaves the app open with no lock. */
  lemma DisableThenLoad(s: Session, fault: Fault)
    requires !Throws(fault, 0) && !Throws(fault, 1)
    ensures var r := LoadSecuritySettings(DisableAppLock(s, fault).store, None);
      r.lockMethod == NoLock && !r.locked
  {
  }

  /** The answer of `enableLockMethod`, or the rejection of its promise when
      the PIN read throws outside any `try`. */
  datatype Reply = Reply(needsPinSetup: bool) | Threw

  /** A stored PIN JavaScript counts as present: not null and not empty. */
  predicate HasPin(store: Store)
  {
    PinKey in store && store[PinKey] != ""
  }

  /** `enableLockMethod`: "none" disables; otherwise the PIN is read (call
      0). "pin" and "both" need a PIN: without one the caller is asked to set
      one up and nothing is written; with one the method is saved (call 1).
      "biometric" is saved only when the device offers biometrics. */
  function EnableLockMethod(s: Session, m: Method, biometricAvailable: bool, fault: Fault): (r: (Session, Reply))
    ensures m == NoLock ==> r == (DisableAppLock(s, fault), Reply(false))
    ensures m != NoLock && Throws(fault, 0) ==> r == (s, Threw)
    ensures r.1 == Reply(true) <==> m in {PinOnly, Both} && !Throws(fault, 0) && !HasPin(s.store)
    ensures m != NoLock ==> r.0.locked == s.locked && r.0.store.Keys <= s.store.Keys + {MethodKey}
    ensures m != NoLock && r.0.lockMethod != s.lockMethod ==>
      r.0.lockMethod == m && (m == Biometric ==> biometricAvailable) && (m != Biometric ==> HasPin(s.store))
    ensures r.1 == Reply(true) ==> r.0 == s
    ensures m != NoLock ==> forall k :: k != MethodKey ==>
      (k in r.0.store <==> k in s.store) && (k in s.store ==> r.0.store[k] == s.store[k])
    ensures m != NoLock && fault == None && ((m in {PinOnly, Both} && HasPin(s.store)) || (m == Biometric && biometricAvailable)) ==>
      r.0.store == s.store[MethodKey := MethodName(m)] && r.0.lockMethod == m && r.1 == Reply(false)
  {
    if m == NoLock then (DisableAppLock(s, fault), Reply(false))
    else if Throws(fault, 0) then (s, Threw)
    else if m == PinOnly || m == Both then
      if !HasPin(s.store) then (s, Reply(true))
      else (SaveLockMethod(s, m, Throws(fault, 1)), Reply(false))
    else if biometricAvailable then (SaveLockMethod(s, m, Throws(fault, 1)), Reply(false))
    else (s, Reply(false))
  }

  /** The older `enableLockMethod` of the single-file app: for "pin" and
      "both" it opens the PIN setup when there is no PIN, and saves the
      method either way. The reply says whether the setup was opened. */
  function LegacyEnableLockMethod(s: Session, m: Method, biometricAvailable: bool, fault: Fault): (r: (Session, Reply))
    ensures m in {PinOnly, Both} && !Throws(fault, 0) && !Throws(fault, 1) ==>
      r.0.lockMethod == m && MethodKey in r.0.store && r.0.store[MethodKey] == MethodName(m)
    ensures r.1 == Reply(true) <==> m in {PinOnly, Both} && !Throws(fault, 0) && !HasPin(s.store)
  {
    if m == NoLock then (DisableAppLock(s, fault), Reply(false))
    else if Throws(fault, 0) then (s, Threw)
    else if m == PinOnly || m == Both then
      (SaveLockMethod(s, m, Throws(fault, 1)), Reply(!HasPin(s.store)))
    else if biometricAvailable then (SaveLockMethod(s, m, Throws(fault, 1)), Reply(false))
    else (s, Reply(false))
  }

  /** The two versions differ only where there is no PIN: the older one
      stores a PIN method with no PIN behind it, which the next start-up
      clears again, leaving the app open. */
  lemma LegacyEnableWithoutPin(s: Session, m: Method)
    requires m in {PinOnly, Both} && PinKey !in s.store
    ensures EnableLockMethod(s, m, false, None) == (s, Reply(true))
    ensures var r := LegacyEnableLockMethod(s, m, false, None).0;
      r.lockMethod == m && !ValidPin(r.store) && MethodKey in r.store
    ensures var r := LegacyEnableLockMethod(s, m, false, None).0;
      var l := LoadSecuritySettings(r.store, None);
      l.lockMethod == NoLock && !l.locked && MethodKey !in l.store
  {
  }

  /** With a PIN stored both versions do the same thing. */
  lemma LegacyEnableAgreesWithPin(s: Session, m: Method, biometricAvailable: bool, fault: Fault)
    requires HasPin(s.store)
    ensures LegacyEnableLockMethod(s, m, biometricAvailable, fault) == EnableLockMethod(s, m, biometricAvailable, fault)
  {
  }

  // ---------------------------------------------------------------------
  // Background and foreground
  // ---------------------------------------------------------------------

  /** `handleUnlock`: only a biometric method tries the prompt, and only a
      successful prompt opens the app. */
  function HandleUnlock(s: Session, biometricOk: bool): (r: Session)
    ensures r.store == s.store && r.lockMethod == s.lockMethod
    ensures r.locked != s.locked <==> s.locked && s.lockMethod in {Biometric, Both} && biometricOk
  {
    if (s.lockMethod == Biometric || s.lockMethod == Both) && biometricOk then s.(locked := false) else s
  }

  datatype AppStatus = Active | Inactive | Background

  /** `status.match(/active/)`: true for "inactive" as well. */
  predicate LooksActive(a: AppStatus)
  {
    a == Active || a == Inactive
  }

  /** `status.match(/inactive|background/)`. */
  predicate LooksAway(a: AppStatus)
  {
    a == Inactive || a == Background
  }

  /** The state after a status change, and whether the biometric prompt was shown. */
  datatype StatusChange = StatusChange(session: Session, prompted: bool)

  /** The app-state listener: leaving the foreground locks any lock method;
      coming back runs `handleUnlock` for any lock method. */
  function OnAppStateChange(s: Session, current: AppStatus, next: AppStatus, biometricOk: bool): (r: StatusChange)
    ensures r.session.store == s.store && r.session.lockMethod == s.lockMethod
    ensures LooksActive(current) && LooksAway(next) ==> r.session.locked == (s.locked || s.lockMethod != NoLock)
    ensures r.prompted <==> LooksAway(current) && next == Active && s.lockMethod in {Biometric, Both}
  {
    if LooksActive(current) && LooksAway(next) then
      StatusChange(if s.lockMethod != NoLock then s.(locked := true) else s, false)
    else if LooksAway(current) && next == Active && s.lockMethod != NoLock then
      StatusChange(HandleUnlock(s, biometricOk), s.lockMethod in {Biometric, Both})
    else StatusChange(s, false)
  }

  /** The single-file app's listener: it tries to unlock only when locked. */
  function LegacyOnAppStateChange(s: Session, current: AppStatus, next: AppStatus, biometricOk: bool): (r: StatusChange)
    ensures r.session.store == s.store && r.session.lockMethod == s.lockMethod
    ensures LooksActive(current) && LooksAway(next) ==> r.session.locked == (s.locked || s.lockMethod != NoLock)
    ensures r.prompted <==> LooksAway(current) && next == Active && s.lockMethod in {Biometric, Both} && s.locked
  {
    if LooksActive(current) && LooksAway(next) then
      StatusChange(if s.lockMethod != NoLock then s.(locked := true) else s, false)
    else if LooksAway(current) && next == Active && s.lockMethod != NoLock && s.locked then
      StatusChange(HandleUnlock(s, biometricOk), s.lockMethod in {Biometric, Both})
    else StatusChange(s, false)
  }

  /** Leaving the foreground locks the app exactly when a lock method is
      set (or it was locked already); coming back opens it only through a
      successful biometric prompt under "biometric" or "both", so "pin"
      never opens by itself. */
  lemma AppStateLocking(s: Session, current: AppStatus, next: AppStatus, biometricOk: bool)
    ensures var r := OnAppStateChange(s, current, next, biometricOk).session;
      && (current != Background && next != Active ==> r.locked == (s.locked || s.lockMethod != NoLock))
      && (s.locked && !r.locked ==> s.lockMethod in {Biometric, Both} && biometricOk && current != Active && next == Active)
      && (s.lockMethod == PinOnly && s.locked ==> r.locked)
  {
  }

  /** Both listeners leave the same lock state; the single-file one shows
      the prompt only to a locked app, while the other also shows it to an
      open app returning with a biometric method. */
  lemma LegacyListenerAgrees(s: Session, current: AppStatus, next: AppStatus, biometricOk: bool)
    ensures LegacyOnAppStateChange(s, current, next, biometricOk).session ==
            OnAppStateChange(s, current, next, biometricOk).session
    ensures LegacyOnAppStateChange(s, current, next, biometricOk).prompted ==>
            OnAppStateChange(s, current, next, biometricOk).prompted
    ensures !s.locked && s.lockMethod in {Biometric, Both} && current == Background && next == Active ==>
            OnAppStateChange(s, current, next, biometricOk).prompted &&
            !LegacyOnAppStateChange(s, current, next, biometricOk).prompted
  {
  }

  // ---------------------------------------------------------------------
  // Never locked out
  // ---------------------------------------------------------------------

  /** The state the lock design keeps: a PIN method has a valid PIN behind
      it, and only a PIN method keeps the app locked. */
  predicate Coherent(s: Session)
  {
    && (s.lockMethod in {PinOnly, Both} ==> ValidPin(s.store))
    && (s.locked ==> s.lockMethod in {PinOnly, Both})
  }

  /** A coherent app is never locked without a valid PIN. */
  lemma CoherentIsSafe(s: Session)
    requires Coherent(s)
    ensures s.locked ==> ValidPin(s.store)
  {
  }

  /** Every start-up, whatever fails, leaves the app coherent. */
  lemma LoadIsCoherent(store: Store, fault: Fault)
    ensures Coherent(LoadSecuritySettings(store, fault))
  {
  }

  /** Every stored PIN was written through the setup, so it is valid. */
  predicate PinsWellFormed(store: Store)
  {
    PinKey in store ==> |store[PinKey]| >= 4
  }

  /** Enabling a lock from the (open) settings keeps the app coherent. */
  lemma EnableKeepsCoherent(s: Session, m: Method, biometricAvailable: bool, fault: Fault)
    requires Coherent(s) && !s.locked && PinsWellFormed(s.store)
    requires !(m == NoLock && Throws(fault, 1))
    ensures Coherent(EnableLockMethod(s, m, biometricAvailable, fault).0)
  {
  }

  /** A disable whose second delete fails leaves a PIN method with no PIN. */
  lemma DisableHalfway(s: Session)
    requires s.lockMethod == PinOnly && !s.locked
    ensures var r := DisableAppLock(s, Some(1));
      r.lockMethod == PinOnly && !ValidPin(r.store) && !Coherent(r)
    ensures var r := DisableAppLock(s, Some(1));
      var back := OnAppStateChange(r, Active, Background, false).session;
      back.locked && !ValidPin(back.store)
  {
  }

  /** The status changes keep the app coherent, except that a biometric
      method locks the app with no PIN at all. */
  lemma AppStateKeepsCoherent(s: Session, current: AppStatus, next: AppStatus, biometricOk: bool)
    requires Coherent(s) && s.lockMethod != Biometric
    ensures Coherent(OnAppStateChange(s, current, next, biometricOk).session)
  {
  }

  lemma BiometricLocksWithoutPin(store: Store)
    requires PinKey !in store
    ensures var s := Session(store, Biometric, false);
      var r := OnAppStateChange(s, Active, Background, false).session;
      Coherent(s) && r.locked && !ValidPin(r.store)
  {
  }
}

=== FILE: lockscreen.dfy ===
/**
  The lock screen: its mount-time self-check, the keypad, the unlock
  button and the emergency reset. The screen keeps the typed input and an
  error line; the session is the app-lock state of `Lock`.
*/
module LockScreen {
  import opened Wrappers
  import opened Lock

  datatype Screen = Screen(input: string, error: string)

  /** A keypad press: one of the digit keys, or `delete`. */
  datatype Key = Digit(c: char) | Delete

  const MaxPinLength: nat := 6

  /** `verifyPinExists`, run once on mount: reads the PIN (call 0); under
      the "pin" method a missing or short PIN makes it delete the method
      (call 1) and the PIN (call 2), set "none" and open the app. A failure
      anywhere opens the app and leaves the method as it was. */
  function MountCheck(s: Session, fault: Fault): (r: Session)
    ensures r.locked ==> s.locked && r == s
    ensures s.lockMethod == PinOnly && !ValidPin(s.store) ==> !r.locked
    ensures r.lockMethod == s.lockMethod || r.lockMethod == NoLock
    ensures OnlyDeletes(s.store, r.store)
  {
    if Throws(fault, 0) then s.(locked := false)
    else if s.lockMethod == PinOnly && !ValidPin(s.store) then
      if Throws(fault, 1) then s.(locked := false)
      else if Throws(fault, 2) then s.(store := s.store - {MethodKey}, locked := false)
      else Session(s.store - {MethodKey} - {PinKey}, NoLock, false)
    else s
  }

  /** The check repairs what a half-finished disable leaves behind: the app
      locked under "pin" with its PIN gone opens again, with no lock. */
  lemma MountRepairsHalfwayDisable(s: Session)
    requires s.lockMethod == PinOnly && !s.locked
    ensures var locked := OnAppStateChange(DisableAppLock(s, Some(1)), Active, Background, false).session;
      var r := MountCheck(locked, None);
      locked.locked && !r.locked && r.lockMethod == NoLock && PinKey !in r.store && MethodKey !in r.store
  {
  }

  /** The check looks only at the "pin" method: under "both" a missing PIN
      keeps the app locked, and only the biometric prompt or the emergency
      reset open it. */
  lemma MountIgnoresBoth(s: Session)
    requires s.lockMethod == Both && s.locked && PinKey !in s.store
    ensures MountCheck(s, None) == s && !ValidPin(s.store)
  {
  }

  /** `handleKeyPress`: `delete` drops the last character; a digit is
      appended while fewer than six are typed. Both clear the error; a
      digit on a full input does nothing at all. */
  function KeyPress(sc: Screen, k: Key): (r: Screen)
    ensures |sc.input| <= MaxPinLength ==> |r.input| <= MaxPinLength
    ensures r.error == "" || r == sc
    ensures r == sc <==> (k.Digit? && |sc.input| >= MaxPinLength) || (k == Delete && sc == Screen([], ""))
  {
    match k
    case Delete => Screen(if |sc.input| > 0 then sc.input[..|sc.input| - 1] else sc.input, "")
    case Digit(c) => if |sc.input| < MaxPinLength then Screen(sc.input + [c], "") else sc
  }

  /** Deleting takes back the digit just typed. */
  lemma DeleteUndoesDigit(sc: Screen, c: char)
    requires |sc.input| < MaxPinLength
    ensures KeyPress(KeyPress(sc, Digit(c)), Delete) == sc.(error := "")
  {
    var typed := sc.input + [c];
    assert typed[..|typed| - 1] == sc.input;
  }

  /** The input after a run of presses. */
  function TypeKeys(sc: Screen, ks: seq<Key>): Screen
    decreases |ks|
  {
    if ks == [] then sc else TypeKeys(KeyPress(sc, ks[0]), ks[1..])
  }

  /** The presses that type the characters of `cs`. */
  function DigitKeys(cs: string): (ks: seq<Key>)
    ensures |ks| == |cs| && forall i :: 0 <= i < |ks| ==> ks[i] == Digit(cs[i])
  {
    if cs == [] then [] else [Digit(cs[0])] + DigitKeys(cs[1..])
  }

  /** One digit typed into a field with room, then the rest. */
  lemma TypeFirst(sc: Screen, cs: string)
    requires cs != [] && |sc.input| < MaxPinLength
    ensures TypeKeys(sc, DigitKeys(cs)) == TypeKeys(Screen(sc.input + [cs[0]], ""), DigitKeys(cs[1..]))
  {
    var ks := DigitKeys(cs);
    assert ks[0] == Digit(cs[0]) && ks[1..] == DigitKeys(cs[1..]);
  }

  /** Typing digits keeps only as many as fit in six places. */
  lemma {:induction false} TypingKeepsFirstSix(sc: Screen, cs: string)
    requires |sc.input| <= MaxPinLength
    ensures TypeKeys(sc, DigitKeys(cs)).input == sc.input + cs[..Fit(|sc.input|, |cs|)]
    decreases |cs|
  {
    if cs == [] {
    } else if |sc.input| == MaxPinLength {
      TypeFull(sc, DigitKeys(cs));
    } else {
      TypingKeepsFirstSix(Screen(sc.input + [cs[0]], ""), cs[1..]);
      TypingStep(sc, cs);
    }
  }

  /** The step of the induction: one digit goes in, then the rest. */
  lemma TypingStep(sc: Screen, cs: string)
    requires cs != [] && |sc.input| < MaxPinLength
    requires var next := Screen(sc.input + [cs[0]], "");
      TypeKeys(next, DigitKeys(cs[1..])).input == next.input + cs[1..][..Fit(|next.input|, |cs| - 1)]
    ensures TypeKeys(sc, DigitKeys(cs)).input == sc.input + cs[..Fit(|sc.input|, |cs|)]
  {
    TypeFirst(sc, cs);
    var n := Fit(|sc.input| + 1, |cs| - 1);
    assert Fit(|sc.input|, |cs|) == n + 1;
    SliceStep(sc.input, cs, n);
  }

  lemma SliceStep(a: string, cs: string, n: nat)
    requires n < |cs|
    ensures a + [cs[0]] + cs[1..][..n] == a + cs[..n + 1]
  {
    assert cs[..n + 1] == [cs[0]] + cs[1..][..n];
  }

  /** How many of `k` digits fit after `typed` characters. */
  function Fit(typed: nat, k: nat): (n: nat)
    requires typed <= MaxPinLength
    ensures n <= k && typed + n <= MaxPinLength
    ensures n == k || typed + n == MaxPinLength
  {
    if typed + k <= MaxPinLength then k else MaxPinLength - typed
  }

  /** A full field takes no more digits. */
  lemma {:induction false} TypeFull(sc: Screen, ks: seq<Key>)
    requires |sc.input| == MaxPinLength && forall i :: 0 <= i < |ks| ==> ks[i].Digit?
    ensures TypeKeys(sc, ks) == sc
    decreases |ks|
  {
    if ks != [] {
      TypeFull(sc, ks[1..]);
    }
  }

  /** The unlock button is disabled while fewer than four characters are typed. */
  predicate UnlockEnabled(sc: Screen)
  {
    |sc.input| >= 4
  }

  /** `handleLockScreenPinSubmit`: the typed PIN is checked against the
      stored one (call 0); a match opens the app, a mismatch or a failed
      read says "Incorrect PIN". The input is cleared either way. */
  function Submit(s: Session, sc: Screen, fault: Fault): (r: (Session, Screen))
    ensures r.0.store == s.store && r.0.lockMethod == s.lockMethod
    ensures r.1.input == []
    ensures r.0.locked == (s.locked && !VerifyPin(s.store, sc.input, Throws(fault, 0)))
    ensures r.1.error == (if VerifyPin(s.store, sc.input, Throws(fault, 0)) then "" else "Incorrect PIN")
  {
    if VerifyPin(s.store, sc.input, Throws(fault, 0)) then (s.(locked := false), Screen([], ""))
    else (s, Screen([], "Incorrect PIN"))
  }

  /** A locked, coherent app opens from the keypad only with the stored
      PIN, which the enabled button allows. */
  lemma SubmitOpensOnlyWithPin(s: Session, sc: Screen, fault: Fault)
    requires Coherent(s) && s.locked
    ensures !Submit(s, sc, fault).0.locked <==> !Throws(fault, 0) && sc.input == s.store[PinKey]
    ensures !Submit(s, sc, fault).0.locked ==> UnlockEnabled(sc)
  {
  }

  /** `handleEmergencyReset`: deletes the PIN (call 0) and the method (call
      1), sets "none", opens the app and clears the input, without asking
      for any PIN; a failure stops it where it is. */
  function EmergencyReset(s: Session, sc: Screen, fault: Fault): (r: (Session, Screen))
    ensures Throws(fault, 0) ==> r == (s, sc)
    ensures Throws(fault, 1) ==> r.0 == s.(store := s.store - {PinKey}) && r.1 == sc
    ensures OnlyDeletes(s.store, r.0.store)
  {
    if Throws(fault, 0) then (s, sc)
    else if Throws(fault, 1) then (s.(store := s.store - {PinKey}), sc)
    else (Session(s.store - {PinKey} - {MethodKey}, NoLock, false), sc.(input := []))
  }

  /** A reset that goes through opens the app for good: the next start-up
      finds no lock either. */
  lemma EmergencyResetOpens(s: Session, sc: Screen)
    ensures var (r, rsc) := EmergencyReset(s, sc, None);
      && !r.locked && r.lockMethod == NoLock && PinKey !in r.store && MethodKey !in r.store
      && rsc.input == [] && rsc.error == sc.error
      && var l := LoadSecuritySettings(r.store, None); !l.locked && l.lockMethod == NoLock
  {
  }
}

=== FILE: money.dfy ===
/**
  Amount formatting of `src/utils/format.js`: `toFixed(2)`, `Math.round`,
  the thousands grouping done by the regular expression
  `/\B(?=(\d{3})+(?!\d))/g`, the US and EU separators, and the currency
  symbol; and `formatLargeAmount`, which returns the same pieces apart.

  Amounts are integer cents, so `toFixed(2)` and `Math.round` are exact
  here.
*/
module Money {
  import opened Wrappers
  import opened Text

  datatype Currency = Currency(code: string, symbol: string)

  /** The options object of `formatAmount`; `showSymbol` defaults to true
      at the call sites that omit it. */
  datatype AmountOptions = AmountOptions(currency: Currency, useEUFormat: bool, hideDecimals: bool, showSymbol: bool)

  function Abs(c: int): nat
  {
    if c < 0 then -c else c
  }

  // ---------------------------------------------------------------------
  // toFixed(2) and Math.round
  // ---------------------------------------------------------------------

  /** The part of `toFixed(2)` before the point: the sign, then the whole units. */
  function WholePart(c: int): (s: string)
    ensures |s| >= 1
    ensures c >= 0 ==> AllDigits(s)
    ensures c < 0 ==> |s| >= 2 && s[0] == '-' && AllDigits(s[1..])
  {
    var digits := NatToString(Abs(c) / 100);
    assert ("-" + digits)[1..] == digits;
    (if c < 0 then "-" else "") + digits
  }

  /** The two digits of `toFixed(2)` after the point. */
  function FractionPart(c: int): (s: string)
    ensures |s| == 2 && AllDigits(s)
  {
    Pad2Fixed(Abs(c) % 100);
    Pad2(Abs(c) % 100)
  }

  /** `amount.toFixed(2)` for an amount of `c` cents. */
  function ToFixed2(c: int): (s: string)
    ensures |s| >= 4 && s[|s| - 3] == '.'
  {
    WholePart(c) + "." + FractionPart(c)
  }

  /** Reads an optionally signed decimal numeral. */
  function ParseInt(s: string): (r: Option<int>)
  {
    if |s| > 0 && s[0] == '-' then
      if |s| > 1 && AllDigits(s[1..]) then Some(-(DigitsValue(s[1..]) as int)) else None
    else if |s| > 0 && AllDigits(s) then Some(DigitsValue(s))
    else None
  }

  /** Reads a `toFixed(2)` string back as cents. */
  function ParseFixed2(s: string): (r: Option<int>)
  {
    if |s| >= 4 && s[|s| - 3] == '.' && AllDigits(s[|s| - 2..]) then
      var frac := DigitsValue(s[|s| - 2..]);
      match ParseInt(s[..|s| - 3])
      case Some(n) =>
        if n < 0 || (n == 0 && s[0] == '-') then Some(n * 100 - frac) else Some(n * 100 + frac)
      case None => None
    else None
  }

  lemma IntToStringParses(n: int)
    ensures ParseInt(IntToString(n)) == Some(n)
  {
    NatToStringRoundTrip(Abs(n));
    if n < 0 {
      assert IntToString(n)[1..] == NatToString(-n);
    }
  }

  /** `toFixed(2)` loses nothing: the string reads back as the same cents. */
  lemma ToFixed2RoundTrip(c: int)
    ensures ParseFixed2(ToFixed2(c)) == Some(c)
  {
    Pad2Value(Abs(c) % 100);
    WholePartParses(c);
    ParseFixed2Parts(WholePart(c), FractionPart(c), if c < 0 then -(Abs(c) / 100) else Abs(c) / 100);
    SplitCents(c);
  }

  /** Whole units and leftover cents put back together. */
  lemma SplitCents(c: int)
    ensures c < 0 ==> -(Abs(c) / 100) * 100 - Abs(c) % 100 == c
    ensures c >= 0 ==> (Abs(c) / 100) * 100 + Abs(c) % 100 == c
  {
  }

  /** Reading a whole part, a point and two digits. */
  lemma ParseFixed2Parts(w: string, f: string, n: int)
    requires |w| >= 1 && |f| == 2 && AllDigits(f) && ParseInt(w) == Some(n)
    ensures ParseFixed2(w + "." + f) ==
      if n < 0 || (n == 0 && w[0] == '-') then Some(n * 100 - DigitsValue(f)) else Some(n * 100 + DigitsValue(f))
  {
    var s := w + "." + f;
    assert s[..|s| - 3] == w && s[|s| - 2..] == f && s[|s| - 3] == '.' && s[0] == w[0];
  }

  /** The whole part reads back as the signed whole units. */
  lemma WholePartParses(c: int)
    ensures ParseInt(WholePart(c)) == Some(if c < 0 then -(Abs(c) / 100) else Abs(c) / 100)
    ensures WholePart(c)[0] == '-' <==> c < 0
  {
    var digits := NatToString(Abs(c) / 100);
    NatToStringRoundTrip(Abs(c) / 100);
    ParseDigits(digits);
    if c >= 0 {
      assert WholePart(c) == digits;
    }
  }

  /** A digit string reads as its value, and with a minus sign in front as
      its negation. */
  lemma ParseDigits(digits: string)
    requires |digits| >= 1 && AllDigits(digits)
    ensures ParseInt(digits) == Some(DigitsValue(digits))
    ensures ParseInt("-" + digits) == Some(-(DigitsValue(digits) as int))
  {
    assert ("-" + digits)[1..] == digits;
  }

  /** `Math.round(c / 100)`: the nearest whole number, halves rounded up. */
  function RoundHalfUp(c: int): (n: int)
    ensures n * 100 - 50 <= c < n * 100 + 50
  {
    (c + 50) / 100
  }

  /** Rounding a whole amount gives it back. */
  lemma RoundWhole(n: int)
    ensures RoundHalfUp(n * 100) == n
  {
  }

  // ---------------------------------------------------------------------
  // Thousands grouping
  // ---------------------------------------------------------------------

  function ThousandsSep(useEUFormat: bool): char
  {
    if useEUFormat then '.' else ','
  }

  function DecimalSep(useEUFormat: bool): char
  {
    if useEUFormat then ',' else '.'
  }

  /** A separator before every full block of three digits counted from the
      right: the effect of the regular expression on a digit string. */
  function Group3(d: string, sep: char): string
    decreases |d|
  {
    if |d| <= 3 then d else Group3(d[..|d| - 3], sep) + [sep] + d[|d| - 3..]
  }

  /** The regular expression applied to a numeral: a leading '-' is not a
      word character, so no separator is put after it. */
  function GroupNumeral(s: string, sep: char): string
  {
    if |s| > 0 && s[0] == '-' then "-" + Group3(s[1..], sep) else Group3(s, sep)
  }

  /** One to three leading digits, then blocks of a separator and three digits. */
  predicate WellGrouped(g: string, sep: char)
    decreases |g|
  {
    if |g| <= 3 then 1 <= |g| && AllDigits(g)
    else AllDigits(g[|g| - 3..]) && g[|g| - 4] == sep && WellGrouped(g[..|g| - 4], sep)
  }

  /** The string with every `c` deleted. */
  function RemoveChar(s: string, c: char): (r: string)
    ensures |r| <= |s|
  {
    if s == [] then [] else RemoveChar(s[..|s| - 1], c) + (if s[|s| - 1] == c then [] else [s[|s| - 1]])
  }

  lemma {:induction false} RemoveCharConcat(a: string, b: string, c: char)
    ensures RemoveChar(a + b, c) == RemoveChar(a, c) + RemoveChar(b, c)
    decreases |b|
  {
    if b == [] {
      assert a + b == a;
    } else {
      assert (a + b)[..|a + b| - 1] == a + b[..|b| - 1];
      RemoveCharConcat(a, b[..|b| - 1], c);
    }
  }

  lemma {:induction false} RemoveCharAbsent(s: string, c: char)
    requires forall i :: 0 <= i < |s| ==> s[i] != c
    ensures RemoveChar(s, c) == s
  {
    if s != [] {
      RemoveCharAbsent(s[..|s| - 1], c);
    }
  }

  /** Grouping a digit string is well formed. */
  lemma {:induction false} Group3WellGrouped(d: string, sep: char)
    requires 1 <= |d| && AllDigits(d)
    ensures WellGrouped(Group3(d, sep), sep)
    decreases |d|
  {
    if |d| > 3 {
      var p, l := d[..|d| - 3], d[|d| - 3..];
      Group3WellGrouped(p, sep);
      var g := Group3(p, sep) + [sep] + l;
      assert g[|g| - 3..] == l && g[|g| - 4] == sep && g[..|g| - 4] == Group3(p, sep);
    }
  }

  /** Deleting the separators from a grouped digit string restores the digits. */
  lemma {:induction false} Group3Remove(d: string, sep: char)
    requires AllDigits(d) && !IsDigit(sep)
    ensures RemoveChar(Group3(d, sep), sep) == d
    decreases |d|
  {
    if |d| <= 3 {
      RemoveCharAbsent(d, sep);
    } else {
      var p, l := d[..|d| - 3], d[|d| - 3..];
      Group3Remove(p, sep);
      RemoveSeparatorBlock(Group3(p, sep), l, sep);
      assert p + l == d;
    }
  }

  /** Deleting the separators around a block of digits keeps the block. */
  lemma RemoveSeparatorBlock(g: string, l: string, sep: char)
    requires AllDigits(l) && !IsDigit(sep)
    ensures RemoveChar(g + [sep] + l, sep) == RemoveChar(g, sep) + l
  {
    RemoveCharLast(g, sep);
    RemoveCharConcat(g + [sep], l, sep);
    RemoveCharAbsent(l, sep);
  }

  lemma RemoveCharLast(g: string, c: char)
    ensures RemoveChar(g + [c], c) == RemoveChar(g, c)
  {
    assert (g + [c])[..|g|] == g;
  }

  /** A well-grouped string is the grouping of its digits: there is only
      one way to place the separators. */
  lemma {:induction false} GroupUnique(g: string, sep: char)
    requires WellGrouped(g, sep) && !IsDigit(sep)
    ensures g == Group3(RemoveChar(g, sep), sep)
    decreases |g|
  {
    if |g| <= 3 {
      RemoveCharAbsent(g, sep);
    } else {
      var p, l := g[..|g| - 4], g[|g| - 3..];
      GroupUnique(p, sep);
      assert g == p + [sep] + l;
      RemoveSeparatorBlock(p, l, sep);
      Group3Split(RemoveChar(p, sep), l, sep);
    }
  }

  /** Grouping puts a separator before the last block of three. */
  lemma Group3Split(q: string, l: string, sep: char)
    requires |q| >= 1 && |l| == 3
    ensures Group3(q + l, sep) == Group3(q, sep) + [sep] + l
  {
    var d := q + l;
    assert d[..|d| - 3] == q && d[|d| - 3..] == l;
  }

  // ---------------------------------------------------------------------
  // formatAmount and formatLargeAmount
  // ---------------------------------------------------------------------

  /** `formatted` in `formatAmount`: the grouped whole part, then, unless
      decimals are hidden, the decimal separator and two digits. */
  function AmountBody(c: int, useEUFormat: bool, hideDecimals: bool): string
  {
    var sep := ThousandsSep(useEUFormat);
    if hideDecimals then GroupNumeral(IntToString(RoundHalfUp(c)), sep)
    else GroupNumeral(WholePart(c), sep) + [DecimalSep(useEUFormat)] + FractionPart(c)
  }

  /** `formatAmount`. */
  function FormatAmount(c: int, o: AmountOptions): (s: string)
    ensures o.showSymbol ==> |s| >= |o.currency.symbol| && s[..|o.currency.symbol|] == o.currency.symbol
    ensures !o.hideDecimals ==>
      |s| >= 3 && s[|s| - 3] == DecimalSep(o.useEUFormat) && AllDigits(s[|s| - 2..])
  {
    var body := AmountBody(c, o.useEUFormat, o.hideDecimals);
    if o.showSymbol then o.currency.symbol + body else body
  }

  /** What `formatLargeAmount` returns. */
  datatype LargeAmount = LargeAmount(whole: string, decimal: Option<string>, separator: Option<char>)

  /** `formatLargeAmount`: the grouped whole part, and the fraction digits
      and separator unless decimals are hidden. */
  function FormatLargeAmount(c: int, useEUFormat: bool, hideDecimals: bool): (r: LargeAmount)
    ensures hideDecimals <==> r.decimal.None?
    ensures hideDecimals <==> r.separator.None?
    ensures r.decimal.Some? ==> |r.decimal.value| == 2 && AllDigits(r.decimal.value)
    ensures r.decimal.Some? ==> r.decimal.value == FractionPart(c)
    ensures r.separator.Some? ==> r.separator.value == DecimalSep(useEUFormat)
    ensures RemoveChar(r.whole, ThousandsSep(useEUFormat)) ==
      if hideDecimals then IntToString(RoundHalfUp(c)) else WholePart(c)
  {
    var whole := if hideDecimals then IntToString(RoundHalfUp(c)) else WholePart(c);
    PlainWholeUngroups(c, hideDecimals, ThousandsSep(useEUFormat));
    var grouped := GroupNumeral(whole, ThousandsSep(useEUFormat));
    if hideDecimals then LargeAmount(grouped, None, None)
    else LargeAmount(grouped, Some(FractionPart(c)), Some(DecimalSep(useEUFormat)))
  }

  /** The whole part, rounded or not, loses its grouping again when the
      separators are removed. */
  lemma PlainWholeUngroups(c: int, hideDecimals: bool, sep: char)
    requires !IsDigit(sep) && sep != '-'
    ensures var w := if hideDecimals then IntToString(RoundHalfUp(c)) else WholePart(c);
      RemoveChar(GroupNumeral(w, sep), sep) == w
  {
    if hideDecimals {
      var i := IntToString(RoundHalfUp(c));
      if RoundHalfUp(c) < 0 {
        assert i[0] == '-' && i[1..] == NatToString(-RoundHalfUp(c));
      }
      GroupNumeralRemove(i, sep);
    } else {
      GroupNumeralRemove(WholePart(c), sep);
    }
  }

  /** The large form's pieces put back together are `formatAmount` without
      the symbol. */
  lemma LargeAmountAgrees(c: int, cur: Currency, useEUFormat: bool, hideDecimals: bool)
    ensures var l := FormatLargeAmount(c, useEUFormat, hideDecimals);
      var s := FormatAmount(c, AmountOptions(cur, useEUFormat, hideDecimals, false));
      if hideDecimals then s == l.whole
      else s == l.whole + [l.separator.value] + l.decimal.value
  {
  }

  /** Undoes `formatAmount` as a reader would: drop the symbol and the
      thousands separators, read the decimal separator as a point; the
      result is in cents. */
  function ReadAmount(s: string, o: AmountOptions): Option<int>
  {
    var n := |o.currency.symbol|;
    if !o.showSymbol then ReadBody(s, o.useEUFormat, o.hideDecimals)
    else if |s| >= n && s[..n] == o.currency.symbol then ReadBody(s[n..], o.useEUFormat, o.hideDecimals)
    else None
  }

  function ReadBody(body: string, useEUFormat: bool, hideDecimals: bool): Option<int>
  {
    var sep := ThousandsSep(useEUFormat);
    if hideDecimals then
      match ParseInt(RemoveChar(body, sep))
      case Some(units) => Some(units * 100)
      case None => None
    else if |body| >= 3 && body[|body| - 3] == DecimalSep(useEUFormat) then
      ParseFixed2(RemoveChar(body[..|body| - 3], sep) + "." + body[|body| - 2..])
    else None
  }

  /** Grouping a signed numeral and deleting the separators gives it back. */
  lemma GroupNumeralRemove(s: string, sep: char)
    requires !IsDigit(sep) && sep != '-'
    requires |s| >= 1 && (AllDigits(s) || (s[0] == '-' && |s| >= 2 && AllDigits(s[1..])))
    ensures RemoveChar(GroupNumeral(s, sep), sep) == s
  {
    if s[0] == '-' {
      Group3Remove(s[1..], sep);
      RemoveCharConcat("-", Group3(s[1..], sep), sep);
      assert RemoveChar("-", sep) == "-" by {
        assert "-"[..0] == [];
      }
      assert s == "-" + s[1..];
    } else {
      Group3Remove(s, sep);
    }
  }

  /** `formatAmount` shows the amount exactly, or rounded to whole units
      when decimals are hidden. */
  lemma FormatAmountReadsBack(c: int, o: AmountOptions)
    ensures ReadAmount(FormatAmount(c, o), o) ==
      Some(if o.hideDecimals then RoundHalfUp(c) * 100 else c)
  {
    var body := AmountBody(c, o.useEUFormat, o.hideDecimals);
    if o.showSymbol {
      var s := FormatAmount(c, o);
      assert s[|o.currency.symbol|..] == body;
    }
    if o.hideDecimals {
      RoundedBodyReadsBack(c, o.useEUFormat);
    } else {
      ExactBodyReadsBack(c, o.useEUFormat);
    }
  }

  lemma RoundedBodyReadsBack(c: int, useEUFormat: bool)
    ensures ReadBody(AmountBody(c, useEUFormat, true), useEUFormat, true) == Some(RoundHalfUp(c) * 100)
  {
    var i := IntToString(RoundHalfUp(c));
    if RoundHalfUp(c) < 0 {
      assert i[0] == '-' && i[1..] == NatToString(-RoundHalfUp(c));
    }
    GroupNumeralRemove(i, ThousandsSep(useEUFormat));
    IntToStringParses(RoundHalfUp(c));
  }

  lemma ExactBodyReadsBack(c: int, useEUFormat: bool)
    ensures ReadBody(AmountBody(c, useEUFormat, false), useEUFormat, false) == Some(c)
  {
    var sep := ThousandsSep(useEUFormat);
    GroupNumeralRemove(WholePart(c), sep);
    ReadExactBody(GroupNumeral(WholePart(c), sep), FractionPart(c), useEUFormat);
    ToFixed2RoundTrip(c);
  }

  /** Reading a body made of a grouped whole part, the decimal separator and
      two digits. */
  lemma ReadExactBody(g: string, f: string, useEUFormat: bool)
    requires |f| == 2
    ensures ReadBody(g + [DecimalSep(useEUFormat)] + f, useEUFormat, false) ==
      ParseFixed2(RemoveChar(g, ThousandsSep(useEUFormat)) + "." + f)
  {
    var body := g + [DecimalSep(useEUFormat)] + f;
    assert body[..|body| - 3] == g && body[|body| - 2..] == f && body[|body| - 3] == DecimalSep(useEUFormat);
  }
}

=== FILE: pinsetup.dfy ===
/**
  The PIN setup modal: a PIN is typed in `new` mode, typed again in
  `confirm` mode and then saved together with the lock method it was
  opened for; `change` mode first asks for the current PIN. The main
  screen's "Change PIN" opens the modal without an initial mode, so it
  starts in `new` and never asks for the current PIN.
*/
module PinSetup {
  import opened Wrappers
  import opened Text
  import opened Lock

  datatype Mode = New | Confirm | Change

  /** The modal's state: the typed input, the PIN kept from `new` mode, the
      error line, the mode and the lock method to enable once saved. */
  datatype Setup = Setup(input: string, tempPin: string, error: string, mode: Mode, target: Method)

  /** A keypad press: a digit key, the blank corner key, or `del`. */
  datatype PadKey = Num(d: nat) | Blank | Del

  const MaxPinLength: nat := 6
  const MinPinLength: nat := 4

  /** The modal as mounted: empty, in the given mode, for the given method. */
  function Opened(mode: Mode, target: Method): Setup
  {
    Setup([], [], [], mode, target)
  }

  /** The modal as the main screen mounts it for "Change PIN". */
  const FromMainScreen: Setup := Opened(New, PinOnly)

  /** `handleClose`: everything back to an empty `new` setup for "pin". */
  function HandleClose(st: Setup): (r: Setup)
    ensures r == Opened(New, PinOnly)
  {
    Setup([], [], [], New, PinOnly)
  }

  /** `handleKeyPress`: `del` drops the last character; a digit is appended
      while fewer than six are typed; the blank key does nothing. */
  function HandleKeyPress(st: Setup, k: PadKey): (r: Setup)
    requires k.Num? ==> k.d < 10
    ensures r.tempPin == st.tempPin && r.mode == st.mode && r.target == st.target
    ensures |st.input| <= MaxPinLength ==> |r.input| <= MaxPinLength
    ensures AllDigits(st.input) ==> AllDigits(r.input)
    ensures k == Blank ==> r == st
  {
    match k
    case Del => st.(input := if |st.input| > 0 then st.input[..|st.input| - 1] else st.input, error := [])
    case Num(d) => if |st.input| < MaxPinLength then st.(input := st.input + [DigitChar(d)], error := []) else st
    case Blank => st
  }

  /** What a submit leaves: the session, the modal, and whether it closed. */
  datatype Step = Step(session: Session, setup: Setup, closed: bool)

  /** `handlePinSubmit`. Fewer than four digits only sets an error. In
      `new` mode the input becomes the PIN to confirm. In `confirm` mode a
      match saves the PIN (call 0) and, if that worked, the target method
      (call 1) and closes; a mismatch starts over. In `change` mode the
      current PIN is checked (call 0) before moving to `new`. */
  function HandlePinSubmit(s: Session, st: Setup, fault: Fault): (r: Step)
    ensures |st.input| < MinPinLength ==> r == Step(s, st.(error := "PIN must be at least 4 digits"), false)
    ensures r.session.locked == s.locked
    ensures r.closed <==> st.mode == Confirm && |st.input| >= MinPinLength && st.input == st.tempPin && !Throws(fault, 0)
    ensures r.session != s ==> r.closed
  {
    if |st.input| < MinPinLength then Step(s, st.(error := "PIN must be at least 4 digits"), false)
    else
      match st.mode
      case New => Step(s, st.(tempPin := st.input, input := [], mode := Confirm, error := []), false)
      case Confirm =>
        if st.input == st.tempPin then
          var (store, saved) := SavePin(s.store, st.input, Throws(fault, 0));
          if saved then
            Step(SaveLockMethod(s.(store := store), st.target, Throws(fault, 1)), HandleClose(st), true)
          else Step(s, st, false)
        else Step(s, st.(error := "PINs do not match", input := [], mode := New, tempPin := []), false)
      case Change =>
        if VerifyPin(s.store, st.input, Throws(fault, 0)) then Step(s, st.(input := [], mode := New, error := []), false)
        else Step(s, st.(error := "Incorrect PIN", input := []), false)
  }

  /** The modal's own invariant: at most six typed digits; a PIN of four to
      six digits waits for confirmation exactly in `confirm` mode; the target
      is a PIN method. */
  predicate WellFormed(st: Setup)
  {
    && |st.input| <= MaxPinLength && AllDigits(st.input)
    && (st.mode == Confirm ==> MinPinLength <= |st.tempPin| <= MaxPinLength && AllDigits(st.tempPin))
    && (st.mode != Confirm ==> st.tempPin == [])
    && st.target in {PinOnly, Both}
  }

  lemma OpenedWellFormed(mode: Mode, target: Method)
    requires mode != Confirm && target in {PinOnly, Both}
    ensures WellFormed(Opened(mode, target))
  {
  }

  lemma KeyPressKeepsWellFormed(st: Setup, k: PadKey)
    requires WellFormed(st) && (k.Num? ==> k.d < 10)
    ensures WellFormed(HandleKeyPress(st, k))
  {
  }

  /** A submit keeps the modal well formed, and a saved PIN has four to six
      digits: the stored PINs stay valid and the lock stays coherent. */
  lemma SubmitKeepsInvariants(s: Session, st: Setup, fault: Fault)
    requires WellFormed(st) && Coherent(s) && PinsWellFormed(s.store)
    ensures var r := HandlePinSubmit(s, st, fault);
      WellFormed(r.setup) && Coherent(r.session) && PinsWellFormed(r.session.store)
  {
    var r := HandlePinSubmit(s, st, fault);
    if st.mode == Confirm && |st.input| >= MinPinLength && st.input == st.tempPin && !Throws(fault, 0) {
      assert r.session.store == s.store[PinKey := st.input] || r.session.store == s.store[PinKey := st.input][MethodKey := MethodName(st.target)];
    }
  }

  /** A confirmation that does not match starts over in `new` mode. */
  lemma MismatchStartsOver(s: Session, st: Setup, fault: Fault)
    requires st.mode == Confirm && |st.input| >= MinPinLength && st.input != st.tempPin
    ensures HandlePinSubmit(s, st, fault) ==
      Step(s, Setup([], [], "PINs do not match", New, st.target), false)
  {
  }

  /** `change` mode moves on only with the current PIN. */
  lemma ChangeNeedsCurrentPin(s: Session, st: Setup, fault: Fault)
    requires st.mode == Change && |st.input| >= MinPinLength
    ensures HandlePinSubmit(s, st, fault).setup.mode == New <==> VerifyPin(s.store, st.input, Throws(fault, 0))
    ensures HandlePinSubmit(s, st, fault).session == s
  {
  }

  /** The whole flow: typing a PIN of four to six digits, submitting,
      typing it again and submitting stores it and the target method, and
      closes the modal. Started from the main screen, it replaces whatever
      PIN was stored without asking for it. */
  lemma FullFlow(s: Session, target: Method, pin: string)
    requires MinPinLength <= |pin| <= MaxPinLength && AllDigits(pin)
    ensures var first := HandlePinSubmit(s, Opened(New, target).(input := pin), None);
      var second := HandlePinSubmit(first.session, first.setup.(input := pin), None);
      && first.setup.mode == Confirm && first.setup.tempPin == pin && first.setup.input == []
      && second.closed && second.setup == FromMainScreen
      && second.session.store == s.store[PinKey := pin][MethodKey := MethodName(target)]
      && second.session.lockMethod == target
      && VerifyPin(second.session.store, pin, false)
  {
  }

  /** Typing digit keys into the modal: the digits typed, up to six. */
  function TypeDigits(st: Setup, ds: seq<nat>): Setup
    requires forall i :: 0 <= i < |ds| ==> ds[i] < 10
    decreases |ds|
  {
    if ds == [] then st else TypeDigits(HandleKeyPress(st, Num(ds[0])), ds[1..])
  }

  /** The text of a run of digits. */
  function DigitsText(ds: seq<nat>): (s: string)
    requires forall i :: 0 <= i < |ds| ==> ds[i] < 10
    ensures |s| == |ds| && AllDigits(s)
  {
    if ds == [] then [] else [DigitChar(ds[0])] + DigitsText(ds[1..])
  }

  /** Up to six digits typed into an empty input come out as typed. */
  lemma {:induction false} TypingFills(st: Setup, ds: seq<nat>)
    requires forall i :: 0 <= i < |ds| ==> ds[i] < 10
    requires |st.input| + |ds| <= MaxPinLength
    ensures TypeDigits(st, ds).input == st.input + DigitsText(ds)
    ensures TypeDigits(st, ds).mode == st.mode && TypeDigits(st, ds).tempPin == st.tempPin
    decreases |ds|
  {
    if ds != [] {
      var next := HandleKeyPress(st, Num(ds[0]));
      TypingFills(next, ds[1..]);
      assert st.input + [DigitChar(ds[0])] + DigitsText(ds[1..]) == st.input + DigitsText(ds);
    }
  }
}

=== FILE: progress.dfy ===
/**
  `getTimeProgress` of the main screen: how far the current period has
  run, as a fraction in [0, 1) drawn under the period's total. The clock
  reading is a parameter; fractions are exact reals.
*/
module Progress {
  import opened Calendar
  import opened Ledger

  /** A wall-clock reading: the local date, the hour (0-23) and the minute (0-59). */
  datatype Clock = Clock(date: Date, hours: int, minutes: int)

  predicate ValidClock(c: Clock)
  {
    Valid(c.date) && 0 <= c.hours < 24 && 0 <= c.minutes < 60
  }

  /** `(now.getHours() + now.getMinutes() / 60) / 24`. */
  function DayFraction(c: Clock): (f: real)
    requires ValidClock(c)
    ensures 0.0 <= f < 1.0
  {
    (c.hours as real + c.minutes as real / 60.0) / 24.0
  }

  /** The leap rule written inline in the year branch. */
  function DaysInYearInline(y: int): (n: int)
    ensures n == 365 || n == 366
  {
    if (y % 4 == 0 && y % 100 != 0) || y % 400 == 0 then 366 else 365
  }

  /** `Math.floor((now - startOfYear) / day)`: whole calendar days since
      January 1. `getTimeProgress` divides elapsed milliseconds, which
      equals this count except in the hours a daylight-saving change shifts
      by one day. */
  function DayOfYear(c: Clock): (k: int)
    requires ValidClock(c)
  {
    DayNumber(c.date) - DayNumber(Date(c.date.year, 1, 1))
  }

  function TimeProgress(period: Period, c: Clock): (r: real)
    requires ValidClock(c)
    ensures 0.0 <= r < 1.0
  {
    var f := DayFraction(c);
    match period
    case Today => f
    case Week => Share(DayOfWeek(c.date) as real + f, 7.0)
    case Month =>
      LastDayOfMonthJsSpec(c.date.year, c.date.month);
      Share(c.date.day as real - 1.0 + f, LastDayOfMonthJs(c.date.year, c.date.month) as real)
    case Year =>
      DayOfYearRange(c);
      Share(DayOfYear(c) as real, DaysInYearInline(c.date.year) as real)
  }

  /** The part `x` is of a whole `n` it does not reach. */
  function Share(x: real, n: real): (r: real)
    requires 0.0 <= x < n
    ensures 0.0 <= r < 1.0 && r * n == x
  {
    ShareBounds(x, n);
    x / n
  }

  lemma ShareBounds(x: real, n: real)
    requires 0.0 <= x < n
    ensures 0.0 <= x / n < 1.0 && (x / n) * n == x
  {
    var r := x / n;
    assert r * n == x;
    assert (1.0 - r) * n == n - x;
    SignOfFactor(1.0 - r, n);
    SignOfFactor(r, n);
  }

  /** A product with a positive factor has the sign of the other factor. */
  lemma SignOfFactor(a: real, n: real)
    requires n > 0.0
    ensures a * n > 0.0 ==> a > 0.0
    ensures a * n >= 0.0 ==> a >= 0.0
  {
  }

  /** The day of the year counts from 0 and stays below the year's length. */
  lemma DayOfYearRange(c: Clock)
    requires ValidClock(c)
    ensures 0 <= DayOfYear(c) < DaysInYearInline(c.date.year)
  {
    DayNumberInYear(c.date);
    YearStep(c.date.year);
    InlineLeapRule(c.date.year);
  }

  /** The inline rule agrees with the calendar's year length, which is the
      distance from one January 1 to the next. */
  lemma InlineLeapRule(y: int)
    ensures DaysInYearInline(y) == YearLength(y)
    ensures DaysInYearInline(y) == DayNumber(Date(y + 1, 1, 1)) - DayNumber(Date(y, 1, 1))
  {
    YearLengthIsDistance(y);
  }

  /** Minutes since 0001-01-01 00:00, to compare clock readings. */
  function Minutes(c: Clock): int
    requires ValidClock(c)
  {
    DayNumber(c.date) * 1440 + c.hours * 60 + c.minutes
  }

  /** The two readings fall in the same period: the same day, the same
      Sunday-to-Saturday week, the same month, or the same year. */
  predicate SamePeriod(period: Period, a: Clock, b: Clock)
    requires ValidClock(a) && ValidClock(b)
  {
    match period
    case Today => a.date == b.date
    case Week => DayNumber(a.date) - DayOfWeek(a.date) == DayNumber(b.date) - DayOfWeek(b.date)
    case Month => a.date.year == b.date.year && a.date.month == b.date.month
    case Year => a.date.year == b.date.year
  }

  /** A larger part is a larger share of the same whole. */
  lemma ShareMonotone(x: real, y: real, n: real)
    requires 0.0 <= x <= y < n
    ensures Share(x, n) <= Share(y, n)
  {
  }

  /** Within a day the fraction grows with the time. */
  lemma DayFractionMonotone(a: Clock, b: Clock)
    requires ValidClock(a) && ValidClock(b)
    requires a.hours * 60 + a.minutes <= b.hours * 60 + b.minutes
    ensures DayFraction(a) <= DayFraction(b)
  {
    assert a.hours as real + a.minutes as real / 60.0 == (a.hours * 60 + a.minutes) as real / 60.0;
    assert b.hours as real + b.minutes as real / 60.0 == (b.hours * 60 + b.minutes) as real / 60.0;
  }

  /** A later reading is on a later day, or on the same day with at least
      as large a fraction of it gone. */
  lemma LaterReading(a: Clock, b: Clock)
    requires ValidClock(a) && ValidClock(b) && Minutes(a) <= Minutes(b)
    ensures DayNumber(a.date) < DayNumber(b.date) || (a.date == b.date && DayFraction(a) <= DayFraction(b))
  {
    if DayNumber(a.date) == DayNumber(b.date) {
      DayNumberOrder(a.date, b.date);
      DayFractionMonotone(a, b);
    }
  }

  /** Within one period, a later reading never shows less progress. */
  lemma ProgressMonotone(period: Period, a: Clock, b: Clock)
    requires ValidClock(a) && ValidClock(b) && SamePeriod(period, a, b)
    requires Minutes(a) <= Minutes(b)
    ensures TimeProgress(period, a) <= TimeProgress(period, b)
  {
    LaterReading(a, b);
    match period
    case Today =>
    case Week => WeekProgressMonotone(a, b);
    case Month => MonthProgressMonotone(a, b);
    case Year => YearProgressMonotone(a, b);
  }

  lemma WeekProgressMonotone(a: Clock, b: Clock)
    requires ValidClock(a) && ValidClock(b) && SamePeriod(Week, a, b)
    requires DayNumber(a.date) < DayNumber(b.date) || (a.date == b.date && DayFraction(a) <= DayFraction(b))
    ensures TimeProgress(Week, a) <= TimeProgress(Week, b)
  {
    ShareMonotone(DayOfWeek(a.date) as real + DayFraction(a), DayOfWeek(b.date) as real + DayFraction(b), 7.0);
  }

  lemma MonthProgressMonotone(a: Clock, b: Clock)
    requires ValidClock(a) && ValidClock(b) && SamePeriod(Month, a, b)
    requires DayNumber(a.date) < DayNumber(b.date) || (a.date == b.date && DayFraction(a) <= DayFraction(b))
    ensures TimeProgress(Month, a) <= TimeProgress(Month, b)
  {
    LastDayOfMonthJsSpec(a.date.year, a.date.month);
    DayNumberOrder(a.date, b.date);
    ShareMonotone(a.date.day as real - 1.0 + DayFraction(a), b.date.day as real - 1.0 + DayFraction(b),
                  LastDayOfMonthJs(a.date.year, a.date.month) as real);
  }

  lemma YearProgressMonotone(a: Clock, b: Clock)
    requires ValidClock(a) && ValidClock(b) && SamePeriod(Year, a, b)
    requires DayNumber(a.date) < DayNumber(b.date) || (a.date == b.date && DayFraction(a) <= DayFraction(b))
    ensures TimeProgress(Year, a) <= TimeProgress(Year, b)
  {
    DayOfYearRange(a);
    DayOfYearRange(b);
    ShareMonotone(DayOfYear(a) as real, DayOfYear(b) as real, DaysInYearInline(a.date.year) as real);
  }

  /** A period starts at zero progress: midnight, on Sunday for the week,
      on the 1st for the month and on January 1 for the year. */
  lemma ProgressStartsAtZero(period: Period, c: Clock)
    requires ValidClock(c) && c.hours == 0 && c.minutes == 0
    requires period == Week ==> DayOfWeek(c.date) == 0
    requires period == Month ==> c.date.day == 1
    requires period == Year ==> c.date.month == 1 && c.date.day == 1
    ensures TimeProgress(period, c) == 0.0
  {
  }
}

=== FILE: seqs.dfy ===
/**
  `Array.prototype.filter` on immutable sequences, and what it keeps:
  the selected elements, in their order, with their multiplicities.
*/
module Seqs {

  /** `s.filter(p)`. */
  function Filter<T>(s: seq<T>, p: T -> bool): (r: seq<T>)
    ensures |r| <= |s|
    ensures forall i :: 0 <= i < |r| ==> r[i] in s && p(r[i])
    ensures forall i :: 0 <= i < |s| && p(s[i]) ==> s[i] in r
  {
    if s == [] then [] else (if p(s[0]) then [s[0]] else []) + Filter(s[1..], p)
  }

  /** `a` is `b` with some elements left out, the rest in their order. */
  predicate IsSubseq<T(==)>(a: seq<T>, b: seq<T>)
  {
    a == [] || (b != [] && ((a[0] == b[0] && IsSubseq(a[1..], b[1..])) || IsSubseq(a, b[1..])))
  }

  lemma {:induction false} FilterConcat<T>(a: seq<T>, b: seq<T>, p: T -> bool)
    ensures Filter(a + b, p) == Filter(a, p) + Filter(b, p)
  {
    if a != [] {
      assert (a + b)[1..] == a[1..] + b;
      FilterConcat(a[1..], b, p);
    } else {
      assert a + b == b;
    }
  }

  /** Filtering a list with one element in front. */
  lemma FilterCons<T>(h: T, t: seq<T>, p: T -> bool)
    ensures Filter([h] + t, p) == (if p(h) then [h] else []) + Filter(t, p)
  {
    assert ([h] + t)[1..] == t;
  }

  /** Filtering keeps an element as often as the input holds it, or drops it entirely. */
  lemma {:induction false} FilterMultiset<T(!new)>(s: seq<T>, p: T -> bool)
    ensures forall x :: multiset(Filter(s, p))[x] == if p(x) then multiset(s)[x] else 0
  {
    if s != [] {
      FilterMultiset(s[1..], p);
      assert s == [s[0]] + s[1..];
    }
  }

  lemma {:induction false} FilterIsSubseq<T>(s: seq<T>, p: T -> bool)
    ensures IsSubseq(Filter(s, p), s)
  {
    if s != [] {
      FilterIsSubseq(s[1..], p);
      var r := Filter(s, p);
      if p(s[0]) {
        assert r[0] == s[0] && r[1..] == Filter(s[1..], p);
      } else {
        assert r == Filter(s[1..], p);
      }
    }
  }

  /** Filtering twice with a stronger test after a weaker one is filtering once with the stronger. */
  lemma {:induction false} FilterNested<T>(s: seq<T>, strong: T -> bool, weak: T -> bool)
    requires forall i :: 0 <= i < |s| && strong(s[i]) ==> weak(s[i])
    ensures Filter(Filter(s, weak), strong) == Filter(s, strong)
  {
    if s != [] {
      FilterNested(s[1..], strong, weak);
      if weak(s[0]) {
        var w := Filter(s, weak);
        assert w == [s[0]] + Filter(s[1..], weak);
        assert w[0] == s[0] && w[1..] == Filter(s[1..], weak);
        assert Filter(w, strong) == (if strong(s[0]) then [s[0]] else []) + Filter(w[1..], strong);
        assert Filter(s, strong) == (if strong(s[0]) then [s[0]] else []) + Filter(s[1..], strong);
      } else {
        assert !strong(s[0]);
        assert Filter(s, weak) == Filter(s[1..], weak);
        assert Filter(s, strong) == Filter(s[1..], strong);
      }
    }
  }

  /** Filtering with a test that every element passes changes nothing. */
  lemma {:induction false} FilterAll<T>(s: seq<T>, p: T -> bool)
    requires forall i :: 0 <= i < |s| ==> p(s[i])
    ensures Filter(s, p) == s
  {
    if s != [] {
      assert forall i :: 0 <= i < |s[1..]| ==> s[1..][i] == s[i + 1];
      FilterAll(s[1..], p);
      assert s == [s[0]] + s[1..];
    }
  }

  /** Filtering twice with the same test is filtering once. */
  lemma FilterIdempotent<T>(s: seq<T>, p: T -> bool)
    ensures Filter(Filter(s, p), p) == Filter(s, p)
  {
    FilterNested(s, p, p);
  }
}

=== FILE: settings.dfy ===
/**
  The small rules of the settings screens and the backup reminder: the
  12-hour reminder time, the "last backup" label, the backup-overdue check
  and its banner message, and the name editor's save rule.

  The stored export date is a `YYYY-MM-DD` string, or the empty string
  when there has been no export (JavaScript treats `null` and `""` alike
  here). The day count between it and now is taken as the difference of
  calendar days; a string that does not read as a date stands for NaN.
*/
module Settings {
  import opened Wrappers
  import opened Text
  import opened Calendar
  import opened DateFormat

  // ---------------------------------------------------------------------
  // Days since the last export
  // ---------------------------------------------------------------------

  /** `Math.floor((now - new Date(lastExportDate)) / day)`: whole days from
      the export date to today, or None where the date reads as NaN. */
  function ElapsedDays(lastExport: string, today: Date): (r: Option<int>)
    requires Valid(today)
    ensures r.Some? <==> ParseDate(lastExport).Some?
  {
    match ParseDate(lastExport)
    case None => None
    case Some(d) => Some(DayNumber(today) - DayNumber(d))
  }

  /** A date written by the app reads back as the calendar distance to today. */
  lemma ElapsedSinceFormatted(d: Date, today: Date)
    requires Valid(d) && FourDigitYear(d) && Valid(today)
    ensures ElapsedDays(FormatDate(d), today) == Some(DayNumber(today) - DayNumber(d))
  {
    ParseFormatDate(d);
  }

  /** A number in a template string: NaN prints as "NaN". */
  function NumberText(n: Option<int>): (s: string)
    ensures n.None? <==> s == "NaN"
  {
    match n
    case None => "NaN"
    case Some(k) =>
      var s := IntToString(k);
      assert s[0] == '-' || IsDigit(s[0]);
      s
  }

  // ---------------------------------------------------------------------
  // The "last backup" label and the overdue banner
  // ---------------------------------------------------------------------

  /** `getLastBackupText`. */
  function LastBackupText(lastExport: string, today: Date): string
    requires Valid(today)
  {
    if lastExport == "" then "Never" else DaysLabel(ElapsedDays(lastExport, today))
  }

  /** The label for a day count. */
  function DaysLabel(e: Option<int>): string
  {
    match e
    case Some(0) => "Today"
    case Some(1) => "Yesterday"
    case _ => NumberText(e) + " days ago"
  }

  /** Different day counts get different labels. */
  lemma DaysLabelInjective(a: int, b: int)
    ensures DaysLabel(Some(a)) == DaysLabel(Some(b)) <==> a == b
  {
    var ta, tb := DaysLabel(Some(a)), DaysLabel(Some(b));
    if ta == tb && a != b {
      if a != 0 && a != 1 && b != 0 && b != 1 {
        SuffixCancel(IntToString(a), IntToString(b), " days ago");
        IntToStringInjective(a, b);
      }
    }
  }

  /** `getBackupOverdueMessage`: no "today" case, so a same-day export reads
      "0 days ago". */
  function BackupOverdueMessage(lastExport: string, today: Date): string
    requires Valid(today)
  {
    if lastExport == "" then "You haven't backed up your data yet"
    else
      match ElapsedDays(lastExport, today)
      case Some(1) => "Last backup was yesterday"
      case e => "Last backup was " + NumberText(e) + " days ago"
  }

  lemma SuffixCancel(a: string, b: string, t: string)
    requires a + t == b + t
    ensures a == b
  {
    assert |a| == |b|;
    assert a == (a + t)[..|a|];
    assert b == (b + t)[..|b|];
  }

  /** The label tells export dates apart: two exports written by the app get
      the same label exactly when they fall on the same day. */
  lemma LastBackupTextDistinguishes(a: Date, b: Date, today: Date)
    requires Valid(a) && FourDigitYear(a) && Valid(b) && FourDigitYear(b) && Valid(today)
    ensures LastBackupText(FormatDate(a), today) == LastBackupText(FormatDate(b), today) <==> a == b
  {
    LabelOfFormatted(a, today);
    LabelOfFormatted(b, today);
    if a != b {
      DistinctDaysDistinctLabels(a, b, today);
    }
  }

  lemma DistinctDaysDistinctLabels(a: Date, b: Date, today: Date)
    requires Valid(a) && Valid(b) && Valid(today) && a != b
    ensures DaysLabel(Some(DayNumber(today) - DayNumber(a))) != DaysLabel(Some(DayNumber(today) - DayNumber(b)))
  {
    DayNumberOrder(a, b);
    DaysLabelInjective(DayNumber(today) - DayNumber(a), DayNumber(today) - DayNumber(b));
  }

  lemma LabelOfFormatted(d: Date, today: Date)
    requires Valid(d) && FourDigitYear(d) && Valid(today)
    ensures LastBackupText(FormatDate(d), today) == DaysLabel(Some(DayNumber(today) - DayNumber(d)))
  {
    FormatDateFixed(d);
    ElapsedSinceFormatted(d, today);
  }

  /** Past the first day the banner says what the label says; on the first
      day both say "yesterday". */
  lemma MessageAgreesWithLabel(lastExport: string, today: Date)
    requires Valid(today) && lastExport != "" && ElapsedDays(lastExport, today) != Some(0)
    ensures ElapsedDays(lastExport, today) == Some(1) ==>
      BackupOverdueMessage(lastExport, today) == "Last backup was yesterday" &&
      LastBackupText(lastExport, today) == "Yesterday"
    ensures ElapsedDays(lastExport, today) != Some(1) ==>
      BackupOverdueMessage(lastExport, today) == "Last backup was " + LastBackupText(lastExport, today)
  {
  }

  /** The number of days after which a reminder is due: a week for the
      weekly setting, 30 days for any other. */
  function OverdueAfter(freq: string): (n: int)
    ensures n == 7 || n == 30
    ensures n == 7 <==> freq == "weekly"
  {
    if freq == "weekly" then 7 else 30
  }

  /** `isBackupOverdue`. */
  function IsBackupOverdue(enabled: bool, lastExport: string, freq: string, today: Date): bool
    requires Valid(today)
  {
    if !enabled || lastExport == "" then false
    else
      match ElapsedDays(lastExport, today)
      case None => false
      case Some(n) => n >= OverdueAfter(freq)
  }

  /** With the reminder off or no export yet the reminder is never due; for
      an export written by the app on day `d`, it is due on day `d + k`
      exactly when `k` reaches the period. */
  lemma OverdueExactlyAfterPeriod(d: Date, k: int, freq: string)
    requires Valid(d) && FourDigitYear(d)
    ensures IsBackupOverdue(true, FormatDate(d), freq, AddDays(d, k)) <==> k >= OverdueAfter(freq)
    ensures !IsBackupOverdue(false, FormatDate(d), freq, AddDays(d, k))
    ensures !IsBackupOverdue(true, "", freq, AddDays(d, k))
  {
    FormatDateFixed(d);
    ElapsedSinceFormatted(d, AddDays(d, k));
  }

  /** Once due, the reminder stays due as days pass. */
  lemma OverdueStaysOverdue(enabled: bool, lastExport: string, freq: string, today: Date, later: Date)
    requires Valid(today) && Valid(later)
    requires IsBackupOverdue(enabled, lastExport, freq, today)
    requires DayNumber(today) <= DayNumber(later)
    ensures IsBackupOverdue(enabled, lastExport, freq, later)
  {
  }

  /** Whenever a monthly reminder is due, a weekly one would be too. */
  lemma WeeklyDueBeforeMonthly(enabled: bool, lastExport: string, freq: string, today: Date)
    requires Valid(today) && IsBackupOverdue(enabled, lastExport, freq, today)
    ensures IsBackupOverdue(enabled, lastExport, "weekly", today)
  {
  }

  // ---------------------------------------------------------------------
  // The reminder time
  // ---------------------------------------------------------------------

  /** `hours % 12 || 12`: the hour on a 12-hour dial. */
  function DisplayHour(hours: int): (h: int)
    requires 0 <= hours < 24
    ensures 1 <= h <= 12 && h % 12 == hours % 12
    ensures hours == (if hours >= 12 then 12 else 0) + (if h == 12 then 0 else h)
  {
    if hours % 12 == 0 then 12 else hours % 12
  }

  /** `formatTime`: `H:MM AM` or `H:MM PM`, the hour unpadded, the minutes
      padded to two digits. */
  function FormatTime(hours: int, minutes: int): (s: string)
    requires 0 <= hours < 24 && 0 <= minutes < 60
    ensures |s| >= 7 && s[|s| - 2..] == (if hours >= 12 then "PM" else "AM")
  {
    var ampm := if hours >= 12 then "PM" else "AM";
    Pad2Fixed(minutes);
    NatToString(DisplayHour(hours)) + ":" + Pad2(minutes) + " " + ampm
  }

  /** Reads a 12-hour time back into hours (0-23) and minutes; the hour
      field must be 1 to 12, and 12 stands for the hour 0 of its half-day. */
  function ReadTime(s: string): Option<(int, int)>
  {
    if |s| < 7 then None
    else
      var n := |s|;
      ReadTimeFields(s[..n - 6], s[n - 6], s[n - 5..n - 3], s[n - 3], s[n - 2..])
  }

  /** The reading of the hour, colon, minutes, space and suffix fields. */
  function ReadTimeFields(hour: string, colon: char, mins: string, space: char, suffix: string): Option<(int, int)>
  {
    if colon == ':' && space == ' ' && AllDigits(hour) && AllDigits(mins) && (suffix == "AM" || suffix == "PM") then
      var h := DigitsValue(hour);
      if 1 <= h <= 12 then
        Some(((if suffix == "PM" then 12 else 0) + (if h == 12 then 0 else h), DigitsValue(mins)))
      else None
    else None
  }

  /** The displayed time reads back as the time it shows: midnight is 12 AM,
      noon 12 PM, and no two times of day look alike. */
  lemma FormatTimeReadsBack(hours: int, minutes: int)
    requires 0 <= hours < 24 && 0 <= minutes < 60
    ensures ReadTime(FormatTime(hours, minutes)) == Some((hours, minutes))
  {
    var h := DisplayHour(hours);
    var dh, mm := NatToString(h), Pad2(minutes);
    Pad2Value(minutes);
    Pad2Fixed(minutes);
    NatToStringRoundTrip(h);
    ReadTimeLayout(dh, mm, if hours >= 12 then "PM" else "AM");
    ReadClockFields(dh, mm, hours >= 12);
  }

  /** Valid fields read as the hour of the half-day and the minutes. */
  lemma ReadClockFields(dh: string, mm: string, pm: bool)
    requires AllDigits(dh) && AllDigits(mm) && 1 <= DigitsValue(dh) <= 12
    ensures var h := DigitsValue(dh);
      ReadTimeFields(dh, ':', mm, ' ', if pm then "PM" else "AM") ==
        Some(((if pm then 12 else 0) + (if h == 12 then 0 else h), DigitsValue(mm)))
  {
    assert "AM"[0] != "PM"[0];
  }

  /** A time laid out as hour, colon, minutes, space and suffix is read field by field. */
  lemma ReadTimeLayout(dh: string, mm: string, ampm: string)
    requires |dh| >= 1 && |mm| == 2 && |ampm| == 2
    ensures ReadTime(dh + ":" + mm + " " + ampm) == ReadTimeFields(dh, ':', mm, ' ', ampm)
  {
    FieldLayout(dh, ':', mm, ' ', ampm);
  }

  /** Midnight and noon both show the hour 12. */
  lemma TwelveOClock(minutes: int)
    requires 0 <= minutes < 60
    ensures FormatTime(0, minutes) == "12:" + Pad2(minutes) + " AM"
    ensures FormatTime(12, minutes) == "12:" + Pad2(minutes) + " PM"
  {
    assert NatToString(12) == NatToString(1) + [DigitChar(2)];
  }

  // ---------------------------------------------------------------------
  // The name editor
  // ---------------------------------------------------------------------

  /** The stored name after a press of Save, and whether the screen went back. */
  datatype NameSave = NameSave(name: string, back: bool)

  /** The Save button is disabled while the trimmed input is empty. */
  predicate SaveDisabled(editing: string)
  {
    Trim(editing) == ""
  }

  /** `handleSave`: a non-blank input is stored trimmed and the screen goes
      back; a blank one does nothing. */
  function SaveName(editing: string, name: string): (r: NameSave)
    ensures r.back <==> !SaveDisabled(editing)
    ensures !r.back ==> r.name == name
  {
    var t := Trim(editing);
    if t != "" then NameSave(t, true) else NameSave(name, false)
  }

  /** Save is refused exactly for inputs of whitespace only; a saved name is
      the input with only whitespace cut from its ends, begins and ends with
      a visible character, and saving it again stores it unchanged. */
  lemma SaveNameSpec(editing: string, name: string)
    ensures SaveDisabled(editing) <==> AllWhitespace(editing)
    ensures var r := SaveName(editing, name);
      r.back ==>
        && (exists i, j :: 0 <= i <= j <= |editing| && r.name == editing[i..j]
              && AllWhitespace(editing[..i]) && AllWhitespace(editing[j..]))
        && !IsJsWhitespace(r.name[0]) && !IsJsWhitespace(r.name[|r.name| - 1])
        && SaveName(r.name, r.name) == r
  {
    TrimSpec(editing);
    TrimIdempotent(editing);
  }
}

=== FILE: text.dfy ===
/**
  Strings as JavaScript sees them in this app: decimal renderings of
  numbers (`String(n)`, `n.toString()`), `padStart`, string order, and
  `trim`. String order here is by code point, since a Dafny `char` is a
  Unicode scalar value; it agrees with the code-unit order of `<`, `<=`
  and with `localeCompare` on the ASCII strings the app compares.
*/
module Text {

  // ---------------------------------------------------------------------
  // Digits
  // ---------------------------------------------------------------------

  predicate IsDigit(c: char)
  {
    '0' <= c <= '9'
  }

  predicate AllDigits(s: string)
  {
    forall i :: 0 <= i < |s| ==> IsDigit(s[i])
  }

  function DigitChar(n: int): (c: char)
    requires 0 <= n <= 9
    ensures IsDigit(c)
  {
    ('0' as int + n) as char
  }

  function DigitValue(c: char): (n: int)
    requires IsDigit(c)
    ensures 0 <= n <= 9
  {
    c as int - '0' as int
  }

  lemma DigitCharValue(n: int)
    requires 0 <= n <= 9
    ensures DigitValue(DigitChar(n)) == n
  {
  }

  /** The value of a string of decimal digits, most significant first. */
  function DigitsValue(s: string): nat
    requires AllDigits(s)
  {
    if |s| == 0 then 0 else DigitsValue(s[..|s| - 1]) * 10 + DigitValue(s[|s| - 1])
  }

  function Pow10(w: nat): (p: nat)
    ensures p >= 1
  {
    if w == 0 then 1 else 10 * Pow10(w - 1)
  }

  /** `String(n)` for a non-negative integer: shortest decimal rendering. */
  function NatToString(n: nat): (s: string)
    ensures 1 <= |s| && AllDigits(s)
    ensures s[0] == '0' ==> n == 0
  {
    if n < 10 then [DigitChar(n)] else NatToString(n / 10) + [DigitChar(n % 10)]
  }

  /** `String(i)` for any integer: a minus sign before the magnitude. */
  function IntToString(i: int): (s: string)
    ensures 1 <= |s|
  {
    if i < 0 then "-" + NatToString(-i) else NatToString(i)
  }

  /** Reading back the rendering of `n` gives `n`. */
  lemma {:induction false} NatToStringRoundTrip(n: nat)
    ensures DigitsValue(NatToString(n)) == n
  {
    if n >= 10 {
      var s := NatToString(n);
      assert s[..|s| - 1] == NatToString(n / 10);
      NatToStringRoundTrip(n / 10);
    }
  }

  lemma NatToStringInjective(a: nat, b: nat)
    ensures NatToString(a) == NatToString(b) <==> a == b
  {
    NatToStringRoundTrip(a);
    NatToStringRoundTrip(b);
  }

  /** Distinct integers render differently, negative ones with a leading '-'. */
  lemma IntToStringInjective(a: int, b: int)
    requires IntToString(a) == IntToString(b)
    ensures a == b
  {
    var s := IntToString(a);
    if a < 0 && b < 0 {
      assert NatToString(-a) == s[1..] == NatToString(-b);
      NatToStringInjective(-a, -b);
    } else if a >= 0 && b >= 0 {
      NatToStringInjective(a, b);
    }
  }

  // ---------------------------------------------------------------------
  // Fixed-width digit strings and padding
  // ---------------------------------------------------------------------

  /** The last `w` decimal digits of `n`, zero-filled on the left. */
  function FixedDigits(n: nat, w: nat): (s: string)
    ensures |s| == w && AllDigits(s)
  {
    if w == 0 then [] else FixedDigits(n / 10, w - 1) + [DigitChar(n % 10)]
  }

  function Repeat(c: char, k: nat): (s: string)
    ensures |s| == k
    ensures forall i :: 0 <= i < k ==> s[i] == c
  {
    if k == 0 then [] else [c] + Repeat(c, k - 1)
  }

  /** JavaScript's `s.padStart(w, c)` with a one-character filler. */
  function PadStart(s: string, w: nat, c: char): (r: string)
    ensures |s| >= w ==> r == s
    ensures |s| < w ==> |r| == w && r[w - |s|..] == s
    ensures forall i :: 0 <= i < |r| - |s| ==> r[i] == c
  {
    if |s| >= w then s else Repeat(c, w - |s|) + s
  }

  /** `String(n).padStart(2, '0')`, as used for months, days and minutes. */
  function Pad2(n: nat): string
  {
    PadStart(NatToString(n), 2, '0')
  }

  /** A number below `10^w` with no fewer than `w` digits renders as exactly its `w` digits. */
  lemma {:induction false} NatToStringFixed(n: nat, w: nat)
    requires 1 <= w && Pow10(w - 1) <= n < Pow10(w)
    ensures NatToString(n) == FixedDigits(n, w)
  {
    if w == 1 {
      assert n < 10;
      assert FixedDigits(n, 1) == FixedDigits(n / 10, 0) + [DigitChar(n % 10)];
    } else {
      assert Pow10(w) == 10 * Pow10(w - 1);
      assert Pow10(w - 1) == 10 * Pow10(w - 2);
      assert n >= 10;
      assert Pow10(w - 2) <= n / 10 < Pow10(w - 1);
      NatToStringFixed(n / 10, w - 1);
    }
  }

  /** Padding to two places gives exactly the two-digit rendering. */
  lemma Pad2Fixed(n: nat)
    requires n < 100
    ensures Pad2(n) == FixedDigits(n, 2)
    ensures |Pad2(n)| == 2 && AllDigits(Pad2(n))
  {
    assert FixedDigits(n, 2) == FixedDigits(n / 10, 1) + [DigitChar(n % 10)];
    assert FixedDigits(n / 10, 1) == FixedDigits(n / 100, 0) + [DigitChar(n / 10 % 10)];
    if n < 10 {
      assert NatToString(n) == [DigitChar(n)];
    } else {
      NatToStringFixed(n, 2);
    }
  }

  /** A fixed-width digit string reads back as the number it was made from. */
  lemma {:induction false} FixedDigitsValue(n: nat, w: nat)
    requires n < Pow10(w)
    ensures DigitsValue(FixedDigits(n, w)) == n
  {
    if w > 0 {
      var s := FixedDigits(n, w);
      assert s[..w - 1] == FixedDigits(n / 10, w - 1);
      FixedDigitsValue(n / 10, w - 1);
      DigitCharValue(n % 10);
    }
  }

  /** A value in 0..99 is read back from its two-digit form. */
  lemma Pad2Value(n: nat)
    requires n < 100
    ensures |Pad2(n)| == 2 && AllDigits(Pad2(n)) && DigitsValue(Pad2(n)) == n
  {
    Pad2Fixed(n);
    assert Pow10(2) == 100;
    FixedDigitsValue(n, 2);
  }

  // ---------------------------------------------------------------------
  // Code-point order of strings
  // ---------------------------------------------------------------------

  /** JavaScript's `a < b` on strings: lexicographic by character, a proper
      prefix first. Characters compare by code point, which is JavaScript's
      code-unit order on text without characters beyond U+FFFF. */
  predicate LexLess(a: string, b: string)
  {
    if |a| == 0 then |b| > 0
    else if |b| == 0 then false
    else a[0] < b[0] || (a[0] == b[0] && LexLess(a[1..], b[1..]))
  }

  /** JavaScript's `a <= b` on strings, which is `!(b < a)`. */
  predicate LexLessEq(a: string, b: string)
  {
    !LexLess(b, a)
  }

  lemma {:induction false} LexLessIrreflexive(a: string)
    ensures !LexLess(a, a)
  {
    if |a| > 0 {
      LexLessIrreflexive(a[1..]);
    }
  }

  lemma {:induction false} LexLessAsymmetric(a: string, b: string)
    requires LexLess(a, b)
    ensures !LexLess(b, a)
  {
    if |a| > 0 && |b| > 0 && a[0] == b[0] {
      LexLessAsymmetric(a[1..], b[1..]);
    }
  }

  lemma {:induction false} LexLessTransitive(a: string, b: string, c: string)
    requires LexLess(a, b) && LexLess(b, c)
    ensures LexLess(a, c)
  {
    if |a| > 0 && |b| > 0 && |c| > 0 && a[0] == b[0] && b[0] == c[0] {
      LexLessTransitive(a[1..], b[1..], c[1..]);
    }
  }

  /** Any two different strings are ordered one way or the other. */
  lemma {:induction false} LexLessTotal(a: string, b: string)
    requires a != b
    ensures LexLess(a, b) || LexLess(b, a)
  {
    if |a| > 0 && |b| > 0 && a[0] == b[0] {
      assert a == [a[0]] + a[1..] && b == [b[0]] + b[1..];
      LexLessTotal(a[1..], b[1..]);
    }
  }

  /** `a <= b` and `b <= c` give `a <= c`. */
  lemma LexLessEqTransitive(a: string, b: string, c: string)
    requires LexLessEq(a, b) && LexLessEq(b, c)
    ensures LexLessEq(a, c)
  {
    if a != b {
      LexLessTotal(a, b);
      if LexLess(c, a) {
        LexLessTransitive(c, a, b);
      }
    }
  }

  /** With equal-length heads the order is decided by the heads, then by the tails. */
  lemma {:induction false} LexLessConcat(a1: string, a2: string, b1: string, b2: string)
    requires |a1| == |b1|
    ensures LexLess(a1 + a2, b1 + b2) <==> LexLess(a1, b1) || (a1 == b1 && LexLess(a2, b2))
  {
    if |a1| > 0 {
      assert (a1 + a2)[0] == a1[0] && (b1 + b2)[0] == b1[0];
      assert (a1 + a2)[1..] == a1[1..] + a2;
      assert (b1 + b2)[1..] == b1[1..] + b2;
      LexLessConcat(a1[1..], a2, b1[1..], b2);
      if a1[0] == b1[0] && a1[1..] == b1[1..] {
        assert a1 == [a1[0]] + a1[1..] && b1 == [b1[0]] + b1[1..];
      }
    } else {
      assert a1 + a2 == a2 && b1 + b2 == b2;
    }
  }

  /** Fixed-width digit strings of numbers below `10^w` are equal exactly when the numbers are. */
  lemma {:induction false} FixedDigitsInjective(a: nat, b: nat, w: nat)
    requires a < Pow10(w) && b < Pow10(w)
    ensures FixedDigits(a, w) == FixedDigits(b, w) <==> a == b
  {
    if w > 0 {
      var sa, sb := FixedDigits(a, w), FixedDigits(b, w);
      assert a / 10 < Pow10(w - 1) && b / 10 < Pow10(w - 1);
      FixedDigitsInjective(a / 10, b / 10, w - 1);
      if sa == sb {
        assert sa[..w - 1] == FixedDigits(a / 10, w - 1);
        assert sb[..w - 1] == FixedDigits(b / 10, w - 1);
        assert sa[w - 1] == DigitChar(a % 10) && sb[w - 1] == DigitChar(b % 10);
        DigitCharValue(a % 10);
        DigitCharValue(b % 10);
      }
    }
  }

  /** Fixed-width digit strings compare as their numbers do. */
  lemma {:induction false} FixedDigitsOrder(a: nat, b: nat, w: nat)
    requires a < Pow10(w) && b < Pow10(w)
    ensures LexLess(FixedDigits(a, w), FixedDigits(b, w)) <==> a < b
  {
    if w == 0 {
      assert a == 0 && b == 0;
    } else {
      assert a / 10 < Pow10(w - 1) && b / 10 < Pow10(w - 1);
      FixedDigitsOrder(a / 10, b / 10, w - 1);
      FixedDigitsInjective(a / 10, b / 10, w - 1);
      LexLessConcat(FixedDigits(a / 10, w - 1), [DigitChar(a % 10)],
                    FixedDigits(b / 10, w - 1), [DigitChar(b % 10)]);
      assert LexLess([DigitChar(a % 10)], [DigitChar(b % 10)]) <==> a % 10 < b % 10;
    }
  }

  /** Where the fields sit in a string made of a field, a separator, two
      characters, a separator and two characters. */
  lemma FieldLayout(a: string, x: char, b: string, y: char, c: string)
    requires |b| == 2 && |c| == 2
    ensures var s := a + [x] + b + [y] + c; var n := |s|;
      && n == |a| + 6 && s[..n - 6] == a && s[n - 6] == x && s[n - 5..n - 3] == b
      && s[n - 3] == y && s[n - 2..] == c
  {
    var s := a + [x] + b + [y] + c;
    assert s == a + ([x] + b + [y] + c);
  }

  // ---------------------------------------------------------------------
  // String.prototype.trim
  // ---------------------------------------------------------------------

  /** The WhiteSpace and LineTerminator code points that ECMAScript's `trim` strips. */
  predicate IsJsWhitespace(c: char)
  {
    c == ' ' || c == '\t' || c == '\n' || c == '\U{000B}' || c == '\U{000C}' || c == '\r'
    || c == '\U{00A0}' || c == '\U{1680}' || ('\U{2000}' <= c <= '\U{200A}')
    || c == '\U{2028}' || c == '\U{2029}' || c == '\U{202F}' || c == '\U{205F}'
    || c == '\U{3000}' || c == '\U{FEFF}'
  }

  predicate AllWhitespace(s: string)
  {
    forall i :: 0 <= i < |s| ==> IsJsWhitespace(s[i])
  }

  /** Number of leading whitespace characters. */
  function LeadingSpace(s: string): (k: nat)
    ensures k <= |s| && AllWhitespace(s[..k])
    ensures k < |s| ==> !IsJsWhitespace(s[k])
  {
    if |s| == 0 || !IsJsWhitespace(s[0]) then 0
    else
      var k := 1 + LeadingSpace(s[1..]);
      assert forall i :: 1 <= i < k ==> s[..k][i] == s[1..][..k - 1][i - 1];
      k
  }

  /** Number of trailing whitespace characters. */
  function TrailingSpace(s: string): (k: nat)
    ensures k <= |s| && AllWhitespace(s[|s| - k..])
    ensures k < |s| ==> !IsJsWhitespace(s[|s| - k - 1])
    ensures |s| > 0 && !IsJsWhitespace(s[0]) ==> k < |s|
  {
    if |s| == 0 || !IsJsWhitespace(s[|s| - 1]) then 0
    else
      var k := 1 + TrailingSpace(s[..|s| - 1]);
      assert s[|s| - k..] == s[..|s| - 1][|s| - k..] + [s[|s| - 1]];
      k
  }

  /** `s.trim()`: the middle slice of `s` between leading and trailing whitespace. */
  function Trim(s: string): string
  {
    var i := LeadingSpace(s);
    s[i..][..|s[i..]| - TrailingSpace(s[i..])]
  }

  /** The trimmed string is a slice of the input with only whitespace cut
      from either end, and it neither starts nor ends with whitespace; it is
      empty exactly when the input is all whitespace. */
  lemma TrimSpec(s: string)
    ensures exists i, j :: 0 <= i <= j <= |s| && Trim(s) == s[i..j] && AllWhitespace(s[..i]) && AllWhitespace(s[j..])
    ensures |Trim(s)| > 0 ==> !IsJsWhitespace(Trim(s)[0]) && !IsJsWhitespace(Trim(s)[|Trim(s)| - 1])
    ensures |Trim(s)| == 0 <==> AllWhitespace(s)
  {
    var i, j := TrimBounds(s);
    assert s[..|s|] == s;
    if i < |s| {
      TrimNonEmpty(s);
    }
  }

  /** Where the trimmed slice starts and ends. */
  lemma TrimBounds(s: string) returns (i: nat, j: nat)
    ensures i <= j <= |s| && Trim(s) == s[i..j]
    ensures AllWhitespace(s[..i]) && AllWhitespace(s[j..])
    ensures i < j ==> !IsJsWhitespace(s[i]) && !IsJsWhitespace(s[j - 1])
    ensures i < j ==> Trim(s)[0] == s[i] && Trim(s)[j - i - 1] == s[j - 1]
    ensures i == LeadingSpace(s)
  {
    i := LeadingSpace(s);
    var rest := s[i..];
    var k := TrailingSpace(rest);
    j := |s| - k;
    SliceOfSuffix(s, i, j);
  }

  lemma SliceOfSuffix(s: string, i: nat, j: nat)
    requires i <= j <= |s|
    ensures s[i..][..j - i] == s[i..j]
    ensures s[i..][j - i..] == s[j..]
  {
  }

  /** A string with a visible character trims to a non-empty string. */
  lemma TrimNonEmpty(s: string)
    requires LeadingSpace(s) < |s|
    ensures |Trim(s)| > 0
  {
    var i := LeadingSpace(s);
    var rest := s[i..];
    var k := TrailingSpace(rest);
    assert rest[0] == s[i];
  }

  /** Trimming an already trimmed string changes nothing. */
  lemma TrimIdempotent(s: string)
    ensures Trim(Trim(s)) == Trim(s)
  {
    var r := Trim(s);
    TrimSpec(s);
    if |r| > 0 {
      assert LeadingSpace(r) == 0;
      assert TrailingSpace(r) == 0;
      assert r[0..] == r;
      assert r[..|r| - 0] == r;
    }
  }
}

=== FILE: wrappers.dfy ===
/**
  The optional value used wherever the JavaScript code works with `null`
  (a missing store entry, a record without a next-due date, an unset
  export date).
*/
module Wrappers {

  datatype Option<+T> = None | Some(value: T) {

    /** The value if present, `default` otherwise (JavaScript's `x || d`
        on a value that is never falsy when present). */
    function GetOr(default: T): T
    {
      match this
      case Some(v) => v
      case None => default
    }
  }
}
